=== FILE: README.md ===
# Commit cloud, LFS blob stores and repository configuration — a Dafny model

This project models three parts of the source control system, written in Dafny as datatypes and pure functions, with the properties their code promises proved about them.

**The repository configuration reader** (`repoconfig.rs`):
- the security whitelist of the common configuration;
- each hook's bypass option and where its code is read from;
- the conversion of a repository's raw configuration into its typed form: the storage type, remote blobstores, sharded filenodes, bookmarks and documented defaults.

**Commit cloud** (`commitcloudutil.py`, `commitcloudcommands.py`):
- The two-stage obsolescence-marker queue. Markers go to a pending log, move to a syncing log, are uploaded and are cleared. The model proves, over any sequence of appends, transfers, interrupted transfers and uploads, that no marker is lost, and that without interruptions none is duplicated.
- The subscription marker file and the daemon notifications.
- The access-token backends.
- The repository name and the remote path.
- The decisions of `hg cloud backup`, `listbackups`, `restorebackup`, `deletebackup`, `rejoin`, `leave`, `disable`, and the automatic-sync gate of `hg cloud sync`.

**The LFS blob stores** (`blobstore.py`):
- the local store;
- the git-lfs batch transfer, with the server's answers as inputs;
- the dummy, null and prompt remotes;
- the factory that picks a remote from `lfs.url` or the deprecated `lfs.remotestore`.

What is outside the program's own logic becomes an input, as follows:
- Files become maps from name to contents. An absent file is `None`.
- The network becomes oracle functions (`Server.fetch`, `Server.put`, `versionOf`) or booleans such as `daemonUp`.
- The clock is an integer `now`.
- The user's answer to a prompt is a boolean `confirmed`.
- Server-side listings become sequences and maps.

Errors the code raises on purpose are `Result` failures that carry the code's own messages. Python exceptions the code does not mean to raise (a `TypeError`, a `KeyError`) become a `Crash` error.

| file | module | models |
|---|---|---|
| wrappers.dfy | `Wrappers` | `Option`, `Result` |
| text.dfy | `Text` | `str.strip`, splitting on a separator, `os.path.basename`, Python's `int()` on a string |
| collect.dfy | `Collect` | Rust's collect-into-`Result`: convert in order, stop at the first error |
| repoconfig_types.dfy | `RepoConfigTypes` | raw and typed configuration records, error kinds and messages |
| repoconfig_common.dfy | `RepoConfigCommon` | the whitelist |
| repoconfig_hooks.dfy | `RepoConfigHooks` | bypass, hook code path, hook loading |
| repoconfig_convert.dfy | `RepoConfigConvert` | repository type, blobstores, bookmarks, defaults, one repository's config |
| obsmarker_queue.dfy | `ObsmarkerQueue` | pending/syncing marker logs and their traces |
| subscription.dfy | `Subscription` | `SubscriptionManager` |
| tokens.dfy | `Tokens` | `TokenLocator` |
| repopaths.dfy | `RepoPaths` | `getreponame`, `getremotepath` |
| cloud_backup.dfy | `CloudBackup` | `cloud backup`, `cloud listbackups` |
| cloud_restore.dfy | `CloudRestore` | `cloud restorebackup` |
| cloud_delete.dfy | `CloudDelete` | `cloud deletebackup` |
| cloud_workspace.dfy | `CloudWorkspace` | `cloud rejoin`, `leave`, `disable`, the sync gate |
| lfs_store.dfy | `LfsStore` | the local, dummy, null and prompt stores |
| lfs_batch.dfy | `LfsBatch` | the git-lfs batch transfer |
| lfs_remote.dfy | `LfsRemote` | the remote store factory |

## Model

| member | source | states |
|---|---|---|
| Text.Strip | edenscm/hgext/commitcloud/commitcloudutil.py:290-293 | The result is the input without its leading and trailing whitespace. It is a contiguous slice of the input, after exactly the leading whitespace and followed only by whitespace. |
| Text.StripIdempotent | edenscm/hgext/commitcloud/commitcloudutil.py:300-302 | Stripping an already stripped string changes nothing. |
| Text.Split | metaconfig/parser/src/repoconfig.rs:249 | Splitting on a separator gives one more part than there are separators. No part contains the separator, and joining the parts with it gives the input back. |
| Text.SplitJoin | metaconfig/parser/src/repoconfig.rs:249 | Splitting the join of separator-free parts gives those parts back (the other round trip). |
| Text.FileName | metaconfig/parser/src/repoconfig.rs:162-173 | Rust's `Path::file_name`: a non-empty name without '/', never "." or "..", and none for the empty path, the root or a path ending in "..". |
| Text.FileNameOfBasename | metaconfig/parser/src/repoconfig.rs:162-173 | When the text after the last '/' is an ordinary name, that is the file name. |
| Text.FileNameTrailing | metaconfig/parser/src/repoconfig.rs:162-173 | A trailing '/' or "/." does not change the file name, and a trailing "/.." leaves none. |
| Text.Basename | edenscm/hgext/commitcloud/commitcloudutil.py:391 | The basename is the suffix of the path after its last '/'. It contains no '/'. |
| Text.ParseInt | edenscm/hgext/commitcloud/commitcloudcommands.py:711 | Python 2's `int()` on a string accepts exactly an optional sign and a run of decimal digits, surrounded by whitespace. Whitespace may also sit between the sign and the digits. The sign decides the sign of the value. |
| Text.SpaceAfterSign | edenscm/hgext/commitcloud/commitcloudcommands.py:711 | `int("- 5")` is -5: whitespace after the sign is skipped. |
| Text.SignWithoutDigits | edenscm/hgext/commitcloud/commitcloudcommands.py:711 | A sign followed only by whitespace is a `ValueError`. |
| Text.ParseIntOfIntToString | edenscm/hgext/commitcloud/commitcloudcommands.py:711 | Reading back the decimal text of any integer gives that integer. |
| RepoConfigCommon.ConvertEntry | metaconfig/parser/src/repoconfig.rs:102-141 | An entry is accepted iff it names exactly one principal: a tier, or an identity with both type and data. Each way of failing gets its own message, and the checks run in the source's order. An accepted entry keeps its tier or identity. |
| RepoConfigCommon.ReadCommonConfig | metaconfig/parser/src/repoconfig.rs:97-152 | The whitelist loop agrees with a reference definition of the conversion. It accepts iff every entry is well formed and at most one names a tier. The accepted list holds each entry's conversion, in order. Any other failure is the first malformed entry's error. |
| RepoConfigHooks.GetBypass | metaconfig/parser/src/repoconfig.rs:243-272 | A pushvar without exactly one '=' is rejected, even when a commit string is also given. A well-formed pushvar together with a commit string is too many bypass options. Otherwise the bypass is the commit string, or the pushvar split at its '=' into a name and a value that rejoin to it. |
| RepoConfigHooks.JoinPath | metaconfig/parser/src/repoconfig.rs:216-221 | An absolute path replaces the base. A relative one is appended after the base with exactly one '/' between them: the result starts with the base, ends with the path, and is longer than both together by one character, or by none when the base is empty or already ends with '/'. |
| RepoConfigHooks.HookCodePath | metaconfig/parser/src/repoconfig.rs:198-221 | `rust:` hooks have no code path. Other hooks need a path, else the error is MissingPath. A "./" path is taken relative to the repository's directory, any other relative to the config root. |
| RepoConfigHooks.LoadHook | metaconfig/parser/src/repoconfig.rs:191-233 | The bypass error comes first, then the path error. A loaded hook keeps its name, type, bypass and config maps. It has code iff it is not a rust hook, and that code is the resolved file's content decoded as UTF-8. A missing file is a read failure naming the path, and a file that is not UTF-8 is a decode failure naming it. |
| RepoConfigHooks.LoadHooks | metaconfig/parser/src/repoconfig.rs:186-236 | All hooks load iff each one does, and the result lists them in order. A failure is the first failing hook's error. |
| RepoConfigConvert.BlobstoreArgsOf | metaconfig/parser/src/repoconfig.rs:300-352 | Per blobstore kind, the required fields are checked in order with the source's messages. Manifold's prefix defaults to "". A MySQL blobstore is accepted iff it has a shard map and a shard count above zero. |
| RepoConfigConvert.CollectBlobstoresFrom | metaconfig/parser/src/repoconfig.rs:298-359 | Blobstores are added in order. The conversion succeeds iff no blobstore is incomplete or repeats an earlier id. The map's keys are exactly the ids, each mapped to its blobstore's arguments. The first offending blobstore decides the error. |
| RepoConfigConvert.CollectBlobstores | metaconfig/parser/src/repoconfig.rs:298-359 | The same, for the whole list starting from an empty map. |
| RepoConfigConvert.ValidBlobstoresDistinct | metaconfig/parser/src/repoconfig.rs:353-358 | An accepted blobstore list has pairwise distinct ids. |
| RepoConfigConvert.DistinctIdsCount | metaconfig/parser/src/repoconfig.rs:361-369 | Pairwise distinct ids: the map has as many entries as the list. So "exactly one blobstore" in the map means exactly one in the list. |
| RepoConfigConvert.ConvertRepoType | metaconfig/parser/src/repoconfig.rs:274-396 | Local types need a path, else "No path provided for T type of repo". The remote type needs blobstores, then a database address, then a blobstore list that converts, then a positive filenodes shard count. A single blobstore is used directly; any other number is multiplexed under the blobstore scuba table. |
| RepoConfigConvert.ConvertBookmark | metaconfig/parser/src/repoconfig.rs:415-440 | A bookmark entry is accepted iff it gives a name xor a regex. Fast-forward-only defaults to false. Hooks and allowed users are carried over. |
| RepoConfigConvert.ConvertConf | metaconfig/parser/src/repoconfig.rs:274-508 | Conversion succeeds iff the repository type is accepted and every bookmark entry is. A type error is reported before bookmark errors, and once the type is accepted the only failure is "bookmark's params need to specify regex xor name". The documented defaults apply to absent fields: enabled, a 10 MiB generation cache, a 200000 warm-up commit limit, 0% hash validation, read-write, and no raw bundle2. |
| RepoConfigConvert.ConvertConfCarriesFields | metaconfig/parser/src/repoconfig.rs:401-507 | A converted configuration carries the LFS threshold, a set hash-validation percentage and a set warm-up commit limit, and keeps the scuba table, hook manager parameters, bookmark cache TTL, wireproto scribe category and skiplist key unchanged. |
| RepoConfigConvert.ReadSingleRepoConfig | metaconfig/parser/src/repoconfig.rs:158-240 | The repository is named after the last component of its directory path (`file_name()`); a path without one fails first with InvalidFileStructure "invalid repo path". Then hooks are loaded before the conversion, so a hook error wins. After loading, a conversion error is the result. Success needs all three to succeed. Its configuration is the conversion of the raw config with the loaded hooks, and holds each configured hook, loaded, in order. |
| ObsmarkerQueue.EntriesOfEncode | edenscm/hgext/commitcloud/commitcloudutil.py:425-427 | Decoding encoded markers gives them back. |
| ObsmarkerQueue.EntriesAppend | edenscm/hgext/commitcloud/commitcloudutil.py:422-428 | The markers of a log that was appended to are the old markers followed by the new ones. |
| ObsmarkerQueue.ReadMarkers | edenscm/hgext/commitcloud/commitcloudutil.py:440 | A well-formed log reads as the markers it holds. A successful read implies a version header. |
| ObsmarkerQueue.AppendMarkers | edenscm/hgext/commitcloud/commitcloudutil.py:422-428 | Appending keeps the existing bytes as a prefix. The header is written only to a new or empty file. The file then holds the old markers followed by the new ones. |
| ObsmarkerQueue.AddPendingMarkers | edenscm/hgext/commitcloud/commitcloudutil.py:420-428 | New markers go after the pending ones, and the syncing log is untouched. |
| ObsmarkerQueue.TransferAppend | edenscm/hgext/commitcloud/commitcloudutil.py:438-447 | The pending markers are appended to the syncing log, and the pending log stays until it is unlinked. |
| ObsmarkerQueue.GetSyncingMarkers | edenscm/hgext/commitcloud/commitcloudutil.py:431-455 | On a well-formed queue, the pending log is gone afterwards. The result is the old syncing markers then the pending ones, and that is what the syncing log now holds. With no pending log the queue is untouched; with neither log the result is empty. |
| ObsmarkerQueue.ClearSyncingMarkers | edenscm/hgext/commitcloud/commitcloudutil.py:458-460 | The syncing log is removed iff it exists; otherwise the error is NoSuchFile. The pending log is untouched. |
| ObsmarkerQueue.StepAccounts | edenscm/hgext/commitcloud/commitcloudutil.py:398-460 | Any single step keeps each queued or added marker queued or uploaded. Every step except an interrupted transfer does so exactly: it adds no copies. |
| ObsmarkerQueue.NoMarkerLost | edenscm/hgext/commitcloud/commitcloudutil.py:398-460 | Take any sequence of appends, transfers, interrupted transfers and uploads. Every marker that was queued or added is still queued or has been uploaded, counted with multiplicity. |
| ObsmarkerQueue.ExactlyOnceWithoutInterruption | edenscm/hgext/commitcloud/commitcloudutil.py:398-460 | Without interrupted transfers, the queued and uploaded markers are exactly the initial and added ones: no loss and no duplicates. |
| ObsmarkerQueue.InterruptedTransferDuplicates | edenscm/hgext/commitcloud/commitcloudutil.py:436-448 | A transfer interrupted before the unlink, followed by a full transfer, delivers the pending markers twice. |
| Subscription.HomeDir | edenscm/hgext/commitcloud/commitcloudutil.py:34-68 | A non-empty configured path decides alone: found iff it is a directory, else "invalid commitcloud.<option> '<path>'". Otherwise $HOME, or $APPDATA on Windows, is found iff it is set, non-empty and a directory, with the "environment variable not found" and "invalid homedir" errors. A found directory always exists. |
| Subscription.OpenManager | edenscm/hgext/commitcloud/commitcloudutil.py:317-337 | The repository name is looked up before the home directory, and the first error wins. A manager exists iff both succeed, and it advertises the looked-up name. |
| Subscription.RestartService | edenscm/hgext/commitcloud/commitcloudutil.py:374-383 | The restart request reaches the daemon iff it is up. The not-running warning appears iff the daemon is down and warnings were asked for. |
| Subscription.ProbeService | edenscm/hgext/commitcloud/commitcloudutil.py:368-372 | A probe never requests a restart. It warns iff the daemon is down. |
| Subscription.RemoveSubscription | edenscm/hgext/commitcloud/commitcloudutil.py:352-355 | The marker is gone afterwards and nothing else in the directory changes. Removal never warns. A restart is requested iff a marker was there and the daemon is up. |
| Subscription.CheckSubscription | edenscm/hgext/commitcloud/commitcloudutil.py:338-350 | With subscriptions disabled, a check is a removal. Otherwise the marker exists afterwards and nothing else changes. A missing marker is written with the workspace, name and root, followed by a restart request, or a warning when the daemon is down. An existing marker is kept as is and the daemon is only probed. |
| Subscription.RemoveIdempotent | edenscm/hgext/commitcloud/commitcloudutil.py:352-355 | Removing a second time changes nothing and has no effect. |
| Subscription.CheckSettles | edenscm/hgext/commitcloud/commitcloudutil.py:338-350 | After a check with subscriptions enabled, the next check leaves the directory alone and requests no restart. |
| Subscription.MarkerContentsLines | edenscm/hgext/commitcloud/commitcloudutil.py:343-347 | The marker file reads back, line by line, as the section header and the workspace, repo_name and repo_root settings. This holds when no value contains a newline. |
| Subscription.MarkerContentsText | edenscm/hgext/commitcloud/commitcloudutil.py:343-347 | The marker file's text is the `[commitcloud]` section with the three settings, each line ended by a newline. |
| Tokens.BackendOf | edenscm/hgext/commitcloud/commitcloudutil.py:283-288 | The keychain is used iff the platform is macOS and no non-empty token path is configured. |
| Tokens.KeychainRead | edenscm/hgext/commitcloud/commitcloudutil.py:219-223 | A token found in the keychain is non-empty and already stripped. No stored password means no token. |
| Tokens.GetToken | edenscm/hgext/commitcloud/commitcloudutil.py:273-293 | With TLS needing no token, the result is "not-required". Otherwise any token returned is stripped. From the token file, there is a token iff one is stored, and it is the stored one stripped. From the keychain, the result is what the keychain lookup gives, so no token when no password is stored or it is blank. |
| Tokens.SetToken | edenscm/hgext/commitcloud/commitcloudutil.py:295-309 | The stripped token is stored in the backend the configuration picks. The other backend is untouched. |
| Tokens.SetThenGet | edenscm/hgext/commitcloud/commitcloudutil.py:273-309 | Reading after storing gives the stored token back, stripped. The one exception is a keychain holding only whitespace, which reads as no token. |
| Tokens.SetTokenIgnoresPadding | edenscm/hgext/commitcloud/commitcloudutil.py:300-302 | Storing a token and storing it stripped have the same effect. |
| RepoPaths.GetRepoNameAsWritten | edenscm/hgext/commitcloud/commitcloudutil.py:386-395 | As written, the code crashes whenever `paths.default` is unset. Otherwise it agrees with the intended name lookup. |
| RepoPaths.GetRepoName | edenscm/hgext/commitcloud/commitcloudutil.py:386-395 | There is a name iff a non-empty one is configured, or none is configured and `paths.default` has a non-empty basename. Otherwise the error is "unknown repo". A fallback name is the last path component of `paths.default`. |
| RepoPaths.RepoNameEagerFallback | edenscm/hgext/commitcloud/commitcloudutil.py:388-392 | A configured name with no `paths.default` fails as written, and is found as intended. |
| RepoPaths.PushTarget | edenscm/hgext/commitcloud/commitcloudutil.py:471 | A path's push location is used when it is set and non-empty, else its location. |
| RepoPaths.GetRemotePath | edenscm/hgext/commitcloud/commitcloudutil.py:463-471 | An empty or missing destination uses the `infinitepush` path, then `default`. If neither exists the call aborts with the source's message and hint. A named destination uses its configured path, or stands for itself. |
| RepoPaths.EmptyDestIsDefault | edenscm/hgext/commitcloud/commitcloudutil.py:464-465 | An empty destination gives the same remote as no destination. |
| RepoPaths.DefaultPreference | edenscm/hgext/commitcloud/commitcloudutil.py:465 | With no destination, the result is that of naming `infinitepush` when it is configured, else that of naming `default`. |
| CloudBackup.CloudBackup | edenscm/hgext/commitcloud/commitcloudcommands.py:332-377 | The command aborts iff revisions are given together with `--background`. It goes to the background iff no revisions are given with `--background`. Otherwise it exits 0 iff nothing failed, and 2 if something did. Bookmarks are pushed iff no revisions were named. It reports the backed-up count, the failed count, or "nothing to back up", each exactly when it applies. |
| CloudBackup.BackupExitCode | edenscm/hgext/commitcloud/commitcloudcommands.py:339-377 | The command has no status iff revisions are named together with `--background`. Otherwise it exits 0 iff it went to the background or no commit failed, and 2 iff a foreground backup had failures. |
| CloudBackup.HostsInOrder | edenscm/hgext/commitcloud/commitcloudcommands.py:396-398 | Lists each host of some backup exactly once. |
| CloudBackup.RootsOf | edenscm/hgext/commitcloud/commitcloudcommands.py:396-398 | A host's roots are exactly the roots of its backups. |
| CloudBackup.GroupingStep | edenscm/hgext/commitcloud/commitcloudcommands.py:396-398 | One more backup adds its host at the end if the host is new, and adds its root at the end of that host's roots: `setdefault(...).append`. |
| CloudBackup.RegroupExisting | edenscm/hgext/commitcloud/commitcloudcommands.py:397-398 | A backup from a host already listed extends that host's group, and the grouping stays correct. |
| CloudBackup.RegroupNew | edenscm/hgext/commitcloud/commitcloudcommands.py:397-398 | A backup from a new host opens a group at the end, and the grouping stays correct. |
| CloudBackup.GroupByHost | edenscm/hgext/commitcloud/commitcloudcommands.py:395-399 | The JSON listing has one group per host, in first-appearance order. Each group holds that host's roots in listing order. |
| CloudBackup.CloudListBackups | edenscm/hgext/commitcloud/commitcloudcommands.py:388-405 | The user is `--user` when it is non-empty, else the current user. `--json` groups by host, even when nothing is listed. Without it, an empty listing says there are no backups for that user. |
| CloudRestore.NonHeadTargetsMembers | edenscm/hgext/commitcloud/commitcloudcommands.py:461 | The list holds exactly the bookmark targets that are not heads. |
| CloudRestore.NonHeadTargetsAppend | edenscm/hgext/commitcloud/commitcloudcommands.py:457-461 | The list for concatenated bookmarks is the concatenation of the lists, so the targets keep bookmark order and equal targets are not merged. |
| CloudRestore.NonHeadTargetsCons | edenscm/hgext/commitcloud/commitcloudcommands.py:457-461 | Read from the front, as the comprehension is: the first bookmark's target unless it is a head, then the targets of the rest, one per bookmark. |
| CloudRestore.PullRevs | edenscm/hgext/commitcloud/commitcloudcommands.py:457-462 | The heads come first, in order, and after them exactly the non-head bookmark targets, in bookmark order. Every bookmark target is pulled, no head appears after the heads, and nothing else is pulled. |
| CloudRestore.FilterPresent | edenscm/hgext/commitcloud/commitcloudcommands.py:476-483 | Keeps exactly the bookmarks whose target is (or is not) in the repository. |
| CloudRestore.FilterPresentSplits | edenscm/hgext/commitcloud/commitcloudcommands.py:476-483 | Recreated and skipped bookmarks together hold as many entries as the backup. |
| CloudRestore.CloudRestoreBackup | edenscm/hgext/commitcloud/commitcloudcommands.py:417-494 | No backups gives "no backups found". Several abort, with their count. Exactly one is restored: the pull list is pulled and recorded as backed up. Bookmarks whose target arrived are recreated, the others are skipped. Autobackup is suppressed, and the result is the pull's. |
| CloudRestore.RestoreExitCode | edenscm/hgext/commitcloud/commitcloudcommands.py:439-494 | The command has no status (it aborts) iff several backups match. When none matches it exits 1, and when exactly one does it exits with the pull's status. |
| CloudDelete.ValidateNamesAsWritten | edenscm/hgext/commitcloud/commitcloudcommands.py:515-526 | As written, the names pass iff both are non-empty and match the regexes with Python's `$`, which also allows one trailing newline. |
| CloudDelete.ValidateNames | edenscm/hgext/commitcloud/commitcloudcommands.py:515-526 | As intended, the names pass iff both are non-empty and made only of the allowed characters. The checks run in order: missing arguments, then a bad root, then a bad host. |
| CloudDelete.TrailingNewlineSlipsThrough | edenscm/hgext/commitcloud/commitcloudcommands.py:524-526 | The host name "devvm1\n" passes as written, and is rejected as intended. |
| CloudDelete.ValidationAgreesWithoutNewline | edenscm/hgext/commitcloud/commitcloudcommands.py:521-526 | Both checks agree on names that do not end in a newline. |
| CloudDelete.CloudDeleteBackup | edenscm/hgext/commitcloud/commitcloudcommands.py:505-555 | Names that fail the checks (as written, or as intended) abort before anything is downloaded, with no warning. A backup is shown iff the names pass and the server has it; otherwise the abort says "no backup found for R on H". A shown backup is deleted iff the user confirms. Once the names pass, the current-repo warning is written iff both are this repository's, before the lookup, so also on the "no backup found" abort. |
| CloudDelete.IntendedNamesDecideAlike | edenscm/hgext/commitcloud/commitcloudcommands.py:521-555 | For names the intended checks accept, the command decides the same way with either check. |
| CloudDelete.NewlineHostReachesServer | edenscm/hgext/commitcloud/commitcloudcommands.py:524-537 | As written, the host name "devvm1\n" gets past the checks and is looked up on the server. As intended, it aborts with the host-name message first. |
| CloudWorkspace.ChooseWorkspace | edenscm/hgext/commitcloud/commitcloudcommands.py:141-145 | The workspace is the one given, else the current one, else the default. |
| CloudWorkspace.CloudRejoin | edenscm/hgext/commitcloud/commitcloudcommands.py:133-178 | No token, a failed service check or a registration error means "not authenticated", with nothing changed. Version 0 means "never connected", with nothing changed. Any other version reconnects to the chosen workspace, and that workspace becomes current. |
| CloudWorkspace.CloudLeave | edenscm/hgext/commitcloud/commitcloudcommands.py:182-200 | With no current workspace nothing changes. Otherwise the subscription manager is constructed; if that fails, leave aborts with its error and the repository stays connected. Else the subscription marker is removed and the workspace cleared. |
| CloudWorkspace.RejoinSettles | edenscm/hgext/commitcloud/commitcloudcommands.py:133-178 | Repeating a rejoin from the state it left gives the same outcome and state. After reconnecting to a workspace, a rejoin naming none picks that workspace again, whatever the default. |
| CloudWorkspace.LeaveIdempotent | edenscm/hgext/commitcloud/commitcloudcommands.py:188-194 | Leaving twice is leaving once: after a leave that did not abort, the second call reports "already disconnected" and changes nothing, whatever the manager does. After an abort the repository is unchanged. |
| CloudWorkspace.LeaveWithoutDefaultPath | edenscm/hgext/commitcloud/commitcloudcommands.py:193-194 | With a name configured and no `paths.default`, leave as written aborts in the manager's name lookup and the repository stays connected. With the intended lookup it disconnects and the marker is gone. |
| CloudWorkspace.CloudSyncStart | edenscm/hgext/commitcloud/commitcloudcommands.py:595-608 | The sync is skipped iff asked to check the automatic-sync setting and that setting is off. A sync that runs suppresses autobackup. It uses the background ssh command iff asked to and one is configured. |
| CloudWorkspace.SyncGateOnlyWhenChecked | edenscm/hgext/commitcloud/commitcloudcommands.py:597-608 | An unchecked sync starts the same way whatever the automatic-backup setting. A checked sync that runs starts exactly like an unchecked one. |
| CloudWorkspace.BackupDisable | edenscm/hgext/commitcloud/commitcloudcommands.py:700-722 | The "already disabled" note is written iff autobackup was off, whether or not the command then aborts. Disabling succeeds iff `--hours` reads as an integer; otherwise it aborts with the source's message. Autobackup is then disabled until now plus that many hours. |
| CloudWorkspace.DisableParsed | edenscm/hgext/commitcloud/commitcloudcommands.py:707-722 | Whatever text `int()` reads as h hours disables for exactly h hours, and the note reflects the setting. |
| CloudWorkspace.DisableForHours | edenscm/hgext/commitcloud/commitcloudcommands.py:700-711 | Any decimal hour count disables for exactly that many hours. |
| CloudWorkspace.DisableDefaultHour | edenscm/hgext/commitcloud/commitcloudcommands.py:700-711 | The default "1" disables for one hour. |
| LfsStore.Write | hgext3rd/lfs/blobstore.py:35-38 | The store then holds the blob under its object id. Every other object id keeps its presence and contents. |
| LfsStore.Read | hgext3rd/lfs/blobstore.py:40-42 | A read succeeds iff the store has the blob, and gives its contents. A missing blob is an error naming the object id. |
| LfsStore.WriteThenRead | hgext3rd/lfs/blobstore.py:35-47 | A written blob is held and reads back. Blobs with other object ids read as before. |
| LfsStore.CopyBlobs | hgext3rd/lfs/blobstore.py:172-181 | Copying succeeds iff the source holds every listed blob, and the listed blobs then have the source's contents. Nothing is removed. Only listed object ids are added, and unlisted ones keep their contents. |
| LfsStore.DummyWriteBatch | hgext3rd/lfs/blobstore.py:172-176 | An upload succeeds iff the local store holds every blob. The remote directory then has their local contents. |
| LfsStore.DummyReadBatch | hgext3rd/lfs/blobstore.py:178-181 | A download succeeds iff the remote directory holds every blob. The local store then has their remote contents. |
| LfsStore.DummyRoundTrip | hgext3rd/lfs/blobstore.py:165-181 | Uploading blobs and downloading them into any store gives that store the uploaded contents. |
| LfsStore.NullBatch | hgext3rd/lfs/blobstore.py:189-193 | Uploads and downloads to the null remote neither fail nor change any store. |
| LfsStore.PromptBatch | hgext3rd/lfs/blobstore.py:201-208 | Uploads and downloads to the prompt remote abort with "lfs.url needs to be configured" and change nothing. |
| LfsBatch.TruncateOid | hgext3rd/lfs/blobstore.py:76 | The id sent is a prefix of the object id, at most 40 characters long. Short ids are sent unchanged. |
| LfsBatch.BatchRequest | hgext3rd/lfs/blobstore.py:71-82 | There is one request object per blob, in order, with the truncated id and the size. |
| LfsBatch.StoreIdMap | hgext3rd/lfs/blobstore.py:74-82 | A truncated id is mapped iff some blob has it. When several blobs share it, the last of them wins. |
| LfsBatch.StoreIdMapCovers | hgext3rd/lfs/blobstore.py:75-82 | Every requested blob can be looked up by its truncated id. |
| LfsBatch.ProgressTotal | hgext3rd/lfs/blobstore.py:101-107 | A caller's total is kept. Otherwise the total is the sum of reported sizes when that is positive, and none when it is not. |
| LfsBatch.ReportedSizeBounds | hgext3rd/lfs/blobstore.py:103-105 | With all sizes present and non-negative, the sum is non-negative and at least each object's size. |
| LfsBatch.OfferedActions | hgext3rd/lfs/blobstore.py:115 | Offered actions are the object's. A missing `actions` member fails as written and means no actions as intended. |
| LfsBatch.ProcessObject | hgext3rd/lfs/blobstore.py:110-151 | Handling succeeds iff the action is offered (or, on upload, skipped), the size is present, the id was requested, the local blob exists and the HTTP exchange works. An upload sends the local contents to the offered link. A download stores what the link returned. An action not offered skips an upload and fails a download. |
| LfsBatch.ProcessAll | hgext3rd/lfs/blobstore.py:110-151 | A batch completes iff every object succeeds, stopping at the first failure. An upload leaves the local store alone, and a download sends nothing. |
| LfsBatch.ProcessAllUploads | hgext3rd/lfs/blobstore.py:125-136 | A completed upload sends exactly the uploads of the objects that offer one, in order, with the local contents of each blob. |
| LfsBatch.ProcessAllDownloads | hgext3rd/lfs/blobstore.py:136-141 | A download never removes a local blob. A completed download leaves every response object's blob in the local store. |
| LfsBatch.LastWriter | hgext3rd/lfs/blobstore.py:109-141 | The position of the last response object whose id maps to a given local blob, or -1 when no object does. |
| LfsBatch.ProcessAllDownloadContents | hgext3rd/lfs/blobstore.py:109-141 | After a completed download, every blob some response object writes holds what the last such object's link returned. Whether or not the download completed, every other blob keeps its presence and contents. |
| LfsBatch.Batch | hgext3rd/lfs/blobstore.py:66-155 | An operation other than upload or download fails before anything is sent. Otherwise the response is handled against the blobs requested, with the guarantees of ProcessAll, ProcessAllUploads, ProcessAllDownloads and ProcessAllDownloadContents: a completed upload sends exactly UploadsOf, and a download leaves each written blob with its fetched contents and every other blob untouched. |
| LfsBatch.UploadWithoutActions | hgext3rd/lfs/blobstore.py:115 | An upload whose response object has no `actions` member fails as written. As intended, it completes and sends nothing. |
| LfsRemote.DefaultUrl | hgext3rd/lfs/blobstore.py:220-233 | `dummy` stands for the `file://` URL of `lfs.remotepath` and crashes when that is unset. `git-lfs` stands for `lfs.remoteurl`, `null` for `null://`, and anything else for "". |
| LfsRemote.SchemeOf | hgext3rd/lfs/blobstore.py:235-236 | A scheme found is the non-empty run of scheme characters before the URL's first ':'. |
| LfsRemote.StoreForUrl | hgext3rd/lfs/blobstore.py:210-239 | `https` and `http` pick git-lfs, `file` the dummy store, `null` the null store, and no scheme the prompt store, each iff the scheme is that one. Any other scheme aborts with "lfs: unknown url scheme: S". |
| LfsRemote.Remote | hgext3rd/lfs/blobstore.py:218-239 | A failing default URL fails the factory even when `lfs.url` is set, because the default is evaluated first. `lfs.url`, when set, picks the store; otherwise the default does. No URL at all crashes. |
| LfsRemote.DeprecatedNull | hgext3rd/lfs/blobstore.py:232-239 | The deprecated `null` store gives the null remote. |
| LfsRemote.DeprecatedDummy | hgext3rd/lfs/blobstore.py:226-239 | The deprecated `dummy` store gives the dummy remote at `file://` plus its path. |
| LfsRemote.DeprecatedGitLfs | hgext3rd/lfs/blobstore.py:229-239 | The deprecated `git-lfs` store with an https URL gives the git-lfs remote. |
| LfsRemote.NothingConfigured | hgext3rd/lfs/blobstore.py:215-239 | With nothing configured, the remote is the prompt store. |
| LfsRemote.SchemeOfPrefix | hgext3rd/lfs/blobstore.py:235-236 | A URL written as a scheme (two or more scheme characters), a ':' and a rest has that scheme. |

## Left out

**Outside world**
- File, lock and socket I/O are left out. The obsmarker locks, the backup lock and `trylock`, atomic temp files and file modes are not modelled, because they protect against concurrency, which the model does not have. The marker logs, the store directories and the joined directory are maps or optional sequences.
- The subscription marker's file name (a SHA-256 of root, name and workspace) is an opaque string. Hashing is not part of the model.
- The `security` keychain subprocess is left out. Its return codes 36 and 44 and its `SubprocessError` are not modelled; the keychain is the stored value itself.
- The token file's config parsing, its home-directory lookup and the secrets-tool backup of the token are left out. The file is reduced to the token it holds.
- Terminal output is left out: status lines, progress bars, verbose messages, education-page hints and `printbackupbookmarks`. Outcomes are datatypes instead of text.
- The commit cloud service is left out: `serv.check()` is the boolean `serviceAccepts` and `getreferences` is the oracle `versionOf`. The backup bookmark download and deletion, the backup itself and the pull are left out; their results are inputs.
- In rejoin, getreponame errors and the sync that follows a reconnect are left out.
- `util.expandpath` of a configured home path (`~` and environment variables) is not modelled. The path is used as given.
- In `cloud sync`, everything after the gate (the sync, the working-copy update and the background backup of other repositories) is left out. These steps are not modelled.
- In restorebackup, the `--dest` source, `createlandedasmarkers` and the local backup-state file are left out. The pulled revisions are recorded as `backedUp`.
- The HTTP request of the LFS batch call and its JSON encoding are left out. The server's response objects and what following a link does are inputs. Link headers are carried but unused.
- The disable timestamp is formatted for display; that formatting is left out. `now` is whole seconds.
- Python 2 `long` arithmetic is not modelled; Dafny integers are unbounded, as Python's are.

**Simplified**
- LfsRemote.SchemeOf: `util.url` is not part of this model, so URL parsing is reduced to the text before the first ':'. A drive letter ("c:") counts as no scheme. Quoting, `bundle:` and other special cases are not modelled.
- RepoConfigHooks.LoadHook: a hook file's bytes are reduced to what `str::from_utf8` makes of them, the decoded text or a decode failure. The position of the first invalid byte is not modelled.
- RepoPaths.GetRemotePath: the `ui.paths` lookup of a destination that is neither a configured name nor empty is reduced to "the destination stands for its own location". URL validation of such a destination is not modelled.
- LfsBatch.ProcessObject: a download whose object id was not requested is reported as the `KeyError` crash before the link is followed. The code follows the link first, so an HTTP error there would instead be reported as a failed request. Either way the object fails.
- ObsmarkerQueue: the marker binary format (fm1) is abstract. A log is a version header followed by marker records, and `_readmarkers` is ReadMarkers.

**Parts of repoconfig.rs**
- RepoConfigConvert.ReadSingleRepoConfig: the "invalid repo path" message quotes the path without Rust's `{:?}` escaping of quotes, backslashes and control characters. A name that is not valid UTF-8 (`to_str()` failing) cannot occur, because paths are strings.
- Directory walking, the TOML deserialisation and the `server.toml`/`common.toml` existence checks are left out. The raw records are the input.
- `pushrebase` is left out: `PushrebaseParams::default()` is not part of this model.
- The `Bookmark::new` panics on non-ASCII names are left out.

## Findings

| source | as written | input that shows it | evidently intended | confidence | as-written member | corrected member |
|---|---|---|---|---|---|---|
| edenscm/hgext/commitcloud/commitcloudutil.py:388-392 | The fallback `os.path.basename(ui.config("paths", "default"))` is evaluated before the configured name is looked up. | `remotefilelog.reponame = fbsource` with `paths.default` unset: `basename(None)` raises, although a name is configured. | Use the basename of `paths.default` only when no name is configured. | medium, not executed | RepoPaths.GetRepoNameAsWritten (RepoPaths.RepoNameEagerFallback), and Subscription.OpenManager with `asWritten` true (CloudWorkspace.LeaveWithoutDefaultPath) | RepoPaths.GetRepoName, and Subscription.OpenManager with `asWritten` false |
| edenscm/hgext/commitcloud/commitcloudcommands.py:521-526 | `re.match(r"^[-a-zA-Z0-9.]+$", name)`: Python's `$` also matches before a final newline. | `--reporoot /data/repo --hostname "devvm1\n"` passes the sanity check. | The names consist only of the listed characters. | medium, not executed | CloudDelete.ValidateNamesAsWritten, and CloudDelete.CloudDeleteBackup with `asWritten` true (CloudDelete.TrailingNewlineSlipsThrough, CloudDelete.NewlineHostReachesServer) | CloudDelete.ValidateNames, and CloudDelete.CloudDeleteBackup with `asWritten` false |
| hgext3rd/lfs/blobstore.py:115 | `action not in obj.get('actions')` raises `TypeError` when the object has no `actions` member. | An upload whose response object is `{"oid": ..., "size": ...}`, with no actions, because the server already has the blob. | A missing `actions` member means the action is unavailable: the upload skips the object. | medium, not executed | LfsBatch.OfferedActions with `asWritten` true (LfsBatch.UploadWithoutActions) | LfsBatch.OfferedActions with `asWritten` false, as LfsBatch.Batch is used for the intended behaviour |

=== FILE: cloud_backup.dfy ===
/** The decisions of `hg cloud backup` and `hg cloud listbackups`. The
    backup itself, the revision parser and the server download are inputs:
    what the backup reported as backed up and failed, and the backups the
    server listed. */
module CloudBackup {
  import opened Wrappers

  const MsgBackgroundWithRevs: string := "'--background' cannot be used with specific revisions"

  /** A status line of the backup command. */
  datatype Message =
    /** "backed up N commit(s)" */
    | BackedUp(count: nat)
    /** "failed to back up N commit(s)", a warning */
    | FailedToBackUp(count: nat)
    | NothingToBackUp

  datatype BackupOutcome =
    | BackupAborted(message: string)
    /** The backup was handed to a background process; exit status 0. */
    | BackgroundStarted
    /** A foreground backup ran; `bookmarksPushed` is whether the backup
        bookmarks were also updated. */
    | BackupDone(messages: seq<Message>, bookmarksPushed: bool, status: int)

  /** `hg cloud backup [REV...] [-r REV...] [--background]`. `backedUp` and
      `failed` are what the backup of the requested commits (all visible
      commits when none is named) reported. */
  function CloudBackup(revArgs: seq<string>, revOpts: seq<string>, background: bool,
                       backedUp: seq<string>, failed: seq<string>): (r: BackupOutcome)
    ensures r.BackupAborted? <==> |revArgs + revOpts| > 0 && background
    ensures r.BackupAborted? ==> r.message == MsgBackgroundWithRevs
    ensures r.BackgroundStarted? <==> |revArgs + revOpts| == 0 && background
    ensures r.BackupDone? ==>
      // exit status: 0 when nothing failed, 2 otherwise
      && (r.status == 0 <==> |failed| == 0)
      && (r.status == 0 || r.status == 2)
      // a full backup also pushes the backup bookmarks
      && (r.bookmarksPushed <==> |revArgs + revOpts| == 0)
      && (NothingToBackUp in r.messages <==> |backedUp| == 0 && |failed| == 0)
      && (BackedUp(|backedUp|) in r.messages <==> |backedUp| > 0)
      && (FailedToBackUp(|failed|) in r.messages <==> |failed| > 0)
      && |r.messages| >= 1
  {
    var revs := revArgs + revOpts;
    if |revs| > 0 && background then BackupAborted(MsgBackgroundWithRevs)
    else if background then BackgroundStarted
    else
      var messages :=
        (if |backedUp| > 0 then [BackedUp(|backedUp|)] else [])
        + (if |failed| > 0 then [FailedToBackUp(|failed|)] else [])
        + (if |backedUp| == 0 && |failed| == 0 then [NothingToBackUp] else []);
      BackupDone(messages, |revs| == 0, if |failed| == 0 then 0 else 2)
  }

  /** The exit status of the command; an abort has none. */
  function ExitStatus(o: BackupOutcome): (s: int)
    requires !o.BackupAborted?
    ensures o.BackgroundStarted? ==> s == 0
  {
    if o.BackgroundStarted? then 0 else o.status
  }

  /** The exit status of `hg cloud backup` in terms of its arguments and what
      the backup reported: none when the options clash, 0 when the backup
      went to the background or nothing failed, 2 when something failed. */
  function BackupExitCode(revArgs: seq<string>, revOpts: seq<string>, background: bool,
                          backedUp: seq<string>, failed: seq<string>): (s: Option<int>)
    ensures s.None? <==> |revArgs + revOpts| > 0 && background
    ensures s.Some? ==> (s.value == 0 <==> background || |failed| == 0)
    ensures s.Some? ==> (s.value == 2 <==> !background && |failed| > 0)
  {
    var o := CloudBackup(revArgs, revOpts, background, backedUp, failed);
    if o.BackupAborted? then None else Some(ExitStatus(o))
  }

  // ---- listbackups --json --------------------------------------------------------

  /** A backup on the server is named by the host and repository root it
      was made from. */
  datatype BackupKey = BackupKey(hostname: string, reporoot: string)

  /** The hosts of `keys`, each once, in order of first appearance. */
  function HostsInOrder(keys: seq<BackupKey>): (hs: seq<string>)
    ensures forall h :: h in hs <==> exists k :: k in keys && k.hostname == h
    ensures forall i, j :: 0 <= i < j < |hs| ==> hs[i] != hs[j]
  {
    if |keys| == 0 then []
    else
      var prev := HostsInOrder(keys[..|keys| - 1]);
      var h := keys[|keys| - 1].hostname;
      assert forall k :: k in keys <==> k in keys[..|keys| - 1] || k == keys[|keys| - 1];
      if h in prev then prev else prev + [h]
  }

  /** The repository roots backed up from host `h`, in the order listed. */
  function RootsOf(keys: seq<BackupKey>, h: string): (rs: seq<string>)
    ensures |rs| <= |keys|
    ensures forall r :: r in rs <==> BackupKey(h, r) in keys
  {
    if |keys| == 0 then []
    else
      var k := keys[|keys| - 1];
      assert forall x :: x in keys <==> x in keys[..|keys| - 1] || x == k;
      RootsOf(keys[..|keys| - 1], h) + (if k.hostname == h then [k.reporoot] else [])
  }

  /** One more listed backup adds its host at the end if it is new, and its
      root at the end of that host's roots. */
  lemma GroupingStep(p: seq<BackupKey>, k: BackupKey)
    ensures HostsInOrder(p + [k]) ==
      if k.hostname in HostsInOrder(p) then HostsInOrder(p) else HostsInOrder(p) + [k.hostname]
    ensures forall h :: (RootsOf(p + [k], h) ==
      RootsOf(p, h) + (if k.hostname == h then [k.reporoot] else []))
  {
    assert (p + [k])[..|p + [k]| - 1] == p;
  }

  lemma {:induction false} RootsOfAbsent(p: seq<BackupKey>, h: string)
    requires forall k :: k in p ==> k.hostname != h
    ensures RootsOf(p, h) == []
  {
    if |p| > 0 {
      RootsOfAbsent(p[..|p| - 1], h);
    }
  }

  /** One JSON member: a host and the roots backed up from it. */
  datatype HostGroup = HostGroup(hostname: string, reporoots: seq<string>)

  /** `groups` is the grouping of the backups `p`. */
  predicate Grouped(groups: seq<HostGroup>, p: seq<BackupKey>) {
    && |groups| == |HostsInOrder(p)|
    && forall i :: 0 <= i < |groups| ==>
      groups[i] == HostGroup(HostsInOrder(p)[i], RootsOf(p, HostsInOrder(p)[i]))
  }

  /** A backup from a host already listed joins the end of that host's
      group. */
  lemma RegroupExisting(groups: seq<HostGroup>, p: seq<BackupKey>, k: BackupKey, j: nat)
    requires Grouped(groups, p)
    requires j < |groups| && groups[j].hostname == k.hostname
    ensures Grouped(groups[j := HostGroup(k.hostname, groups[j].reporoots + [k.reporoot])], p + [k])
  {
    var hs := HostsInOrder(p);
    GroupingStep(p, k);
    assert hs[j] == k.hostname;
    assert HostsInOrder(p + [k]) == hs;
    var g := groups[j := HostGroup(k.hostname, groups[j].reporoots + [k.reporoot])];
    forall i | 0 <= i < |g|
      ensures g[i] == HostGroup(hs[i], RootsOf(p + [k], hs[i]))
    {
      if i != j {
        assert hs[i] != hs[j];
        assert RootsOf(p + [k], hs[i]) == RootsOf(p, hs[i]);
      }
    }
  }

  /** A backup from a new host opens a group at the end. */
  lemma RegroupNew(groups: seq<HostGroup>, p: seq<BackupKey>, k: BackupKey)
    requires Grouped(groups, p)
    requires forall i :: 0 <= i < |groups| ==> groups[i].hostname != k.hostname
    ensures Grouped(groups + [HostGroup(k.hostname, [k.reporoot])], p + [k])
  {
    var hs := HostsInOrder(p);
    assert k.hostname !in hs by {
      forall i | 0 <= i < |hs| ensures hs[i] != k.hostname {
        assert groups[i].hostname == hs[i];
      }
    }
    GroupingStep(p, k);
    var hs' := HostsInOrder(p + [k]);
    assert hs' == hs + [k.hostname];
    RootsOfAbsent(p, k.hostname);
    var g := groups + [HostGroup(k.hostname, [k.reporoot])];
    forall i | 0 <= i < |g|
      ensures g[i] == HostGroup(hs'[i], RootsOf(p + [k], hs'[i]))
    {
      if i < |groups| {
        assert hs'[i] == hs[i] && hs[i] != k.hostname;
        assert RootsOf(p + [k], hs[i]) == RootsOf(p, hs[i]);
      } else {
        assert hs'[i] == k.hostname;
        assert RootsOf(p + [k], k.hostname) == [k.reporoot];
      }
    }
  }

  /** The `--json` listing: backups grouped by host, hosts in order of first
      appearance, each host's roots in listing order. */
  method GroupByHost(keys: seq<BackupKey>) returns (groups: seq<HostGroup>)
    ensures |groups| == |HostsInOrder(keys)|
    ensures forall i :: 0 <= i < |groups| ==>
      groups[i] == HostGroup(HostsInOrder(keys)[i], RootsOf(keys, HostsInOrder(keys)[i]))
  {
    groups := [];
    var n := 0;
    while n < |keys|
      invariant 0 <= n <= |keys|
      invariant Grouped(groups, keys[..n])
    {
      var k := keys[n];
      assert keys[..n + 1] == keys[..n] + [k];
      var j := 0;
      while j < |groups| && groups[j].hostname != k.hostname
        invariant 0 <= j <= |groups|
        invariant forall i :: 0 <= i < j ==> groups[i].hostname != k.hostname
      {
        j := j + 1;
      }
      if j < |groups| {
        RegroupExisting(groups, keys[..n], k, j);
        groups := groups[j := HostGroup(k.hostname, groups[j].reporoots + [k.reporoot])];
      } else {
        RegroupNew(groups, keys[..n], k);
        groups := groups + [HostGroup(k.hostname, [k.reporoot])];
      }
      n := n + 1;
    }
    assert keys[..n] == keys;
  }

  datatype ListOutcome =
    | JsonListing(groups: seq<HostGroup>)
    | NoBackupsAvailable(user: string)
    | Listing(user: string, all: bool)

  /** `hg cloud listbackups`: the user is `--user` when given, else the
      current user; JSON output groups by host even when empty. */
  method CloudListBackups(userOpt: string, currentUser: string, json: bool, all: bool,
                          keys: seq<BackupKey>) returns (r: ListOutcome)
    ensures json ==> r.JsonListing? && |r.groups| == |HostsInOrder(keys)|
    ensures json ==> forall i :: 0 <= i < |r.groups| ==>
      r.groups[i] == HostGroup(HostsInOrder(keys)[i], RootsOf(keys, HostsInOrder(keys)[i]))
    ensures !json && |keys| == 0 ==> r == NoBackupsAvailable(if userOpt != "" then userOpt else currentUser)
    ensures !json && |keys| > 0 ==> r == Listing(if userOpt != "" then userOpt else currentUser, all)
  {
    var user := if userOpt != "" then userOpt else currentUser;
    if json {
      var groups := GroupByHost(keys);
      r := JsonListing(groups);
    } else if |keys| == 0 {
      r := NoBackupsAvailable(user);
    } else {
      r := Listing(user, all);
    }
  }
}

=== FILE: cloud_delete.dfy ===
/** The decisions of `hg cloud deletebackup`: argument checks, the lookup of
    the backup to delete and the confirmation. The server download and
    deletion, and the prompt, are inputs and outcomes. */
module CloudDelete {
  import opened CloudBackup
  import opened Wrappers
  import opened CloudRestore

  const MsgMissingArgs: string := "you must specify a reporoot and hostname to delete a backup"
  const MsgBadRoot: string := "repo root contains unexpected characters"
  const MsgBadHost: string := "hostname contains unexpected characters"

  /** The two character classes the names are checked against. */
  datatype CharClass =
    /** `[-a-zA-Z0-9._/]`, for repository roots */
    | RootChars
    /** `[-a-zA-Z0-9.]`, for host names */
    | HostChars

  predicate InClass(cls: CharClass, c: char) {
    || c == '-' || c == '.'
    || ('a' <= c <= 'z') || ('A' <= c <= 'Z') || ('0' <= c <= '9')
    || (cls == RootChars && (c == '_' || c == '/'))
  }

  predicate AllInClass(cls: CharClass, s: string) {
    forall i :: 0 <= i < |s| ==> InClass(cls, s[i])
  }

  /** `re.match(r"^[...]+$", s)` as Python evaluates it: `$` also matches
      just before a final newline, so one trailing '\n' is let through. */
  predicate MatchesAsWritten(cls: CharClass, s: string) {
    || (|s| > 0 && AllInClass(cls, s))
    || (|s| > 1 && s[|s| - 1] == '\n' && AllInClass(cls, s[..|s| - 1]))
  }

  /** The intended check: a non-empty string made only of the class's
      characters. */
  predicate NameIsValid(cls: CharClass, s: string) {
    |s| > 0 && AllInClass(cls, s)
  }

  /** The argument checks as the code performs them, with Python's `$`:
      the abort message of the first failing check, if any. */
  function ValidateNamesAsWritten(reporoot: string, hostname: string): (r: Option<string>)
    ensures r.None? <==>
      reporoot != "" && hostname != "" && MatchesAsWritten(RootChars, reporoot) && MatchesAsWritten(HostChars, hostname)
    ensures (reporoot == "" || hostname == "") ==> r == Some(MsgMissingArgs)
  {
    if reporoot == "" || hostname == "" then Some(MsgMissingArgs)
    else if !MatchesAsWritten(RootChars, reporoot) then Some(MsgBadRoot)
    else if !MatchesAsWritten(HostChars, hostname) then Some(MsgBadHost)
    else None
  }

  /** The argument checks as intended: both names present and made only of
      the allowed characters, checked root first. */
  function ValidateNames(reporoot: string, hostname: string): (r: Option<string>)
    ensures r.None? <==> NameIsValid(RootChars, reporoot) && NameIsValid(HostChars, hostname)
    ensures (reporoot == "" || hostname == "") ==> r == Some(MsgMissingArgs)
    ensures reporoot != "" && hostname != "" && !NameIsValid(RootChars, reporoot) ==> r == Some(MsgBadRoot)
    ensures hostname != "" && NameIsValid(RootChars, reporoot) && !NameIsValid(HostChars, hostname) ==>
      r == Some(MsgBadHost)
  {
    if reporoot == "" || hostname == "" then Some(MsgMissingArgs)
    else if !NameIsValid(RootChars, reporoot) then Some(MsgBadRoot)
    else if !NameIsValid(HostChars, hostname) then Some(MsgBadHost)
    else None
  }

  /** A host name with a trailing newline passes the checks as written and
      fails the intended ones. */
  lemma TrailingNewlineSlipsThrough()
    ensures ValidateNamesAsWritten("/data/repo", "devvm1\n") == None
    ensures ValidateNames("/data/repo", "devvm1\n") == Some(MsgBadHost)
  {
    assert "devvm1\n"[..6] == "devvm1";
    assert !InClass(HostChars, "devvm1\n"[6]);
  }

  /** The two checks agree on names that do not end in a newline. */
  lemma ValidationAgreesWithoutNewline(reporoot: string, hostname: string)
    requires |reporoot| == 0 || reporoot[|reporoot| - 1] != '\n'
    requires |hostname| == 0 || hostname[|hostname| - 1] != '\n'
    ensures ValidateNamesAsWritten(reporoot, hostname) == ValidateNames(reporoot, hostname)
  {
  }

  /** The argument checks as the code performs them (`asWritten`) or as
      intended. */
  function CheckNames(asWritten: bool, reporoot: string, hostname: string): Option<string> {
    if asWritten then ValidateNamesAsWritten(reporoot, hostname) else ValidateNames(reporoot, hostname)
  }

  datatype DeleteOutcome =
    /** Aborted; `afterDownload` tells whether the server was queried, and
        `matchesCurrent` whether the current-repo warning was written first. */
    | DeleteAborted(message: string, afterDownload: bool, matchesCurrent: bool)
    /** The backup was shown; `deleted` is whether the user confirmed.
        `matchesCurrent` is the warning that this is the current repo's own
        backup. The exit status is 0 either way. */
    | DeleteShown(hostname: string, reporoot: string, state: BackupState,
                  matchesCurrent: bool, deleted: bool)

  /** `hg cloud deletebackup --reporoot R --hostname H`. Both names are
      required and checked before anything is downloaded; the warning that
      the names are this repository's own comes next, before the download;
      a backup that is not on the server aborts; otherwise it is shown and
      deleted only if the user confirms. `currentRoot` and `currentHost`
      identify this repository's own backup; `asWritten` selects the name
      checks with Python's `$` rather than the intended ones. */
  function CloudDeleteBackup(reporoot: string, hostname: string,
                             currentRoot: string, currentHost: string,
                             backups: map<BackupKey, BackupState>, confirmed: bool,
                             asWritten: bool): (r: DeleteOutcome)
    ensures CheckNames(asWritten, reporoot, hostname).Some? <==> r.DeleteAborted? && !r.afterDownload
    ensures CheckNames(asWritten, reporoot, hostname).Some? ==>
      r == DeleteAborted(CheckNames(asWritten, reporoot, hostname).value, false, false)
    ensures r.DeleteShown? <==>
      CheckNames(asWritten, reporoot, hostname).None? && BackupKey(hostname, reporoot) in backups
    ensures r.DeleteAborted? && r.afterDownload ==>
      r.message == "no backup found for " + reporoot + " on " + hostname
    // once the names pass, the warning is written iff they are this repository's
    ensures (r.DeleteShown? || r.afterDownload) ==>
      (r.matchesCurrent <==> reporoot == currentRoot && hostname == currentHost)
    ensures r.DeleteShown? ==>
      && r.state == backups[BackupKey(hostname, reporoot)]
      && r.hostname == hostname && r.reporoot == reporoot
      && (r.deleted <==> confirmed)
  {
    var invalid := CheckNames(asWritten, reporoot, hostname);
    if invalid.Some? then DeleteAborted(invalid.value, false, false)
    else
      var key := BackupKey(hostname, reporoot);
      var matchesCurrent := reporoot == currentRoot && hostname == currentHost;
      if key !in backups then
        DeleteAborted("no backup found for " + reporoot + " on " + hostname, true, matchesCurrent)
      else
        DeleteShown(hostname, reporoot, backups[key], matchesCurrent, confirmed)
  }

  /** With the intended checks, a command accepted as intended is accepted
      as written too and decides the same way; the one divergence is the
      trailing newline, which reaches the server as written. */
  lemma {:induction false} IntendedNamesDecideAlike(reporoot: string, hostname: string,
                                                     currentRoot: string, currentHost: string,
                                                     backups: map<BackupKey, BackupState>, confirmed: bool)
    requires ValidateNames(reporoot, hostname).None?
    ensures CloudDeleteBackup(reporoot, hostname, currentRoot, currentHost, backups, confirmed, true)
         == CloudDeleteBackup(reporoot, hostname, currentRoot, currentHost, backups, confirmed, false)
  {
    assert reporoot[|reporoot| - 1] != '\n' by { assert !InClass(RootChars, '\n'); }
    assert hostname[|hostname| - 1] != '\n' by { assert !InClass(HostChars, '\n'); }
    ValidationAgreesWithoutNewline(reporoot, hostname);
  }

  /** As written, a host name with a trailing newline gets past the checks
      and is looked up on the server; as intended, it aborts first. */
  lemma NewlineHostReachesServer(backups: map<BackupKey, BackupState>)
    requires BackupKey("devvm1\n", "/data/repo") !in backups
    ensures CloudDeleteBackup("/data/repo", "devvm1\n", "/data/repo", "devvm1", backups, true, true)
         == DeleteAborted("no backup found for /data/repo on devvm1\n", true, false)
    ensures CloudDeleteBackup("/data/repo", "devvm1\n", "/data/repo", "devvm1", backups, true, false)
         == DeleteAborted(MsgBadHost, false, false)
  {
    TrailingNewlineSlipsThrough();
    assert "no backup found for " + "/data/repo" + " on " + "devvm1\n" == "no backup found for /data/repo on devvm1\n";
  }
}

=== FILE: cloud_restore.dfy ===
/** The decisions of `hg cloud restorebackup`: which backup to restore, what
    to pull, which bookmarks to recreate and what to record as backed up.
    The server download and the pull are inputs: the backups the server
    listed for the requested user, host and root, the pull's return value,
    and the set of commits the repository holds after the pull. */
module CloudRestore {
  import opened Wrappers
  import opened CloudBackup

  /** What the server keeps for one backup: its head commits and its
      bookmarks (name and target, in the stored order). */
  datatype BackupState = BackupState(heads: seq<string>, bookmarks: seq<(string, string)>)

  const MsgMultipleBackups: string := "multiple backups found"

  datatype RestoreOutcome =
    /** "no backups found!", exit status 1 */
    | NoBackupsFound
    /** Aborted: more than one backup matched. */
    | MultipleBackups(count: nat)
    | Restored(
        hostname: string,
        reporoot: string,
        /** the revisions passed to pull, in order */
        pullRevs: seq<string>,
        /** bookmarks recreated locally */
        restored: seq<(string, string)>,
        /** bookmarks skipped, with a warning, because the target is missing */
        skipped: seq<(string, string)>,
        /** commits recorded in the local backup state */
        backedUp: seq<string>,
        /** automatic backup is suppressed right after a restore */
        ignoreAutobackup: bool,
        status: int)

  /** The bookmark targets that are not heads, in bookmark order; duplicates
      among the bookmark targets are kept. */
  function NonHeadTargets(bookmarks: seq<(string, string)>, heads: seq<string>): (ns: seq<string>)
    ensures |ns| <= |bookmarks|
  {
    if |bookmarks| == 0 then []
    else
      var b := bookmarks[|bookmarks| - 1];
      NonHeadTargets(bookmarks[..|bookmarks| - 1], heads) + (if b.1 in heads then [] else [b.1])
  }

  /** Exactly the bookmark targets that are not heads are collected. */
  lemma {:induction false} NonHeadTargetsMembers(bookmarks: seq<(string, string)>, heads: seq<string>)
    ensures forall n :: n in NonHeadTargets(bookmarks, heads) <==> n !in heads && exists b :: b in bookmarks && b.1 == n
    decreases |bookmarks|
  {
    if |bookmarks| > 0 {
      var b := bookmarks[|bookmarks| - 1];
      NonHeadTargetsMembers(bookmarks[..|bookmarks| - 1], heads);
      assert forall x :: x in bookmarks <==> x in bookmarks[..|bookmarks| - 1] || x == b;
    }
  }

  /** Collecting the non-head targets distributes over concatenation: the
      targets of `a` come first, each in its bookmark's position, and none is
      merged with an equal target of `b`. */
  lemma {:induction false} NonHeadTargetsAppend(a: seq<(string, string)>, b: seq<(string, string)>, heads: seq<string>)
    ensures NonHeadTargets(a + b, heads) == NonHeadTargets(a, heads) + NonHeadTargets(b, heads)
    decreases |b|
  {
    if |b| == 0 {
      assert a + b == a;
    } else {
      var b', last := b[..|b| - 1], b[|b| - 1];
      var tail := if last.1 in heads then [] else [last.1];
      NonHeadTargetsAppend(a, b', heads);
      assert (a + b)[..|a + b| - 1] == a + b';
      assert (a + b)[|a + b| - 1] == last;
      assert NonHeadTargets(a + b, heads) == NonHeadTargets(a + b', heads) + tail;
      assert NonHeadTargets(b, heads) == NonHeadTargets(b', heads) + tail;
    }
  }

  /** Read from the front, as the source's list comprehension does: the first
      bookmark's target, unless it is a head, then the targets of the rest.
      A target named by several bookmarks appears once per bookmark. */
  lemma {:induction false} NonHeadTargetsCons(b: (string, string), bs: seq<(string, string)>, heads: seq<string>)
    ensures NonHeadTargets([b] + bs, heads) == (if b.1 in heads then [] else [b.1]) + NonHeadTargets(bs, heads)
  {
    NonHeadTargetsAppend([b], bs, heads);
    assert [b][..0] == [];
  }

  /** What pull is asked for: every head in its order, then the bookmark
      targets that are not heads, in bookmark order. */
  function PullRevs(state: BackupState): (revs: seq<string>)
    ensures |state.heads| <= |revs|
    ensures revs[..|state.heads|] == state.heads
    ensures revs[|state.heads|..] == NonHeadTargets(state.bookmarks, state.heads)
    ensures forall b :: b in state.bookmarks ==> b.1 in revs
    ensures forall i :: |state.heads| <= i < |revs| ==> revs[i] !in state.heads
    ensures forall n :: n in revs ==> n in state.heads || exists b :: b in state.bookmarks && b.1 == n
  {
    var ns := NonHeadTargets(state.bookmarks, state.heads);
    NonHeadTargetsMembers(state.bookmarks, state.heads);
    assert forall i :: |state.heads| <= i < |state.heads + ns| ==> (state.heads + ns)[i] == ns[i - |state.heads|];
    state.heads + ns
  }

  /** The bookmarks whose target is (`keep`) or is not (`!keep`) in the
      repository, in order. */
  function FilterPresent(bookmarks: seq<(string, string)>, present: set<string>, keep: bool): (bs: seq<(string, string)>)
    ensures |bs| <= |bookmarks|
    ensures forall b :: b in bs <==> b in bookmarks && (b.1 in present <==> keep)
    decreases |bookmarks|
  {
    if |bookmarks| == 0 then []
    else
      var b := bookmarks[0];
      var rest := FilterPresent(bookmarks[1..], present, keep);
      assert forall x :: x in bookmarks <==> x == b || x in bookmarks[1..];
      if (b.1 in present) == keep then [b] + rest else rest
  }

  /** Restored and skipped bookmarks split the backup's bookmarks: each
      bookmark is in exactly one of them, and together they hold as many
      entries as the backup. */
  lemma {:induction false} FilterPresentSplits(bookmarks: seq<(string, string)>, present: set<string>)
    ensures |FilterPresent(bookmarks, present, true)| + |FilterPresent(bookmarks, present, false)| == |bookmarks|
    decreases |bookmarks|
  {
    if |bookmarks| > 0 {
      FilterPresentSplits(bookmarks[1..], present);
    }
  }

  /** `hg cloud restorebackup`: exactly one matching backup is restored;
      none gives status 1, several abort. The pull fetches the heads and the
      bookmark targets; bookmarks whose target arrived are recreated; the
      pulled commits are recorded as backed up. */
  function CloudRestoreBackup(backups: seq<(BackupKey, BackupState)>, pullStatus: int,
                              present: set<string>): (r: RestoreOutcome)
    ensures |backups| == 0 <==> r == NoBackupsFound
    ensures |backups| > 1 <==> r.MultipleBackups?
    ensures r.MultipleBackups? ==> r.count == |backups|
    ensures |backups| == 1 ==>
      && r.Restored?
      && r.hostname == backups[0].0.hostname
      && r.reporoot == backups[0].0.reporoot
      && r.pullRevs == PullRevs(backups[0].1)
      && r.backedUp == r.pullRevs
      && (forall b :: b in r.restored <==> b in backups[0].1.bookmarks && b.1 in present)
      && (forall b :: b in r.skipped <==> b in backups[0].1.bookmarks && b.1 !in present)
      && r.ignoreAutobackup
      && r.status == pullStatus
  {
    if |backups| == 0 then NoBackupsFound
    else if |backups| > 1 then MultipleBackups(|backups|)
    else
      var (key, state) := backups[0];
      var revs := PullRevs(state);
      Restored(key.hostname, key.reporoot, revs,
               FilterPresent(state.bookmarks, present, true),
               FilterPresent(state.bookmarks, present, false),
               revs, true, pullStatus)
  }

  /** The exit status: 1 when nothing was found, the pull's status after a
      restore; several matches abort instead. */
  function RestoreStatus(r: RestoreOutcome): (s: int)
    requires !r.MultipleBackups?
    ensures r.NoBackupsFound? ==> s == 1
    ensures r.Restored? ==> s == r.status
  {
    if r.NoBackupsFound? then 1 else r.status
  }

  /** The exit status of `hg cloud restorebackup` in terms of what the server
      listed: none when several backups match (the command aborts), 1 when
      none does, and the pull's own status when exactly one does. */
  function RestoreExitCode(backups: seq<(BackupKey, BackupState)>, pullStatus: int,
                           present: set<string>): (s: Option<int>)
    ensures s.None? <==> |backups| > 1
    ensures |backups| == 0 ==> s == Some(1)
    ensures |backups| == 1 ==> s == Some(pullStatus)
  {
    var r := CloudRestoreBackup(backups, pullStatus, present);
    if r.MultipleBackups? then None else Some(RestoreStatus(r))
  }
}

=== FILE: cloud_workspace.dfy ===
/** The decisions of the workspace commands `hg cloud rejoin`,
    `hg cloud leave`, `hg cloud sync` (its automatic-sync gate) and
    `hg cloud disable`. The service, the workspace file and the clock are
    inputs; the workspace the repository is connected to is the state. */
module CloudWorkspace {
  import opened Wrappers
  import opened Text
  import opened Subscription
  import opened RepoPaths

  // ---- rejoin ------------------------------------------------------------------

  datatype RejoinOutcome =
    /** "unable to reconnect: not authenticated with Commit Cloud on this host" */
    | NotAuthenticated
    /** "unable to reconnect: this workspace has been never connected ..." */
    | NeverConnected(workspace: string)
    /** "the repository is now reconnected", followed by a sync */
    | Reconnected(workspace: string)

  /** The workspace to rejoin: the one given on the command line, else the
      current one, else the user's default. */
  function ChooseWorkspace(given: Option<string>, current: Option<string>, default: string): (w: string)
    ensures given.Some? ==> w == given.value
    ensures given.None? && current.Some? ==> w == current.value
    ensures given.None? && current.None? ==> w == default
  {
    if given.Some? then given.value
    else if current.Some? then current.value
    else default
  }

  /** `hg cloud rejoin`. With a token, the service is checked and asked for
      the workspace's version: version 0 means the workspace was never
      connected for this repository, so nothing changes and nothing syncs;
      otherwise the repository joins the workspace and syncs. No token, or a
      registration error from the service (`versionOf` gives `None`), means
      not authenticated. Returns the outcome and the workspace afterwards. */
  function CloudRejoin(token: Option<string>, serviceAccepts: bool, given: Option<string>,
                       current: Option<string>, default: string,
                       versionOf: string -> Option<nat>): (r: (RejoinOutcome, Option<string>))
    ensures (token.None? || token.value == "" || !serviceAccepts) ==> r == (NotAuthenticated, current)
    ensures r.0.NotAuthenticated? || r.0.NeverConnected? ==> r.1 == current
    ensures r.0.NeverConnected? ==>
      r.0.workspace == ChooseWorkspace(given, current, default) && versionOf(r.0.workspace) == Some(0)
    ensures r.0.Reconnected? <==>
      && token.Some? && token.value != "" && serviceAccepts
      && var v := versionOf(ChooseWorkspace(given, current, default)); v.Some? && v.value != 0
    ensures r.0.Reconnected? ==>
      r.0.workspace == ChooseWorkspace(given, current, default) && r.1 == Some(r.0.workspace)
  {
    if token.None? || token.value == "" || !serviceAccepts then (NotAuthenticated, current)
    else
      var ws := ChooseWorkspace(given, current, default);
      match versionOf(ws) {
        case None => (NotAuthenticated, current)
        case Some(v) =>
          if v == 0 then (NeverConnected(ws), current)
          else (Reconnected(ws), Some(ws))
      }
  }

  /** Rejoining is settled: repeating a rejoin from the state it left gives
      the same outcome and state. In particular, after reconnecting to `ws`
      a rejoin that names no workspace picks `ws` again. */
  lemma RejoinSettles(token: Option<string>, serviceAccepts: bool, given: Option<string>,
                      current: Option<string>, default: string, versionOf: string -> Option<nat>)
    ensures var r := CloudRejoin(token, serviceAccepts, given, current, default, versionOf);
      CloudRejoin(token, serviceAccepts, given, r.1, default, versionOf) == r
    ensures var r := CloudRejoin(token, serviceAccepts, given, current, default, versionOf);
      r.0.Reconnected? ==> forall d :: CloudRejoin(token, serviceAccepts, None, r.1, d, versionOf) == r
  {
  }

  // ---- leave -------------------------------------------------------------------

  datatype LeaveOutcome =
    /** "this repository has been already disconnected from commit cloud" */
    | AlreadyDisconnected
    /** "this repository is now disconnected from commit cloud" */
    | Disconnected
    /** The subscription manager could not be constructed; the command
        aborts with its error before anything is cleared. */
    | LeaveFailed(error: PathsError)

  /** The repository's connection and its subscription marker directory. */
  datatype Connection = Connection(workspace: Option<string>, files: map<string, string>)

  /** `hg cloud leave`. With no workspace (unset or empty) nothing changes.
      Otherwise the subscription manager is constructed (`manager`, as
      OpenManager gives it); if that fails the command aborts and the
      repository stays connected, else the subscription is removed and the
      workspace cleared. */
  function CloudLeave(c: Connection, manager: Result<Manager, PathsError>, daemonUp: bool): (r: (LeaveOutcome, Connection))
    ensures (c.workspace.None? || c.workspace.value == "") <==> r.0 == AlreadyDisconnected
    ensures r.0 == AlreadyDisconnected ==> r.1 == c
    ensures r.0.LeaveFailed? <==> c.workspace.Some? && c.workspace.value != "" && manager.Failure?
    ensures r.0.LeaveFailed? ==> r.0.error == manager.error && r.1 == c
    ensures r.0 == Disconnected ==>
      r.1 == Connection(None, RemoveSubscription(manager.value, c.files, daemonUp).files)
    // unless the manager failed, the repository ends up disconnected and
    // its marker is gone
    ensures !r.0.LeaveFailed? ==> r.1.workspace.None? || r.1.workspace == Some("")
    ensures manager.Success? ==> manager.value.fileName !in r.1.files || r.1 == c
  {
    if c.workspace.None? || c.workspace.value == "" then (AlreadyDisconnected, c)
    else match manager {
      case Failure(e) => (LeaveFailed(e), c)
      case Success(m) => (Disconnected, Connection(None, RemoveSubscription(m, c.files, daemonUp).files))
    }
  }

  /** Leaving twice is leaving once: after a leave that did not abort, a
      second call reports the repository already disconnected and changes
      nothing, whatever the manager would do; after an abort, the
      repository is as it was, so a second leave decides afresh. */
  lemma LeaveIdempotent(c: Connection, m1: Result<Manager, PathsError>, m2: Result<Manager, PathsError>, up1: bool, up2: bool)
    ensures var r1 := CloudLeave(c, m1, up1);
      !r1.0.LeaveFailed? ==> CloudLeave(r1.1, m2, up2) == (AlreadyDisconnected, r1.1)
    ensures var r1 := CloudLeave(c, m1, up1);
      r1.0.LeaveFailed? ==> CloudLeave(r1.1, m2, up2) == CloudLeave(c, m2, up2)
  {
  }

  /** A connected repository with a configured name but no `paths.default`:
      as written, constructing the manager crashes in the name lookup, so
      leave aborts and the repository stays connected; with the intended
      lookup it disconnects. */
  lemma LeaveWithoutDefaultPath(c: Connection, name: string, home: string, enabled: bool,
                                fileName: string, repoRoot: string, up: bool)
    requires c.workspace.Some? && c.workspace.value != "" && name != ""
    ensures var m := OpenManager(true, Some(name), None, Success(home), enabled, fileName, c.workspace.value, repoRoot);
      var r := CloudLeave(c, m, up);
      r.0.LeaveFailed? && r.0.error.Crash? && r.1 == c
    ensures var m := OpenManager(false, Some(name), None, Success(home), enabled, fileName, c.workspace.value, repoRoot);
      var r := CloudLeave(c, m, up);
      r.0 == Disconnected && r.1.workspace.None? && fileName !in r.1.files
  {
  }

  // ---- sync gate ---------------------------------------------------------------

  datatype SyncStart =
    /** "automatic backup and synchronization is currently disabled"; status 0 */
    | SyncSkipped
    /** The sync runs with automatic backup suppressed for its duration,
        using the background ssh command when asked and configured. */
    | SyncRuns(ignoreAutobackup: bool, ssh: Option<string>)

  /** The start of `hg cloud sync`: when asked to check the automatic-sync
      setting and it is off, the sync is skipped. */
  function CloudSyncStart(checkAutosyncEnabled: bool, autobackupEnabled: bool,
                          useBgssh: bool, bgssh: Option<string>): (r: SyncStart)
    ensures r.SyncSkipped? <==> checkAutosyncEnabled && !autobackupEnabled
    ensures r.SyncRuns? ==> r.ignoreAutobackup
    ensures r.SyncRuns? ==>
      (r.ssh.Some? <==> useBgssh && bgssh.Some? && bgssh.value != "")
    ensures r.SyncRuns? && r.ssh.Some? ==> r.ssh == bgssh
  {
    if checkAutosyncEnabled && !autobackupEnabled then SyncSkipped
    else SyncRuns(true, if useBgssh && bgssh.Some? && bgssh.value != "" then bgssh else None)
  }

  /** The gate consults the automatic-backup setting only when asked to:
      an unchecked sync starts the same way whatever the setting, and a
      checked sync that runs starts exactly like an unchecked one. */
  lemma SyncGateOnlyWhenChecked(autobackupEnabled: bool, useBgssh: bool, bgssh: Option<string>)
    ensures CloudSyncStart(false, autobackupEnabled, useBgssh, bgssh)
         == CloudSyncStart(false, !autobackupEnabled, useBgssh, bgssh)
    ensures CloudSyncStart(true, autobackupEnabled, useBgssh, bgssh).SyncRuns? ==>
      CloudSyncStart(true, autobackupEnabled, useBgssh, bgssh) == CloudSyncStart(false, autobackupEnabled, useBgssh, bgssh)
  {
  }

  // ---- disable -----------------------------------------------------------------

  /** The abort message for an unreadable `--hours`. */
  function BadHoursMessage(hours: string): string {
    "error: argument 'hours': invalid int value: '" + hours + "'\n"
  }

  /** What `hg cloud disable` writes and does: `alreadyDisabled` is the note
      that automatic backup was off before, which comes first either way;
      `until` is the time (seconds since the epoch) automatic backup is now
      off until, or the abort message. */
  datatype Disabled = Disabled(alreadyDisabled: bool, until: Result<int, string>)

  /** `hg cloud disable --hours H`: the note that automatic backup was
      already off is written first; then `H` is read as Python's `int()`
      reads it, and automatic backup is disabled until `now` plus that many
      hours. `now` is the current time in whole seconds. */
  function BackupDisable(hours: string, now: int, autobackupEnabled: bool): (r: Disabled)
    ensures r.alreadyDisabled <==> !autobackupEnabled
    ensures r.until.Success? <==> ParseInt(hours).Some?
    ensures r.until.Failure? ==> r.until.error == BadHoursMessage(hours)
    ensures r.until.Success? ==> r.until.value - now == ParseInt(hours).value * 3600
  {
    var note := !autobackupEnabled;
    match ParseInt(hours) {
      case None => Disabled(note, Failure(BadHoursMessage(hours)))
      case Some(h) => Disabled(note, Success(now + h * 60 * 60))
    }
  }

  lemma DisableParsed(hours: string, h: int, now: int, enabled: bool)
    requires ParseInt(hours) == Some(h)
    ensures BackupDisable(hours, now, enabled) == Disabled(!enabled, Success(now + 3600 * h))
  {
    assert h * 60 * 60 == 3600 * h;
  }

  /** Disabling for a number of hours written out in decimal disables for
      exactly that long. */
  lemma DisableForHours(h: int, now: int, enabled: bool)
    ensures BackupDisable(IntToString(h), now, enabled) == Disabled(!enabled, Success(now + 3600 * h))
  {
    ParseIntOfIntToString(h);
    DisableParsed(IntToString(h), h, now, enabled);
  }

  /** The default of one hour is an hour. */
  lemma DisableDefaultHour(now: int, enabled: bool)
    ensures BackupDisable("1", now, enabled) == Disabled(!enabled, Success(now + 3600))
  {
    DisableForHours(1, now, enabled);
    assert IntToString(1) == "1";
  }
}

=== FILE: collect.dfy ===
/** Rust's `iter.map(f).collect::<Result<Vec<_>, _>>()` and the equivalent
    `for x in xs { out.push(f(x)?) }` loop: convert every element in order and
    stop at the first failure. */
module Collect {
  import opened Wrappers

  /** Index of the first element whose conversion fails. */
  function FirstFailure<T, U, E>(xs: seq<T>, f: T -> Result<U, E>): (k: nat)
    requires exists i :: 0 <= i < |xs| && f(xs[i]).Failure?
    ensures k < |xs| && f(xs[k]).Failure?
    ensures forall i :: 0 <= i < k ==> f(xs[i]).Success?
  {
    if f(xs[0]).Failure? then 0
    else
      assert exists i :: 0 <= i < |xs[1..]| && f(xs[1..][i]).Failure? by {
        var i :| 0 <= i < |xs| && f(xs[i]).Failure?;
        assert f(xs[1..][i - 1]).Failure?;
      }
      1 + FirstFailure(xs[1..], f)
  }

  /** Converts every element, in order; the first failure is the result. */
  function CollectAll<T, U, E>(xs: seq<T>, f: T -> Result<U, E>): (r: Result<seq<U>, E>)
    ensures r.Success? <==> forall i :: 0 <= i < |xs| ==> f(xs[i]).Success?
    ensures r.Success? ==> |r.value| == |xs|
    ensures r.Success? ==> forall i :: 0 <= i < |xs| ==> f(xs[i]) == Success(r.value[i])
    ensures r.Failure? ==> r.error == f(xs[FirstFailure(xs, f)]).error
  {
    if |xs| == 0 then Success([])
    else
      match f(xs[0])
      case Failure(e) => Failure(e)
      case Success(y) =>
        var rest := CollectAll(xs[1..], f);
        assert forall i :: 1 <= i < |xs| ==> xs[i] == xs[1..][i - 1];
        match rest
        case Failure(e) => Failure(e)
        case Success(ys) => Success([y] + ys)
  }
}

=== FILE: lfs_batch.dfy ===
/** The git-lfs remote's batch transfer. One batch request lists the blobs to
    move; the server answers with one object per blob, each carrying a link
    for the requested action; each link is then followed to upload or
    download the blob. The HTTP exchanges are inputs: the server's response
    objects, and what following a link does. */
module LfsBatch {
  import opened Wrappers
  import opened LfsStore

  /** The server accepts object ids of at most this many characters. */
  const MaxOidLength: nat := 40

  const Upload: string := "upload"
  const Download: string := "download"

  /** An object id as sent to the server: its first 40 characters. */
  function TruncateOid(oid: string): (t: string)
    ensures |t| <= MaxOidLength
    ensures |oid| <= MaxOidLength ==> t == oid
    ensures t == oid[..|t|]
  {
    if |oid| <= MaxOidLength then oid else oid[..MaxOidLength]
  }

  /** One entry of the batch request. */
  datatype RequestObject = RequestObject(oid: string, size: int)

  /** The batch request's objects: one per blob, in order, with the object
      id truncated and the size unchanged. */
  function BatchRequest(ids: seq<StoreId>): (objs: seq<RequestObject>)
    ensures |objs| == |ids|
    ensures forall i :: 0 <= i < |ids| ==> objs[i] == RequestObject(TruncateOid(ids[i].oid), ids[i].size)
  {
    if |ids| == 0 then []
    else BatchRequest(ids[..|ids| - 1]) + [RequestObject(TruncateOid(ids[|ids| - 1].oid), ids[|ids| - 1].size)]
  }

  /** The position of the last blob whose truncated object id is `k`, or -1. */
  function LastWithOid(ids: seq<StoreId>, k: string): (i: int)
    ensures -1 <= i < |ids|
    ensures i >= 0 ==> TruncateOid(ids[i].oid) == k
    ensures forall j :: i < j < |ids| ==> TruncateOid(ids[j].oid) != k
  {
    if |ids| == 0 then -1
    else if TruncateOid(ids[|ids| - 1].oid) == k then |ids| - 1
    else LastWithOid(ids[..|ids| - 1], k)
  }

  /** The blob each truncated object id stands for; when two blobs share a
      truncated id, the later one wins. */
  function StoreIdMap(ids: seq<StoreId>): (m: map<string, StoreId>)
    ensures forall k :: k in m <==> LastWithOid(ids, k) >= 0
    ensures forall k :: k in m ==> m[k] == ids[LastWithOid(ids, k)]
  {
    if |ids| == 0 then map[]
    else
      var n := |ids| - 1;
      var prev := StoreIdMap(ids[..n]);
      assert forall i :: 0 <= i < n ==> ids[..n][i] == ids[i];
      prev[TruncateOid(ids[n].oid) := ids[n]]
  }

  /** Every requested blob is reachable through its truncated object id. */
  lemma StoreIdMapCovers(ids: seq<StoreId>, i: nat)
    requires i < |ids|
    ensures TruncateOid(ids[i].oid) in StoreIdMap(ids)
  {
    assert LastWithOid(ids, TruncateOid(ids[i].oid)) >= i;
  }

  /** A link the server gives for one action on one object. */
  datatype Link = Link(href: string, headers: seq<(string, string)>)

  /** One object of the batch response; `size` and `actions` may be absent. */
  datatype ResponseObject = ResponseObject(oid: string, size: Option<int>, actions: Option<map<string, Link>>)

  /** The sizes the server reported, absent ones counting as zero. */
  function ReportedSize(objs: seq<ResponseObject>): int {
    if |objs| == 0 then 0
    else ReportedSize(objs[..|objs| - 1]) + objs[|objs| - 1].size.GetOr(0)
  }

  /** The progress total: the caller's total when given, else the reported
      size when it is positive, else none. */
  function ProgressTotal(given: Option<int>, objs: seq<ResponseObject>): (t: Option<int>)
    ensures given.Some? ==> t == given
    ensures given.None? ==> (t.Some? <==> ReportedSize(objs) > 0)
    ensures given.None? && t.Some? ==> t.value == ReportedSize(objs)
  {
    if given.Some? then given
    else if ReportedSize(objs) > 0 then Some(ReportedSize(objs))
    else None
  }

  /** The reported size adds up: with every size present and non-negative
      it is at least each object's own size. */
  lemma {:induction false} ReportedSizeBounds(objs: seq<ResponseObject>)
    requires forall i :: 0 <= i < |objs| ==> objs[i].size.Some? && objs[i].size.value >= 0
    ensures forall i :: 0 <= i < |objs| ==> ReportedSize(objs) >= objs[i].size.value
    ensures ReportedSize(objs) >= 0
  {
    if |objs| > 0 {
      ReportedSizeBounds(objs[..|objs| - 1]);
      assert forall i :: 0 <= i < |objs| - 1 ==> objs[..|objs| - 1][i] == objs[i];
    }
  }

  /** What following the links does: a download answers with the blob or an
      HTTP error (`None`); an upload is accepted or fails with an HTTP
      error. */
  datatype Server = Server(fetch: string -> Option<Blob>, put: (string, Blob) -> bool)

  /** The batch's effects so far: the local store and the uploads sent, as
      (link, contents) pairs in order. */
  datatype Transfer = Transfer(local: Store, sent: seq<(string, Blob)>)

  /** The actions the server offers for an object. The code as written tests
      `action not in obj.get('actions')`, which raises a TypeError when the
      object has no `actions` member; the intended reading takes a missing
      member as no actions. */
  function OfferedActions(o: ResponseObject, asWritten: bool): (r: Result<map<string, Link>, LfsError>)
    ensures o.actions.Some? ==> r == Success(o.actions.value)
    ensures o.actions.None? ==> (r.Failure? <==> asWritten)
    ensures o.actions.None? && !asWritten ==> r == Success(map[])
  {
    if o.actions.Some? then Success(o.actions.value)
    else if asWritten then Failure(Crash("argument of type 'NoneType' is not iterable"))
    else Success(map[])
  }

  /** Whether one response object is handled without error: the server
      offers the action (or, on upload, leaves it out), the size is present,
      the object id was requested, the blob to upload is in the local
      store, and the transfer gets no HTTP error. */
  predicate ObjectSucceeds(o: ResponseObject, action: string, idMap: map<string, StoreId>,
                           server: Server, local: Store, asWritten: bool)
  {
    match o.actions {
      case None => !asWritten && action == Upload
      case Some(acts) =>
        if action !in acts then action == Upload
        else
          && o.size.Some?
          && o.oid in idMap
          && (action == Download ==> server.fetch(acts[action].href).Some?)
          && (action == Upload ==>
                Has(local, idMap[o.oid]) && server.put(acts[action].href, local[idMap[o.oid].oid]))
    }
  }

  /** Handling one response object. A missing action means the server
      already has the blob when uploading (the object is skipped) and is a
      failed request when downloading. A missing size or an object id that
      was not requested are errors the code does not catch. An HTTP error is
      a failed request. */
  function ProcessObject(o: ResponseObject, action: string, idMap: map<string, StoreId>,
                         server: Server, t: Transfer, asWritten: bool): (r: Result<Transfer, LfsError>)
    requires action == Upload || action == Download
    ensures r.Success? <==> ObjectSucceeds(o, action, idMap, server, t.local, asWritten)
    ensures r.Success? && action == Download ==> r.value.sent == t.sent
    ensures r.Success? && action == Upload ==> r.value.local == t.local
    ensures r.Success? && action == Download ==>
      && o.oid in idMap
      && Has(r.value.local, idMap[o.oid])
      && o.actions.Some? && action in o.actions.value
      && server.fetch(o.actions.value[action].href) == Some(r.value.local[idMap[o.oid].oid])
    ensures r.Success? && action == Upload && o.actions.Some? && action in o.actions.value ==>
      && o.oid in idMap && Has(t.local, idMap[o.oid])
      && r.value.sent == t.sent + [(o.actions.value[action].href, t.local[idMap[o.oid].oid])]
    ensures action == Upload && (o.actions.None? || action !in o.actions.value) ==>
      (r.Success? <==> !(o.actions.None? && asWritten)) && (r.Success? ==> r.value == t)
    ensures action == Download && o.actions.Some? && action !in o.actions.value ==>
      r == Failure(RequestFailed(o.oid, action))
  {
    var offered :- OfferedActions(o, asWritten);
    if action !in offered then
      if action == Upload then Success(t) else Failure(RequestFailed(o.oid, action))
    else if o.size.None? then Failure(Crash("long() argument must not be None"))
    else
      var link := offered[action];
      if o.oid !in idMap then Failure(Crash("KeyError: " + o.oid))
      else if action == Upload then
        match Read(t.local, idMap[o.oid]) {
          case Failure(e) => Failure(e)
          case Success(data) =>
            if server.put(link.href, data) then Success(t.(sent := t.sent + [(link.href, data)]))
            else Failure(RequestFailed(o.oid, action))
        }
      else
        match server.fetch(link.href) {
          case None => Failure(RequestFailed(o.oid, action))
          case Some(data) => Success(t.(local := Write(t.local, idMap[o.oid], data)))
        }
  }

  /** The uploads a batch makes: for each object that offers an upload
      link, in order, the link and the local contents of its blob. */
  function UploadsOf(objs: seq<ResponseObject>, idMap: map<string, StoreId>, local: Store): seq<(string, Blob)>
  {
    if |objs| == 0 then []
    else
      var o := objs[0];
      (if o.actions.Some? && Upload in o.actions.value && o.oid in idMap && Has(local, idMap[o.oid])
       then [(o.actions.value[Upload].href, local[idMap[o.oid].oid])] else [])
      + UploadsOf(objs[1..], idMap, local)
  }

  /** Whether an object succeeds depends on the local store only through the
      blobs an upload reads; a download's writes do not change it. */
  lemma SucceedsAfterDownload(objs: seq<ResponseObject>, action: string, idMap: map<string, StoreId>,
                              server: Server, before: Store, after: Store, asWritten: bool)
    requires action == Download || before == after
    ensures (forall i :: 0 <= i < |objs| ==> ObjectSucceeds(objs[i], action, idMap, server, after, asWritten))
        <==> (forall i :: 0 <= i < |objs| ==> ObjectSucceeds(objs[i], action, idMap, server, before, asWritten))
  {
  }

  /** Handles the response objects in order, stopping at the first error. */
  function ProcessAll(objs: seq<ResponseObject>, action: string, idMap: map<string, StoreId>,
                      server: Server, t: Transfer, asWritten: bool): (r: Partial<Transfer>)
    requires action == Upload || action == Download
    ensures action == Download ==> r.state.sent == t.sent
    ensures action == Upload ==> r.state.local == t.local
    ensures r.error.None? <==> forall i :: 0 <= i < |objs| ==> ObjectSucceeds(objs[i], action, idMap, server, t.local, asWritten)
    decreases |objs|
  {
    if |objs| == 0 then Partial(t, None)
    else
      match ProcessObject(objs[0], action, idMap, server, t, asWritten) {
        case Failure(e) => Partial(t, Some(e))
        case Success(t1) =>
          assert forall i :: 1 <= i < |objs| ==> objs[i] == objs[1..][i - 1];
          SucceedsAfterDownload(objs[1..], action, idMap, server, t.local, t1.local, asWritten);
          ProcessAll(objs[1..], action, idMap, server, t1, asWritten)
      }
  }

  /** A completed upload sends exactly the uploads of the objects that offer
      one, in order, after what was already sent. */
  lemma {:induction false} ProcessAllUploads(objs: seq<ResponseObject>, idMap: map<string, StoreId>,
                                            server: Server, t: Transfer, asWritten: bool)
    ensures ProcessAll(objs, Upload, idMap, server, t, asWritten).error.None? ==>
      ProcessAll(objs, Upload, idMap, server, t, asWritten).state.sent == t.sent + UploadsOf(objs, idMap, t.local)
    decreases |objs|
  {
    if |objs| > 0 {
      var r := ProcessObject(objs[0], Upload, idMap, server, t, asWritten);
      if r.Success? {
        ProcessAllUploads(objs[1..], idMap, server, r.value, asWritten);
      }
    }
  }

  /** A download never removes a local blob, and a completed one leaves
      every response object's blob in the local store. */
  lemma {:induction false} ProcessAllDownloads(objs: seq<ResponseObject>, idMap: map<string, StoreId>,
                                              server: Server, t: Transfer, asWritten: bool)
    ensures var r := ProcessAll(objs, Download, idMap, server, t, asWritten);
      forall k :: k in t.local ==> k in r.state.local
    ensures var r := ProcessAll(objs, Download, idMap, server, t, asWritten);
      r.error.None? ==>
        forall i :: 0 <= i < |objs| ==> objs[i].oid in idMap && Has(r.state.local, idMap[objs[i].oid])
    decreases |objs|
  {
    if |objs| > 0 {
      var p := ProcessObject(objs[0], Download, idMap, server, t, asWritten);
      if p.Success? {
        ProcessAllDownloads(objs[1..], idMap, server, p.value, asWritten);
        var r := ProcessAll(objs, Download, idMap, server, t, asWritten);
        assert r == ProcessAll(objs[1..], Download, idMap, server, p.value, asWritten);
        if r.error.None? {
          forall i | 0 <= i < |objs|
            ensures objs[i].oid in idMap && Has(r.state.local, idMap[objs[i].oid])
          {
            if i > 0 {
              assert objs[i] == objs[1..][i - 1];
            }
          }
        }
      }
    }
  }

  /** Whether handling response object `o` writes local blob `k`. */
  predicate WritesKey(o: ResponseObject, idMap: map<string, StoreId>, k: string) {
    o.oid in idMap && idMap[o.oid].oid == k
  }

  /** The position of the last response object that writes local blob `k`,
      or -1 when none does. */
  function LastWriter(objs: seq<ResponseObject>, idMap: map<string, StoreId>, k: string): (j: int)
    ensures -1 <= j < |objs|
    ensures j >= 0 ==> WritesKey(objs[j], idMap, k)
    ensures forall i :: j < i < |objs| ==> !WritesKey(objs[i], idMap, k)
    decreases |objs|
  {
    if |objs| == 0 then -1
    else
      var rest := LastWriter(objs[1..], idMap, k);
      assert forall i :: 1 <= i < |objs| ==> objs[i] == objs[1..][i - 1];
      if rest >= 0 then rest + 1
      else if WritesKey(objs[0], idMap, k) then 0
      else -1
  }

  /** The contents a download leaves: every blob some response object
      writes holds what the last such object's link returned, and every
      other blob is as it was, completed or not. */
  lemma {:induction false} ProcessAllDownloadContents(objs: seq<ResponseObject>, idMap: map<string, StoreId>,
                                                     server: Server, t: Transfer, asWritten: bool)
    ensures var r := ProcessAll(objs, Download, idMap, server, t, asWritten);
      forall k :: LastWriter(objs, idMap, k) < 0 ==>
        (k in r.state.local <==> k in t.local) && (k in t.local ==> r.state.local[k] == t.local[k])
    ensures var r := ProcessAll(objs, Download, idMap, server, t, asWritten);
      r.error.None? ==> forall k :: LastWriter(objs, idMap, k) >= 0 ==>
        var o := objs[LastWriter(objs, idMap, k)];
        && k in r.state.local
        && o.actions.Some? && Download in o.actions.value
        && server.fetch(o.actions.value[Download].href) == Some(r.state.local[k])
    decreases |objs|
  {
    if |objs| > 0 {
      var p := ProcessObject(objs[0], Download, idMap, server, t, asWritten);
      if p.Success? {
        var t1 := p.value;
        var r := ProcessAll(objs, Download, idMap, server, t, asWritten);
        assert r == ProcessAll(objs[1..], Download, idMap, server, t1, asWritten);
        ProcessAllDownloadContents(objs[1..], idMap, server, t1, asWritten);
        forall k | LastWriter(objs, idMap, k) < 0
          ensures (k in r.state.local <==> k in t.local) && (k in t.local ==> r.state.local[k] == t.local[k])
        {
          assert LastWriter(objs[1..], idMap, k) < 0;
          assert !WritesKey(objs[0], idMap, k);
        }
        if r.error.None? {
          forall k | LastWriter(objs, idMap, k) >= 0
            ensures var o := objs[LastWriter(objs, idMap, k)];
              && k in r.state.local
              && o.actions.Some? && Download in o.actions.value
              && server.fetch(o.actions.value[Download].href) == Some(r.state.local[k])
          {
            if LastWriter(objs[1..], idMap, k) < 0 {
              assert LastWriter(objs, idMap, k) == 0;
              assert k == idMap[objs[0].oid].oid;
            }
          }
        }
      }
    }
  }

  /** A batch: any operation other than upload or download is refused
      before anything is sent; otherwise the response objects are handled
      in order against the blobs requested. */
  function Batch(ids: seq<StoreId>, local: Store, action: string, objs: seq<ResponseObject>,
                 server: Server, asWritten: bool): (r: Partial<Transfer>)
    ensures action != Upload && action != Download ==>
      r == Partial(Transfer(local, []), Some(UnavailableBatchOperation(None, action)))
    ensures action == Upload ==> r.state.local == local
    ensures action == Upload && r.error.None? ==> r.state.sent == UploadsOf(objs, StoreIdMap(ids), local)
    ensures action == Download ==> r.state.sent == [] && forall k :: k in local ==> k in r.state.local
    ensures action == Download && r.error.None? ==>
      forall i :: 0 <= i < |objs| ==> objs[i].oid in StoreIdMap(ids) && Has(r.state.local, StoreIdMap(ids)[objs[i].oid])
    // a downloaded blob holds what the last link for it returned ...
    ensures action == Download && r.error.None? ==>
      forall k :: LastWriter(objs, StoreIdMap(ids), k) >= 0 ==>
        var o := objs[LastWriter(objs, StoreIdMap(ids), k)];
        && k in r.state.local
        && o.actions.Some? && Download in o.actions.value
        && server.fetch(o.actions.value[Download].href) == Some(r.state.local[k])
    // ... and the blobs no response object names are untouched
    ensures action == Download ==>
      forall k :: LastWriter(objs, StoreIdMap(ids), k) < 0 ==>
        (k in r.state.local <==> k in local) && (k in local ==> r.state.local[k] == local[k])
    ensures (action == Upload || action == Download) ==>
      (r.error.None? <==> forall i :: 0 <= i < |objs| ==> ObjectSucceeds(objs[i], action, StoreIdMap(ids), server, local, asWritten))
  {
    if action != Upload && action != Download then
      Partial(Transfer(local, []), Some(UnavailableBatchOperation(None, action)))
    else
      ProcessAllUploads(objs, StoreIdMap(ids), server, Transfer(local, []), asWritten);
      ProcessAllDownloads(objs, StoreIdMap(ids), server, Transfer(local, []), asWritten);
      ProcessAllDownloadContents(objs, StoreIdMap(ids), server, Transfer(local, []), asWritten);
      ProcessAll(objs, action, StoreIdMap(ids), server, Transfer(local, []), asWritten)
  }

  /** A server that already holds a blob may leave out its `actions`
      member. On upload the code as written then fails with a TypeError;
      the intended behaviour skips the object and sends nothing. */
  lemma UploadWithoutActions(id: StoreId, local: Store, server: Server)
    ensures var objs := [ResponseObject(TruncateOid(id.oid), Some(id.size), None)];
      && Batch([id], local, Upload, objs, server, true).error.Some?
      && Batch([id], local, Upload, objs, server, false) == Partial(Transfer(local, []), None)
  {
    var objs := [ResponseObject(TruncateOid(id.oid), Some(id.size), None)];
    assert !ObjectSucceeds(objs[0], Upload, StoreIdMap([id]), server, local, true);
    assert UploadsOf(objs, StoreIdMap([id]), local) == [];
  }
}

=== FILE: lfs_remote.dfy ===
/** Choosing the LFS remote store from the configuration: `lfs.url`, whose
    scheme picks the store, and the deprecated `lfs.remotestore`, which
    supplies a default URL. */
module LfsRemote {
  import opened Wrappers
  import opened Text
  import opened LfsStore

  /** The `[lfs]` settings read here; `None` is unset. */
  datatype LfsConfig = LfsConfig(
    url: Option<string>,
    remotestore: Option<string>,
    remotepath: Option<string>,
    remoteurl: Option<string>)

  /** The remote stores, each holding the URL it was made from. */
  datatype RemoteKind =
    | GitLfsRemote(url: string)
    | DummyRemote(url: string)
    | NullRemote
    | PromptRemote

  /** The URL the deprecated `lfs.remotestore` setting stands for:
      `dummy` is the `file://` URL of `lfs.remotepath`, `git-lfs` is
      `lfs.remoteurl`, `null` is `null://`; anything else leaves the default
      empty. A `dummy` store with no path fails on the concatenation. */
  function DefaultUrl(cfg: LfsConfig): (r: Result<Option<string>, LfsError>)
    ensures cfg.remotestore == Some("dummy") && cfg.remotepath.Some? ==>
      r == Success(Some("file://" + cfg.remotepath.value))
    ensures cfg.remotestore == Some("dummy") && cfg.remotepath.None? ==> r.Failure?
    ensures cfg.remotestore == Some("git-lfs") ==> r == Success(cfg.remoteurl)
    ensures cfg.remotestore == Some("null") ==> r == Success(Some("null://"))
    ensures cfg.remotestore !in {Some("dummy"), Some("git-lfs"), Some("null")} ==> r == Success(Some(""))
  {
    if cfg.remotestore == Some("dummy") then
      if cfg.remotepath.None? then Failure(Crash("cannot concatenate 'str' and 'NoneType' objects"))
      else Success(Some("file://" + cfg.remotepath.value))
    else if cfg.remotestore == Some("git-lfs") then Success(cfg.remoteurl)
    else if cfg.remotestore == Some("null") then Success(Some("null://"))
    else Success(Some(""))
  }

  predicate IsSchemeChar(c: char) {
    ('a' <= c <= 'z') || ('A' <= c <= 'Z') || ('0' <= c <= '9') || c == '+' || c == '-' || c == '.'
  }

  /** The scheme of a URL: the non-empty run of scheme characters before the
      first ':', unless the text starts like a Windows drive ("c:"). */
  function SchemeOf(u: string): (s: Option<string>)
    ensures s.Some? ==> |s.value| > 0 && ':' !in s.value && StartsWith(u, s.value + ":")
    ensures s.Some? ==> forall i :: 0 <= i < |s.value| ==> IsSchemeChar(s.value[i])
  {
    if ':' !in u then None
    else
      var i := IndexOf(u, ':');
      var prefix := u[..i];
      if |prefix| == 0 || (|prefix| == 1 && (('a' <= prefix[0] <= 'z') || ('A' <= prefix[0] <= 'Z'))) then None
      else if forall j :: 0 <= j < |prefix| ==> IsSchemeChar(prefix[j]) then
        assert u[..i + 1] == prefix + ":";
        Some(prefix)
      else None
  }

  /** The store for a URL by its scheme: https and http talk git-lfs, file
      is the dummy store, null drops everything, no scheme prompts for
      `lfs.url`; any other scheme aborts. */
  function StoreForUrl(u: string): (r: Result<RemoteKind, LfsError>)
    ensures SchemeOf(u) == Some("https") || SchemeOf(u) == Some("http") <==> r == Success(GitLfsRemote(u))
    ensures SchemeOf(u) == Some("file") <==> r == Success(DummyRemote(u))
    ensures SchemeOf(u) == Some("null") <==> r == Success(NullRemote)
    ensures SchemeOf(u).None? <==> r == Success(PromptRemote)
    ensures r.Failure? <==> SchemeOf(u).Some? && SchemeOf(u).value !in {"https", "http", "file", "null"}
    ensures r.Failure? ==> r.error == Abort("lfs: unknown url scheme: " + SchemeOf(u).value)
  {
    match SchemeOf(u) {
      case None => Success(PromptRemote)
      case Some(s) =>
        if s == "https" || s == "http" then Success(GitLfsRemote(u))
        else if s == "file" then Success(DummyRemote(u))
        else if s == "null" then Success(NullRemote)
        else Failure(Abort("lfs: unknown url scheme: " + s))
    }
  }

  /** The remote store factory: `lfs.url` when set, else the deprecated
      default; an unset URL altogether cannot be parsed. */
  function Remote(cfg: LfsConfig): (r: Result<RemoteKind, LfsError>)
    ensures DefaultUrl(cfg).Failure? ==> r == Failure(DefaultUrl(cfg).error)
    ensures cfg.url.Some? && DefaultUrl(cfg).Success? ==> r == StoreForUrl(cfg.url.value)
    ensures cfg.url.None? && DefaultUrl(cfg) == Success(None) ==> r.Failure? && r.error.Crash?
    ensures cfg.url.None? && DefaultUrl(cfg).Success? && DefaultUrl(cfg).value.Some? ==>
      r == StoreForUrl(DefaultUrl(cfg).value.value)
  {
    var default :- DefaultUrl(cfg);
    var u := if cfg.url.Some? then cfg.url else default;
    if u.None? then Failure(Crash("'NoneType' object has no attribute 'startswith'"))
    else StoreForUrl(u.value)
  }

  /** With `lfs.url` unset, the deprecated `null` store is the null store. */
  lemma DeprecatedNull()
    ensures Remote(LfsConfig(None, Some("null"), None, None)) == Success(NullRemote)
  {
    SchemeOfPrefix("null", "//");
    assert "null" + ":" + "//" == "null://";
  }

  /** With `lfs.url` unset, the deprecated `dummy` store is the dummy store
      at the `file://` URL of its path. */
  lemma DeprecatedDummy(path: string)
    ensures Remote(LfsConfig(None, Some("dummy"), Some(path), None)) == Success(DummyRemote("file://" + path))
  {
    SchemeOfPrefix("file", "//" + path);
    assert "file" + ":" + ("//" + path) == "file://" + path;
  }

  /** With `lfs.url` unset, the deprecated `git-lfs` store with an https
      URL is the git-lfs store. */
  lemma DeprecatedGitLfs(host: string)
    ensures Remote(LfsConfig(None, Some("git-lfs"), None, Some("https://" + host)))
            == Success(GitLfsRemote("https://" + host))
  {
    SchemeOfPrefix("https", "//" + host);
    assert "https" + ":" + ("//" + host) == "https://" + host;
  }

  /** With nothing configured, the store prompts for `lfs.url`. */
  lemma NothingConfigured()
    ensures Remote(LfsConfig(None, None, None, None)) == Success(PromptRemote)
  {
  }

  /** A URL written as scheme, ':' and a rest has that scheme. */
  lemma SchemeOfPrefix(scheme: string, rest: string)
    requires |scheme| > 1 && forall i :: 0 <= i < |scheme| ==> IsSchemeChar(scheme[i])
    ensures SchemeOf(scheme + ":" + rest) == Some(scheme)
  {
    var u := scheme + ":" + rest;
    assert u[|scheme|] == ':';
    assert ':' !in scheme;
    assert IndexOf(u, ':') == |scheme|;
    assert u[..|scheme|] == scheme;
  }
}

=== FILE: lfs_store.dfy ===
/** The LFS blob stores: the local store (cache and upload staging area),
    and the remote stores that need no network — the "dummy" store that
    keeps blobs in a directory, the "null" store that drops them, and the
    "prompt" store that asks for `lfs.url` to be configured. A store
    directory is a map from object id to contents. */
module LfsStore {
  import opened Wrappers

  newtype Byte = b: int | 0 <= b < 256

  type Blob = seq<Byte>

  /** A blob's identity: its object id (a hash) and size. */
  datatype StoreId = StoreId(oid: string, size: int)

  datatype LfsError =
    /** Reading a blob that the store does not hold (an IOError). */
    | MissingBlob(oid: string)
    | Abort(message: string)
    /** "the requested file could be <action>ed: <oid>" */
    | RequestFailed(oid: string, action: string)
    /** An operation other than upload and download. */
    | UnavailableBatchOperation(blob: Option<string>, action: string)
    /** A Python exception the code does not mean to raise. */
    | Crash(reason: string)

  /** Blobs by object id: the files of a store directory. */
  type Store = map<string, Blob>

  /** Effects that happened before an error stop with it. */
  datatype Partial<S> = Partial(state: S, error: Option<LfsError>)

  // ---- local store ---------------------------------------------------------------

  predicate Has(store: Store, id: StoreId) {
    id.oid in store
  }

  /** Writes the blob under its object id, replacing any previous contents. */
  function Write(store: Store, id: StoreId, data: Blob): (r: Store)
    ensures Has(r, id) && r[id.oid] == data
    ensures forall k :: k != id.oid ==> (k in r <==> k in store)
    ensures forall k :: k != id.oid && k in store ==> r[k] == store[k]
  {
    store[id.oid := data]
  }

  /** The blob's contents; a missing blob is an error. */
  function Read(store: Store, id: StoreId): (r: Result<Blob, LfsError>)
    ensures r.Success? <==> Has(store, id)
    ensures r.Success? ==> r.value == store[id.oid]
    ensures r.Failure? ==> r.error == MissingBlob(id.oid)
  {
    if id.oid in store then Success(store[id.oid]) else Failure(MissingBlob(id.oid))
  }

  /** After writing a blob the store has it and reads it back; blobs with
      other object ids read as before. */
  lemma WriteThenRead(store: Store, id: StoreId, data: Blob, other: StoreId)
    ensures Has(Write(store, id, data), id)
    ensures Read(Write(store, id, data), id) == Success(data)
    ensures other.oid != id.oid ==> Read(Write(store, id, data), other) == Read(store, other)
  {
  }

  // ---- dummy remote --------------------------------------------------------------

  predicate AllHeld(store: Store, ids: seq<StoreId>) {
    forall i :: 0 <= i < |ids| ==> ids[i].oid in store
  }

  /** Copies each listed blob, in order, from `from` to `to`, stopping at the
      first one `from` does not hold. */
  function CopyBlobs(to: Store, ids: seq<StoreId>, from: Store): (r: Partial<Store>)
    ensures r.error.None? <==> AllHeld(from, ids)
    ensures r.error.Some? ==> r.error.value.MissingBlob?
    ensures r.error.None? ==> forall i :: 0 <= i < |ids| ==> ids[i].oid in r.state && r.state[ids[i].oid] == from[ids[i].oid]
    ensures forall k :: k in to ==> k in r.state
    ensures forall k :: k in r.state && k !in to ==> exists i :: 0 <= i < |ids| && ids[i].oid == k
    ensures forall k :: k in to && (forall i :: 0 <= i < |ids| ==> ids[i].oid != k) ==> r.state[k] == to[k]
    decreases |ids|
  {
    if |ids| == 0 then Partial(to, None)
    else
      match Read(from, ids[0]) {
        case Failure(e) => Partial(to, Some(e))
        case Success(content) =>
          var rest := CopyBlobs(Write(to, ids[0], content), ids[1..], from);
          assert forall i :: 1 <= i < |ids| ==> ids[i] == ids[1..][i - 1];
          assert forall i :: 0 <= i < |ids| - 1 ==> ids[1..][i] == ids[i + 1];
          rest
      }
  }

  /** The dummy remote's upload: each blob is read from the local store and
      written to the remote directory. */
  function DummyWriteBatch(remote: Store, ids: seq<StoreId>, fromStore: Store): (r: Partial<Store>)
    ensures r.error.None? <==> AllHeld(fromStore, ids)
    ensures r.error.None? ==> forall i :: 0 <= i < |ids| ==> ids[i].oid in r.state && r.state[ids[i].oid] == fromStore[ids[i].oid]
  {
    CopyBlobs(remote, ids, fromStore)
  }

  /** The dummy remote's download: each blob is read from the remote
      directory and written to the local store. */
  function DummyReadBatch(remote: Store, ids: seq<StoreId>, toStore: Store): (r: Partial<Store>)
    ensures r.error.None? <==> AllHeld(remote, ids)
    ensures r.error.None? ==> forall i :: 0 <= i < |ids| ==> ids[i].oid in r.state && r.state[ids[i].oid] == remote[ids[i].oid]
  {
    CopyBlobs(toStore, ids, remote)
  }

  /** Uploading blobs to the dummy remote and downloading them into any
      store gives that store the uploaded contents. */
  lemma DummyRoundTrip(remote: Store, ids: seq<StoreId>, a: Store, b: Store)
    requires AllHeld(a, ids)
    ensures var up := DummyWriteBatch(remote, ids, a);
      var down := DummyReadBatch(up.state, ids, b);
      && up.error.None? && down.error.None?
      && forall i :: 0 <= i < |ids| ==> down.state[ids[i].oid] == a[ids[i].oid]
  {
  }

  // ---- null and prompt remotes ---------------------------------------------------

  /** The null remote's upload and download: nothing happens. */
  function NullBatch(store: Store, ids: seq<StoreId>): (r: Partial<Store>)
    ensures r == Partial(store, None)
  {
    Partial(store, None)
  }

  const MsgConfigureUrl: string := "lfs.url needs to be configured"

  /** The prompt remote's upload and download: always an abort asking for
      `lfs.url`, before anything happens. */
  function PromptBatch(store: Store, ids: seq<StoreId>): (r: Partial<Store>)
    ensures r == Partial(store, Some(Abort(MsgConfigureUrl)))
  {
    Partial(store, Some(Abort(MsgConfigureUrl)))
  }
}

=== FILE: obsmarker_queue.dfy ===
/** The two-stage obsolescence-marker queue of commit cloud. Transactions
    append markers to the pending log; a sync moves them to the syncing log,
    reads that log, uploads it and clears it. Each log is a file that may be
    absent; a file starts with a version header followed by encoded markers.
    Markers are opaque values and the encoding is abstract. */
module ObsmarkerQueue {
  import opened Wrappers

  /** One obsolescence marker: a precursor commit and its successors. */
  datatype Marker = Marker(precursor: string, successors: seq<string>)

  /** The records of a log file: the version header and the encoded markers. */
  datatype Record = Header(version: nat) | Entry(marker: Marker)

  /** The format version written in new files. */
  const Fm1Version: nat := 1

  /** `None` is a missing file. */
  datatype Queue = Queue(pending: Option<seq<Record>>, syncing: Option<seq<Record>>)

  datatype QueueError =
    | CorruptLog
    /** Unlinking a log that does not exist. */
    | NoSuchFile

  function Encode(ms: seq<Marker>): (rs: seq<Record>)
    ensures |rs| == |ms|
    ensures forall i :: 0 <= i < |ms| ==> rs[i] == Entry(ms[i])
  {
    if |ms| == 0 then [] else [Entry(ms[0])] + Encode(ms[1..])
  }

  /** A log as written by this module: one header, then markers only. */
  predicate WellFormed(rs: seq<Record>) {
    && |rs| > 0
    && rs[0] == Header(Fm1Version)
    && forall i :: 1 <= i < |rs| ==> rs[i].Entry?
  }

  predicate WellFormedFile(f: Option<seq<Record>>) {
    f.None? || WellFormed(f.value)
  }

  predicate WellFormedQueue(q: Queue) {
    WellFormedFile(q.pending) && WellFormedFile(q.syncing)
  }

  /** The markers a log holds, in file order. */
  function Entries(rs: seq<Record>): (ms: seq<Marker>)
    ensures |ms| <= |rs|
  {
    if |rs| == 0 then []
    else (if rs[0].Entry? then [rs[0].marker] else []) + Entries(rs[1..])
  }

  lemma {:induction false} EntriesAppend(a: seq<Record>, b: seq<Record>)
    ensures Entries(a + b) == Entries(a) + Entries(b)
  {
    if |a| == 0 {
      assert a + b == b;
    } else {
      var ab := a + b;
      assert ab[0] == a[0];
      assert ab[1..] == a[1..] + b;
      EntriesAppend(a[1..], b);
      assert Entries(ab) == (if a[0].Entry? then [a[0].marker] else []) + Entries(a[1..] + b);
    }
  }

  lemma {:induction false} EntriesOfEncode(ms: seq<Marker>)
    ensures Entries(Encode(ms)) == ms
  {
    if |ms| > 0 {
      assert Encode(ms)[1..] == Encode(ms[1..]);
      EntriesOfEncode(ms[1..]);
    }
  }

  /** Markers in a possibly missing file. */
  function FileMarkers(f: Option<seq<Record>>): seq<Marker> {
    if f.None? then [] else Entries(f.value)
  }

  /** Reading a whole log: the markers after its version header. */
  function ReadMarkers(rs: seq<Record>): (r: Result<seq<Marker>, QueueError>)
    ensures WellFormed(rs) ==> r == Success(Entries(rs))
    ensures r.Success? ==> |rs| > 0 && rs[0].Header?
  {
    if |rs| > 0 && rs[0].Header? && forall i :: 1 <= i < |rs| ==> rs[i].Entry? then
      Success(Entries(rs))
    else Failure(CorruptLog)
  }

  /** Opening a log for append and writing markers: the file is created if
      missing, and the version header is written only when the file is empty. */
  function AppendMarkers(f: Option<seq<Record>>, ms: seq<Marker>): (rs: seq<Record>)
    ensures WellFormedFile(f) ==> WellFormed(rs) && Entries(rs) == FileMarkers(f) + ms
    ensures f.Some? ==> |f.value| <= |rs| && rs[..|f.value|] == f.value
  {
    var existing := f.GetOr([]);
    var header := if |existing| == 0 then [Header(Fm1Version)] else [];
    EntriesAppend(existing + header, Encode(ms));
    EntriesAppend(existing, header);
    EntriesOfEncode(ms);
    existing + header + Encode(ms)
  }

  /** A transaction's new markers go to the pending log; the syncing log is
      not touched. */
  function AddPendingMarkers(q: Queue, ms: seq<Marker>): (r: Queue)
    ensures r.syncing == q.syncing
    ensures r.pending.Some?
    ensures q.pending.None? ==> r.pending.value == [Header(Fm1Version)] + Encode(ms)
    ensures q.pending.Some? && |q.pending.value| > 0 ==>
      r.pending.value == q.pending.value + Encode(ms)
    ensures WellFormedQueue(q) ==> WellFormedQueue(r) && FileMarkers(r.pending) == FileMarkers(q.pending) + ms
  {
    q.(pending := Some(AppendMarkers(q.pending, ms)))
  }

  /** First half of the transfer: the pending markers are appended to the
      syncing log. A crash right after this step leaves the pending log in
      place. */
  function TransferAppend(q: Queue): (r: Result<Queue, QueueError>)
    requires q.pending.Some?
    ensures WellFormedQueue(q) ==> r.Success?
    ensures r.Success? ==> r.value.pending == q.pending && r.value.syncing.Some?
    ensures WellFormedQueue(q) ==>
      WellFormedQueue(r.value) && FileMarkers(r.value.syncing) == FileMarkers(q.syncing) + FileMarkers(q.pending)
  {
    var ms :- ReadMarkers(q.pending.value);
    Success(q.(syncing := Some(AppendMarkers(q.syncing, ms))))
  }

  /** What a read of the syncing stage returns, and the queue after it. */
  datatype SyncingRead = SyncingRead(queue: Queue, markers: Result<seq<Marker>, QueueError>)

  /** Moves any pending markers to the syncing log, removes the pending log,
      and returns every marker in the syncing log (none if it does not exist). */
  function GetSyncingMarkers(q: Queue): (r: SyncingRead)
    ensures WellFormedQueue(q) ==> WellFormedQueue(r.queue)
    ensures WellFormedQueue(q) ==> r.queue.pending.None?
    // nothing is lost: the old syncing markers, then the pending ones
    ensures WellFormedQueue(q) ==>
      r.markers == Success(FileMarkers(q.syncing) + FileMarkers(q.pending))
    ensures WellFormedQueue(q) ==> FileMarkers(r.queue.syncing) == r.markers.value
    // with no pending log, nothing moves
    ensures q.pending.None? ==> r.queue == q
    ensures q.pending.None? && q.syncing.None? ==> r.markers == Success([])
  {
    if q.pending.None? then
      if q.syncing.None? then
        assert FileMarkers(q.syncing) + FileMarkers(q.pending) == [];
        SyncingRead(q, Success([]))
      else
        assert FileMarkers(q.syncing) + FileMarkers(q.pending) == FileMarkers(q.syncing);
        SyncingRead(q, ReadMarkers(q.syncing.value))
    else
      match TransferAppend(q) {
        case Failure(e) => SyncingRead(q, Failure(e))
        case Success(q1) =>
          var q2 := q1.(pending := None);
          if q2.syncing.None? then SyncingRead(q2, Success([]))
          else SyncingRead(q2, ReadMarkers(q2.syncing.value))
      }
  }

  /** Removes the syncing log; removing a missing file is an error. */
  function ClearSyncingMarkers(q: Queue): (r: Result<Queue, QueueError>)
    ensures r.Success? <==> q.syncing.Some?
    ensures r.Failure? ==> r.error == NoSuchFile
    ensures r.Success? ==> r.value == Queue(q.pending, None)
  {
    if q.syncing.None? then Failure(NoSuchFile) else Success(q.(syncing := None))
  }

  // ---- traces ----------------------------------------------------------------

  /** What can happen to the queue: a transaction adds markers; a sync
      transfers and reads the syncing log; a transfer is interrupted between
      its append and its removal of the pending log; a sync that uploaded the
      syncing markers clears them. */
  datatype Op =
    | Add(markers: seq<Marker>)
    | Transfer
    | InterruptedTransfer
    | UploadAndClear

  /** The queue after one step, and the markers that step uploaded. */
  function Step(q: Queue, op: Op): (Queue, seq<Marker>)
  {
    match op {
      case Add(ms) => (AddPendingMarkers(q, ms), [])
      case Transfer => (GetSyncingMarkers(q).queue, [])
      case InterruptedTransfer =>
        if q.pending.None? then (q, [])
        else match TransferAppend(q) {
          case Failure(_) => (q, [])
          case Success(q1) => (q1, [])
        }
      case UploadAndClear =>
        match ClearSyncingMarkers(q) {
          case Failure(_) => (q, [])
          case Success(q1) => (q1, FileMarkers(q.syncing))
        }
    }
  }

  function Run(q: Queue, ops: seq<Op>): (Queue, seq<Marker>)
    decreases |ops|
  {
    if |ops| == 0 then (q, [])
    else
      var (q1, up1) := Step(q, ops[0]);
      var (q2, up2) := Run(q1, ops[1..]);
      (q2, up1 + up2)
  }

  function Added(ops: seq<Op>): seq<Marker> {
    if |ops| == 0 then []
    else (if ops[0].Add? then ops[0].markers else []) + Added(ops[1..])
  }

  predicate NoInterruption(ops: seq<Op>) {
    forall i :: 0 <= i < |ops| ==> !ops[i].InterruptedTransfer?
  }

  /** Markers still queued or already uploaded. */
  function Accounted(q: Queue, uploaded: seq<Marker>): multiset<Marker> {
    multiset(FileMarkers(q.pending)) + multiset(FileMarkers(q.syncing)) + multiset(uploaded)
  }

  /** One step keeps every queued marker queued or uploads it; only an
      interrupted transfer can add copies, and every other step accounts for
      exactly what it was given. */
  lemma StepAccounts(q: Queue, op: Op)
    requires WellFormedQueue(q)
    ensures WellFormedQueue(Step(q, op).0)
    ensures Accounted(q, []) + multiset(if op.Add? then op.markers else []) <= Accounted(Step(q, op).0, Step(q, op).1)
    ensures !op.InterruptedTransfer? ==>
      Accounted(q, []) + multiset(if op.Add? then op.markers else []) == Accounted(Step(q, op).0, Step(q, op).1)
  {
    match op {
      case Add(ms) =>
      case Transfer =>
      case InterruptedTransfer =>
      case UploadAndClear =>
    }
  }

  /** A run is its first step followed by the rest. */
  lemma RunUnfold(q: Queue, ops: seq<Op>)
    requires |ops| > 0
    ensures var s := Step(q, ops[0]); var t := Run(s.0, ops[1..]);
      && Run(q, ops) == (t.0, s.1 + t.1)
      && Accounted(t.0, s.1 + t.1) == Accounted(t.0, t.1) + multiset(s.1)
      && multiset(Added(ops)) == multiset(if ops[0].Add? then ops[0].markers else []) + multiset(Added(ops[1..]))
  {
  }

  /** No loss: whatever sequence of appends, transfers, interrupted transfers
      and uploads runs, every marker that was queued or added is still queued
      or was uploaded (possibly more than once). */
  lemma {:induction false} NoMarkerLost(q: Queue, ops: seq<Op>)
    requires WellFormedQueue(q)
    ensures WellFormedQueue(Run(q, ops).0)
    ensures Accounted(q, []) + multiset(Added(ops)) <= Accounted(Run(q, ops).0, Run(q, ops).1)
    decreases |ops|
  {
    if |ops| > 0 {
      var s := Step(q, ops[0]);
      var t := Run(s.0, ops[1..]);
      var given := multiset(if ops[0].Add? then ops[0].markers else []);
      var later := multiset(Added(ops[1..]));
      StepAccounts(q, ops[0]);
      NoMarkerLost(s.0, ops[1..]);
      RunUnfold(q, ops);
      assert Accounted(s.0, s.1) == Accounted(s.0, []) + multiset(s.1);
      AccountChain(Accounted(q, []), given, later, Accounted(s.0, []), multiset(s.1), Accounted(t.0, t.1));
    }
  }

  /** Two accounting steps compose: what the first step keeps, plus what
      the rest adds, is kept by the rest, next to what the first uploaded. */
  lemma AccountChain(before: multiset<Marker>, given: multiset<Marker>, later: multiset<Marker>,
                     mid: multiset<Marker>, uploaded: multiset<Marker>, after: multiset<Marker>)
    requires before + given <= mid + uploaded
    requires mid + later <= after
    ensures before + given + later <= after + uploaded
  {
  }

  /** Without interrupted transfers, every marker is accounted for exactly as
      often as it was queued or added: no duplicates either. */
  lemma {:induction false} ExactlyOnceWithoutInterruption(q: Queue, ops: seq<Op>)
    requires WellFormedQueue(q)
    requires NoInterruption(ops)
    ensures Accounted(q, []) + multiset(Added(ops)) == Accounted(Run(q, ops).0, Run(q, ops).1)
    decreases |ops|
  {
    if |ops| > 0 {
      var q1 := Step(q, ops[0]).0;
      StepAccounts(q, ops[0]);
      NoInterruptionTail(ops);
      ExactlyOnceWithoutInterruption(q1, ops[1..]);
      RunUnfold(q, ops);
    }
  }

  lemma NoInterruptionTail(ops: seq<Op>)
    requires |ops| > 0 && NoInterruption(ops)
    ensures !ops[0].InterruptedTransfer? && NoInterruption(ops[1..])
  {
    forall i | 0 <= i < |ops[1..]| ensures !ops[1..][i].InterruptedTransfer? {
      assert ops[1..][i] == ops[i + 1];
    }
  }

  /** An interrupted transfer followed by a full one delivers the pending
      markers to the syncing log twice: duplicates, never loss. */
  lemma InterruptedTransferDuplicates(q: Queue)
    requires WellFormedQueue(q) && q.pending.Some?
    ensures var q1 := Step(q, InterruptedTransfer).0;
      GetSyncingMarkers(q1).markers ==
        Success(FileMarkers(q.syncing) + FileMarkers(q.pending) + FileMarkers(q.pending))
  {
  }
}

=== FILE: repoconfig_common.dfy ===
/** The common configuration: the security whitelist, where each entry names
    either a tier or a hard-coded identity, and at most one tier may appear. */
module RepoConfigCommon {
  import opened Wrappers
  import opened RepoConfigTypes
  import Collect

  /** An entry names exactly one principal: a tier alone, or an identity given
      by both its type and its data. */
  predicate WellFormedEntry(e: RawWhitelistEntry) {
    || (e.tier.Some? && e.identityType.None? && e.identityData.None?)
    || (e.tier.None? && e.identityType.Some? && e.identityData.Some?)
  }

  /** Conversion of one whitelist entry, with the source's checks in its order. */
  function ConvertEntry(e: RawWhitelistEntry): (r: Result<WhitelistEntry, ConfigError>)
    ensures r.Success? <==> WellFormedEntry(e)
    ensures e.identityType.Some? != e.identityData.Some? ==>
      r == Failure(InvalidFileStructure(MsgIdentityIncomplete))
    ensures e.tier.Some? && e.identityType.Some? && e.identityData.Some? ==>
      r == Failure(InvalidFileStructure(MsgTierAndIdentity))
    ensures e.tier.None? && e.identityType.None? && e.identityData.None? ==>
      r == Failure(InvalidFileStructure(MsgNoTierNoIdentity))
    ensures r.Success? && e.tier.Some? ==> r.value == Tier(e.tier.value)
    ensures r.Success? && e.tier.None? ==>
      r.value == HardcodedIdentity(e.identityType.value, e.identityData.value)
  {
    if e.identityData.None? != e.identityType.None? then
      Failure(InvalidFileStructure(MsgIdentityIncomplete))
    else
      var hasTier := e.tier.Some?;
      var hasIdentity := e.identityType.Some?;
      if hasTier && hasIdentity then Failure(InvalidFileStructure(MsgTierAndIdentity))
      else if !hasTier && !hasIdentity then Failure(InvalidFileStructure(MsgNoTierNoIdentity))
      else if hasTier then Success(Tier(e.tier.value))
      else Success(HardcodedIdentity(e.identityType.value, e.identityData.value))
  }

  /** Number of entries that carry a tier. */
  function TierCount(es: seq<RawWhitelistEntry>): nat {
    if |es| == 0 then 0
    else TierCount(es[..|es| - 1]) + (if es[|es| - 1].tier.Some? then 1 else 0)
  }

  /** The entries the conversion looks at: all of them, or those before the
      first malformed one (the conversion stops there). */
  function ExaminedPrefix(es: seq<RawWhitelistEntry>): seq<RawWhitelistEntry> {
    if forall i :: 0 <= i < |es| ==> ConvertEntry(es[i]).Success? then es
    else es[..Collect.FirstFailure(es, ConvertEntry)]
  }

  /** Reference definition of the whitelist conversion: entries are converted
      in order up to the first malformed one; if more than one tier was seen by
      then, "only one tier" is the error, otherwise the first malformed entry's
      error, otherwise the converted list. */
  function CommonConfigSpec(raw: Option<seq<RawWhitelistEntry>>): Result<CommonConfig, ConfigError> {
    var es := raw.GetOr([]);
    if TierCount(ExaminedPrefix(es)) > 1 then Failure(InvalidFileStructure(MsgOneTier))
    else
      match Collect.CollectAll(es, ConvertEntry)
      case Success(v) => Success(CommonConfig(v))
      case Failure(e) => Failure(e)
  }

  /** The source's loop: a tier counter incremented by each accepted tier
      entry, and an early stop at the first malformed entry. */
  method ReadCommonConfig(raw: Option<seq<RawWhitelistEntry>>) returns (r: Result<CommonConfig, ConfigError>)
    ensures r == CommonConfigSpec(raw)
    // accepted exactly when every entry is well formed and at most one names a tier
    ensures var es := raw.GetOr([]);
      r.Success? <==> (forall i :: 0 <= i < |es| ==> WellFormedEntry(es[i])) && TierCount(es) <= 1
    // the accepted list holds each entry's meaning, in input order
    ensures var es := raw.GetOr([]);
      r.Success? ==> (|r.value.securityConfig| == |es| &&
        forall i :: 0 <= i < |es| ==> ConvertEntry(es[i]) == Success(r.value.securityConfig[i]))
    // a failure not about tiers is the first malformed entry's error
    ensures var es := raw.GetOr([]);
      r.Failure? && r.error != InvalidFileStructure(MsgOneTier) ==>
        (exists k :: 0 <= k < |es| && ConvertEntry(es[k]) == Failure(r.error) &&
          forall j :: 0 <= j < k ==> WellFormedEntry(es[j]))
  {
    var es := raw.GetOr([]);
    var tiersNum := 0;
    var entries: seq<WhitelistEntry> := [];
    var failure: Option<ConfigError> := None;
    var i := 0;
    while i < |es| && failure.None?
      invariant 0 <= i <= |es|
      invariant failure.None? ==> |entries| == i
      invariant failure.None? ==> forall j :: 0 <= j < i ==> ConvertEntry(es[j]) == Success(entries[j])
      invariant failure.None? ==> tiersNum == TierCount(es[..i])
      invariant failure.Some? ==> 0 < i && ConvertEntry(es[i - 1]) == Failure(failure.value)
      invariant failure.Some? ==> forall j :: 0 <= j < i - 1 ==> ConvertEntry(es[j]).Success?
      invariant failure.Some? ==> tiersNum == TierCount(es[..i - 1])
    {
      assert es[..i + 1][..i] == es[..i];
      match ConvertEntry(es[i]) {
        case Failure(e) =>
          failure := Some(e);
        case Success(w) =>
          entries := entries + [w];
          if w.Tier? {
            tiersNum := tiersNum + 1;
          }
      }
      i := i + 1;
    }
    if failure.None? {
      assert es[..i] == es;
      var c := Collect.CollectAll(es, ConvertEntry);
      assert c.Success?;
      assert c.value == entries;
    } else {
      assert Collect.FirstFailure(es, ConvertEntry) == i - 1;
    }
    if tiersNum > 1 {
      return Failure(InvalidFileStructure(MsgOneTier));
    }
    if failure.Some? {
      assert ConvertEntry(es[i - 1]) == Failure(failure.value);
      return Failure(failure.value);
    }
    return Success(CommonConfig(entries));
  }
}

=== FILE: repoconfig_convert.dfy ===
/** Conversion of a repository's raw configuration into its typed form: the
    storage type and its blobstores, bookmarks and the documented defaults. */
module RepoConfigConvert {
  import opened Wrappers
  import opened Text
  import opened RepoConfigTypes
  import RepoConfigHooks
  import Collect

  // ---- blobstores ----------------------------------------------------------

  /** Arguments of one remote blobstore; each kind has its own required fields,
      checked in the source's order. */
  function BlobstoreArgsOf(b: RawRemoteBlobstoreConfig): (r: Result<RemoteBlobstoreArgs, ConfigError>)
    ensures r.Success? ==> !r.value.Multiplexed?
    ensures b.blobstoreType == Manifold ==>
      r == (if b.manifoldBucket.None? then Failure(InvalidConfig(MsgNoManifoldBucket))
            else Success(ManifoldArgs(b.manifoldBucket.value, b.manifoldPrefix.GetOr(""))))
    ensures b.blobstoreType == Gluster ==>
      (r.Success? <==> b.glusterTier.Some? && b.glusterExport.Some? && b.glusterBasepath.Some?)
    ensures b.blobstoreType == Gluster && b.glusterTier.None? ==> r == Failure(InvalidConfig(MsgNoGlusterTier))
    ensures b.blobstoreType == Gluster && b.glusterTier.Some? && b.glusterExport.None? ==>
      r == Failure(InvalidConfig(MsgNoGlusterExport))
    ensures b.blobstoreType == Gluster && b.glusterTier.Some? && b.glusterExport.Some? && b.glusterBasepath.None? ==>
      r == Failure(InvalidConfig(MsgNoGlusterBasepath))
    ensures b.blobstoreType == Gluster && r.Success? ==>
      r.value == GlusterArgs(b.glusterTier.value, b.glusterExport.value, b.glusterBasepath.value)
    // a MySQL blobstore needs a shard map and a strictly positive shard count
    ensures b.blobstoreType == Mysql ==>
      (r.Success? <==> b.mysqlShardmap.Some? && b.mysqlShardNum.Some? && b.mysqlShardNum.value > 0)
    ensures b.blobstoreType == Mysql && b.mysqlShardmap.None? ==> r == Failure(InvalidConfig(MsgNoMysqlShardmap))
    ensures b.blobstoreType == Mysql && b.mysqlShardmap.Some? && r.Failure? ==>
      r == Failure(InvalidConfig(MsgBadMysqlShardNum))
    ensures b.blobstoreType == Mysql && r.Success? ==>
      r.value == MysqlArgs(b.mysqlShardmap.value, b.mysqlShardNum.value)
  {
    match b.blobstoreType {
      case Manifold =>
        if b.manifoldBucket.None? then Failure(InvalidConfig(MsgNoManifoldBucket))
        else Success(ManifoldArgs(b.manifoldBucket.value, b.manifoldPrefix.GetOr("")))
      case Gluster =>
        if b.glusterTier.None? then Failure(InvalidConfig(MsgNoGlusterTier))
        else if b.glusterExport.None? then Failure(InvalidConfig(MsgNoGlusterExport))
        else if b.glusterBasepath.None? then Failure(InvalidConfig(MsgNoGlusterBasepath))
        else Success(GlusterArgs(b.glusterTier.value, b.glusterExport.value, b.glusterBasepath.value))
      case Mysql =>
        if b.mysqlShardmap.None? then Failure(InvalidConfig(MsgNoMysqlShardmap))
        else match b.mysqlShardNum {
          case Some(n) =>
            if n > 0 then Success(MysqlArgs(b.mysqlShardmap.value, n))
            else Failure(InvalidConfig(MsgBadMysqlShardNum))
          case None => Failure(InvalidConfig(MsgBadMysqlShardNum))
        }
    }
  }

  function IdsOf(bs: seq<RawRemoteBlobstoreConfig>): set<BlobstoreId> {
    set i | 0 <= i < |bs| :: bs[i].blobstoreId
  }

  predicate DistinctIds(bs: seq<RawRemoteBlobstoreConfig>) {
    forall i, j :: 0 <= i < j < |bs| ==> bs[i].blobstoreId != bs[j].blobstoreId
  }

  /** Blobstore `k` stops the conversion: its arguments are incomplete, or an
      earlier blobstore already used its id. */
  predicate Bad(bs: seq<RawRemoteBlobstoreConfig>, k: int)
    requires 0 <= k < |bs|
  {
    BlobstoreArgsOf(bs[k]).Failure? || bs[k].blobstoreId in IdsOf(bs[..k])
  }

  /** The blobstore list from index `i` on, added in order to `acc`, which
      holds the blobstores before `i`; the first blobstore that is incomplete
      or repeats an id aborts the conversion. */
  function CollectBlobstoresFrom(bs: seq<RawRemoteBlobstoreConfig>, i: nat, acc: map<BlobstoreId, RemoteBlobstoreArgs>): (r: Result<map<BlobstoreId, RemoteBlobstoreArgs>, ConfigError>)
    requires i <= |bs|
    requires forall k :: 0 <= k < i ==> !Bad(bs, k)
    requires acc.Keys == IdsOf(bs[..i])
    requires forall k :: 0 <= k < i ==> BlobstoreArgsOf(bs[k]) == Success(acc[bs[k].blobstoreId])
    ensures r.Success? <==> forall k :: 0 <= k < |bs| ==> !Bad(bs, k)
    ensures r.Success? ==> r.value.Keys == IdsOf(bs)
    ensures r.Success? ==> forall k :: 0 <= k < |bs| ==> BlobstoreArgsOf(bs[k]) == Success(r.value[bs[k].blobstoreId])
    ensures r.Failure? ==> exists k :: (
      && i <= k < |bs| && Bad(bs, k)
      && (forall j :: 0 <= j < k ==> !Bad(bs, j))
      && r.error == (if BlobstoreArgsOf(bs[k]).Failure? then BlobstoreArgsOf(bs[k]).error
                     else InvalidConfig(MsgIdsNotUnique)))
    decreases |bs| - i
  {
    if i == |bs| then
      assert bs[..i] == bs;
      Success(acc)
    else
      assert IdsOf(bs[..i + 1]) == IdsOf(bs[..i]) + {bs[i].blobstoreId} by {
        assert forall k :: 0 <= k < i ==> bs[..i + 1][k] == bs[..i][k];
      }
      match BlobstoreArgsOf(bs[i]) {
        case Failure(e) =>
          assert Bad(bs, i);
          Failure(e)
        case Success(args) =>
          if bs[i].blobstoreId in acc then
            assert Bad(bs, i);
            Failure(InvalidConfig(MsgIdsNotUnique))
          else
            CollectBlobstoresFrom(bs, i + 1, acc[bs[i].blobstoreId := args])
      }
  }

  /** The whole blobstore list as a map keyed by id. */
  function CollectBlobstores(bs: seq<RawRemoteBlobstoreConfig>): (r: Result<map<BlobstoreId, RemoteBlobstoreArgs>, ConfigError>)
    ensures r.Success? <==> forall k :: 0 <= k < |bs| ==> !Bad(bs, k)
    ensures r.Success? ==> r.value.Keys == IdsOf(bs)
    ensures r.Success? ==> forall k :: 0 <= k < |bs| ==> BlobstoreArgsOf(bs[k]) == Success(r.value[bs[k].blobstoreId])
    // the first offending blobstore decides the error
    ensures r.Failure? ==> exists k :: (
      && 0 <= k < |bs| && Bad(bs, k)
      && (forall j :: 0 <= j < k ==> !Bad(bs, j))
      && r.error == (if BlobstoreArgsOf(bs[k]).Failure? then BlobstoreArgsOf(bs[k]).error
                     else InvalidConfig(MsgIdsNotUnique)))
  {
    assert IdsOf(bs[..0]) == {};
    CollectBlobstoresFrom(bs, 0, map[])
  }

  /** Without incomplete or repeated entries, the ids are pairwise distinct. */
  lemma ValidBlobstoresDistinct(bs: seq<RawRemoteBlobstoreConfig>)
    requires forall k :: 0 <= k < |bs| ==> !Bad(bs, k)
    ensures DistinctIds(bs)
  {
    forall i, j | 0 <= i < j < |bs|
      ensures bs[i].blobstoreId != bs[j].blobstoreId
    {
      assert !Bad(bs, j);
      assert bs[..j][i] == bs[i];
    }
  }

  /** Pairwise distinct ids: as many ids as blobstores. */
  lemma {:induction false} DistinctIdsCount(bs: seq<RawRemoteBlobstoreConfig>)
    requires DistinctIds(bs)
    ensures |IdsOf(bs)| == |bs|
  {
    if |bs| > 0 {
      var init := bs[..|bs| - 1];
      DistinctIdsCount(init);
      assert IdsOf(bs) == IdsOf(init) + {bs[|bs| - 1].blobstoreId};
      assert bs[|bs| - 1].blobstoreId !in IdsOf(init);
    }
  }

  // ---- repository type -----------------------------------------------------

  function RawRepoTypeName(t: RawRepoType): string {
    match t
    case Files => "Files"
    case BlobRocks => "BlobRocks"
    case BlobSqlite => "BlobSqlite"
    case BlobRemote => "BlobRemote"
  }

  function NoPathMessage(t: RawRepoType): string {
    "No path provided for " + RawRepoTypeName(t) + " type of repo"
  }

  /** The repository type is accepted: local types have a path; the remote
      type has blobstores that convert, a database address, and a positive
      filenodes shard count when sharding is configured. */
  predicate RepoTypeAccepted(raw: RawRepoConfig) {
    if raw.repotype != BlobRemote then raw.path.Some?
    else
      && raw.remoteBlobstore.Some? && raw.dbAddress.Some?
      && (forall k :: 0 <= k < |raw.remoteBlobstore.value| ==> !Bad(raw.remoteBlobstore.value, k))
      && (raw.shardedFilenodes.Some? ==> raw.shardedFilenodes.value.shardNum > 0)
  }

  /** Local storage types need a path; the remote type needs blobstores and a
      database address, and a blobstore list that converts. One blobstore is
      used directly; any other number is multiplexed over all of them. */
  function ConvertRepoType(raw: RawRepoConfig): (r: Result<RepoType, ConfigError>)
    ensures r.Success? <==> RepoTypeAccepted(raw)
    ensures raw.repotype != BlobRemote ==>
      r == (if raw.path.None? then Failure(InvalidConfig(NoPathMessage(raw.repotype)))
            else if raw.repotype == Files then Success(BlobFiles(raw.path.value))
            else if raw.repotype == BlobRocks then Success(BlobRocksRepo(raw.path.value))
            else Success(BlobSqliteRepo(raw.path.value)))
    ensures raw.repotype == BlobRemote && raw.remoteBlobstore.None? ==>
      r == Failure(InvalidConfig(MsgNoRemoteBlobstores))
    ensures raw.repotype == BlobRemote && raw.remoteBlobstore.Some? && raw.dbAddress.None? ==>
      r == Failure(InvalidConfig(MsgNoDbAddress))
    // blobstore errors come first; a zero filenodes shard count is reported after
    ensures raw.repotype == BlobRemote && raw.remoteBlobstore.Some? && raw.dbAddress.Some? &&
            CollectBlobstores(raw.remoteBlobstore.value).Failure? ==>
      r == Failure(CollectBlobstores(raw.remoteBlobstore.value).error)
    ensures raw.repotype == BlobRemote && raw.remoteBlobstore.Some? && raw.dbAddress.Some? &&
            CollectBlobstores(raw.remoteBlobstore.value).Success? &&
            raw.shardedFilenodes.Some? && raw.shardedFilenodes.value.shardNum == 0 ==>
      r == Failure(InvalidConfig(MsgFilenodesShardNum))
    ensures raw.repotype == BlobRemote && r.Success? ==>
      (&& r.value.BlobRemoteRepo?
       && r.value.dbAddress == raw.dbAddress.value
       && r.value.writeLockDbAddress == raw.writeLockDbAddress
       && r.value.shardedFilenodes ==
            (if raw.shardedFilenodes.None? then None
             else Some(ShardedFilenodesParams(raw.shardedFilenodes.value.shardMap, raw.shardedFilenodes.value.shardNum))))
    // exactly one blobstore: its own arguments, otherwise a multiplexed store
    ensures raw.repotype == BlobRemote && r.Success? && |raw.remoteBlobstore.value| == 1 ==>
      Success(r.value.blobstoresArgs) == BlobstoreArgsOf(raw.remoteBlobstore.value[0])
    ensures raw.repotype == BlobRemote && r.Success? && |raw.remoteBlobstore.value| != 1 ==>
      (var bs := raw.remoteBlobstore.value;
       && r.value.blobstoresArgs.Multiplexed?
       && r.value.blobstoresArgs.scubaTable == raw.blobstoreScubaTable
       && r.value.blobstoresArgs.blobstores.Keys == IdsOf(bs)
       && forall i :: 0 <= i < |bs| ==>
            BlobstoreArgsOf(bs[i]) == Success(r.value.blobstoresArgs.blobstores[bs[i].blobstoreId]))
  {
    if raw.repotype != BlobRemote then
      if raw.path.None? then Failure(InvalidConfig(NoPathMessage(raw.repotype)))
      else match raw.repotype {
        case Files => Success(BlobFiles(raw.path.value))
        case BlobRocks => Success(BlobRocksRepo(raw.path.value))
        case BlobSqlite => Success(BlobSqliteRepo(raw.path.value))
      }
    else if raw.remoteBlobstore.None? then Failure(InvalidConfig(MsgNoRemoteBlobstores))
    else if raw.dbAddress.None? then Failure(InvalidConfig(MsgNoDbAddress))
    else
      var bs := raw.remoteBlobstore.value;
      match CollectBlobstores(bs) {
        case Failure(e) => Failure(e)
        case Success(blobstores) =>
          ValidBlobstoresDistinct(bs);
          DistinctIdsCount(bs);
          var blobstoresArgs :=
            if |blobstores| == 1 then
              assert bs[0].blobstoreId in IdsOf(bs);
              blobstores[bs[0].blobstoreId]
            else Multiplexed(raw.blobstoreScubaTable, blobstores);
          match raw.shardedFilenodes {
            case None => Success(BlobRemoteRepo(blobstoresArgs, raw.dbAddress.value, None, raw.writeLockDbAddress))
            case Some(p) =>
              if p.shardNum == 0 then Failure(InvalidConfig(MsgFilenodesShardNum))
              else Success(BlobRemoteRepo(blobstoresArgs, raw.dbAddress.value,
                                          Some(ShardedFilenodesParams(p.shardMap, p.shardNum)), raw.writeLockDbAddress))
          }
      }
  }

  // ---- bookmarks and the whole configuration -------------------------------

  /** A bookmark entry names a bookmark or gives a regex, never both, never
      neither; fast-forward-only defaults to false. */
  function ConvertBookmark(b: RawBookmarkConfig): (r: Result<BookmarkParams, ConfigError>)
    ensures r.Success? <==> b.regex.Some? != b.name.Some?
    ensures r.Failure? ==> r.error == InvalidConfig(MsgRegexXorName)
    ensures r.Success? && b.name.Some? ==> r.value.bookmark == Bookmark(b.name.value)
    ensures r.Success? && b.regex.Some? ==> r.value.bookmark == BookmarkRegex(b.regex.value)
    ensures r.Success? && b.onlyFastForward.None? ==> !r.value.onlyFastForward
    ensures r.Success? && b.onlyFastForward.Some? ==> r.value.onlyFastForward == b.onlyFastForward.value
    ensures r.Success? ==> r.value.hooks == b.hooks.GetOr([]) && r.value.allowedUsers == b.allowedUsers
  {
    var bookmarkOrRegex :- match (b.regex, b.name) {
      case (None, Some(name)) => Success(Bookmark(name))
      case (Some(regex), None) => Success(BookmarkRegex(regex))
      case _ => Failure(InvalidConfig(MsgRegexXorName))
    };
    Success(BookmarkParams(bookmarkOrRegex, b.hooks.GetOr([]), b.onlyFastForward.GetOr(false), b.allowedUsers))
  }

  /** The typed configuration: the repository type first, then the bookmarks,
      then the documented defaults for every absent optional field. */
  function ConvertConf(raw: RawRepoConfig, hooks: seq<HookParams>): (r: Result<RepoConfig, ConfigError>)
    ensures var bms := raw.bookmarks.GetOr([]);
      r.Success? <==> RepoTypeAccepted(raw) && forall i :: 0 <= i < |bms| ==> bms[i].regex.Some? != bms[i].name.Some?
    // a bad repository type is reported before any bookmark problem
    ensures !RepoTypeAccepted(raw) ==> r == Failure(ConvertRepoType(raw).error)
    // once the type is accepted, the only failure is a bad bookmark entry
    ensures RepoTypeAccepted(raw) && r.Failure? ==> r.error == InvalidConfig(MsgRegexXorName)
    ensures r.Success? ==> Success(r.value.repotype) == ConvertRepoType(raw)
    ensures var bms := raw.bookmarks.GetOr([]);
      r.Success? ==> (|r.value.bookmarks| == |bms| &&
        forall i :: 0 <= i < |bms| ==> ConvertBookmark(bms[i]) == Success(r.value.bookmarks[i]))
    ensures r.Success? ==> r.value.hooks == hooks && r.value.repoid == raw.repoid
    ensures r.Success? && raw.enabled.None? ==> r.value.enabled
    ensures r.Success? && raw.enabled.Some? ==> r.value.enabled == raw.enabled.value
    ensures r.Success? && raw.generationCacheSize.None? ==> r.value.generationCacheSize == 10 * 1024 * 1024
    ensures r.Success? && raw.generationCacheSize.Some? ==> r.value.generationCacheSize == raw.generationCacheSize.value
    ensures r.Success? && raw.cacheWarmup.Some? && raw.cacheWarmup.value.commitLimit.None? ==>
      r.value.cacheWarmup == Some(CacheWarmupParams(raw.cacheWarmup.value.bookmark, 200000))
    ensures r.Success? && raw.cacheWarmup.None? ==> r.value.cacheWarmup.None?
    ensures r.Success? && raw.hashValidationPercentage.None? ==> r.value.hashValidationPercentage == 0
    ensures r.Success? ==> (r.value.readonly == ReadWrite <==> raw.readonly != Some(true))
    ensures r.Success? && raw.readonly == Some(true) ==> r.value.readonly == ReadOnly(ReadOnlyReason)
    ensures r.Success? ==> (r.value.preserveRawBundle2 <==>
      raw.bundle2ReplayParams.Some? && raw.bundle2ReplayParams.value.preserveRawBundle2 == Some(true))
    ensures r.Success? && raw.lfs.None? ==> r.value.lfsThreshold.None?
  {
    var repotype :- ConvertRepoType(raw);
    var bookmarks :- Collect.CollectAll(raw.bookmarks.GetOr([]), ConvertBookmark);
    var cacheWarmup :=
      if raw.cacheWarmup.None? then None
      else Some(CacheWarmupParams(raw.cacheWarmup.value.bookmark,
                                  raw.cacheWarmup.value.commitLimit.GetOr(DefaultCacheWarmupCommitLimit)));
    var preserveRawBundle2 :=
      if raw.bundle2ReplayParams.None? then false
      else raw.bundle2ReplayParams.value.preserveRawBundle2.GetOr(false);
    var lfsThreshold := if raw.lfs.None? then None else raw.lfs.value.threshold;
    var readonly := if raw.readonly.GetOr(false) then ReadOnly(ReadOnlyReason) else ReadWrite;
    Success(RepoConfig(
      raw.enabled.GetOr(true),
      repotype,
      raw.generationCacheSize.GetOr(DefaultGenerationCacheSize),
      raw.repoid,
      raw.scubaTable,
      cacheWarmup,
      raw.hookManagerParams,
      bookmarks,
      raw.bookmarksCacheTtl,
      hooks,
      lfsThreshold,
      raw.wireprotoScribeCategory,
      raw.hashValidationPercentage.GetOr(DefaultHashValidationPercentage),
      readonly,
      raw.skiplistIndexBlobstoreKey,
      preserveRawBundle2))
  }

  /** The fields set in the raw configuration are carried over: the LFS
      threshold, a set hash-validation percentage and warm-up commit limit,
      and unchanged the scuba table, hook manager, bookmark cache TTL,
      wireproto scribe category and skiplist key. */
  lemma ConvertConfCarriesFields(raw: RawRepoConfig, hooks: seq<HookParams>)
    ensures var r := ConvertConf(raw, hooks);
      r.Success? && raw.lfs.Some? ==> r.value.lfsThreshold == raw.lfs.value.threshold
    ensures var r := ConvertConf(raw, hooks);
      r.Success? && raw.hashValidationPercentage.Some? ==>
        r.value.hashValidationPercentage == raw.hashValidationPercentage.value
    ensures var r := ConvertConf(raw, hooks);
      r.Success? && raw.cacheWarmup.Some? && raw.cacheWarmup.value.commitLimit.Some? ==>
        r.value.cacheWarmup == Some(CacheWarmupParams(raw.cacheWarmup.value.bookmark, raw.cacheWarmup.value.commitLimit.value))
    ensures var r := ConvertConf(raw, hooks);
      r.Success? ==>
        && r.value.scubaTable == raw.scubaTable
        && r.value.hookManagerParams == raw.hookManagerParams
        && r.value.bookmarksCacheTtlMillis == raw.bookmarksCacheTtl
        && r.value.wireprotoScribeCategory == raw.wireprotoScribeCategory
        && r.value.skiplistIndexBlobstoreKey == raw.skiplistIndexBlobstoreKey
  {
  }

  /** The error for a repository directory path that has no last component. */
  function InvalidRepoPath(repoDir: string): ConfigError {
    InvalidFileStructure("invalid repo path \"" + repoDir + "\"")
  }

  /** One repository's configuration. The repository is named after the last
      component of its directory, and a directory path without one fails
      before anything is read. Then its hooks are loaded (so a hook error
      wins over any conversion error), then the rest is converted. */
  function ReadSingleRepoConfig(raw: RawRepoConfig, repoDir: string, configRoot: string,
                                files: map<string, HookFile>): (r: Result<(string, RepoConfig), ConfigError>)
    ensures FileName(repoDir).None? ==> r == Failure(InvalidRepoPath(repoDir))
    ensures r.Success? ==> FileName(repoDir) == Some(r.value.0)
    ensures FileName(repoDir).Some? && RepoConfigHooks.LoadHooks(raw.hooks, repoDir, configRoot, files).Failure? ==>
      r == Failure(RepoConfigHooks.LoadHooks(raw.hooks, repoDir, configRoot, files).error)
    ensures r.Success? <==>
      FileName(repoDir).Some? &&
      RepoConfigHooks.LoadHooks(raw.hooks, repoDir, configRoot, files).Success? &&
      ConvertConf(raw, RepoConfigHooks.LoadHooks(raw.hooks, repoDir, configRoot, files).value).Success?
    ensures var loaded := RepoConfigHooks.LoadHooks(raw.hooks, repoDir, configRoot, files);
      FileName(repoDir).Some? && loaded.Success? && ConvertConf(raw, loaded.value).Failure? ==>
        r == Failure(ConvertConf(raw, loaded.value).error)
    ensures r.Success? ==>
      r.value.1 == ConvertConf(raw, RepoConfigHooks.LoadHooks(raw.hooks, repoDir, configRoot, files).value).value
    // the configuration holds each configured hook, loaded, in order
    ensures var hs := raw.hooks.GetOr([]);
      r.Success? ==> (
        && |r.value.1.hooks| == |hs|
        && forall i :: 0 <= i < |hs| ==>
             RepoConfigHooks.LoadHook(hs[i], repoDir, configRoot, files) == Success(r.value.1.hooks[i]))
  {
    match FileName(repoDir) {
      case None => Failure(InvalidRepoPath(repoDir))
      case Some(name) =>
        var hooks :- RepoConfigHooks.LoadHooks(raw.hooks, repoDir, configRoot, files);
        var config :- ConvertConf(raw, hooks);
        Success((name, config))
    }
  }
}

=== FILE: repoconfig_hooks.dfy ===
/** Hook entries of a repository's configuration: the bypass option, where the
    hook's code is found, and loading the code from an abstract file system. */
module RepoConfigHooks {
  import opened Wrappers
  import opened Text
  import opened RepoConfigTypes
  import Collect

  const RustHookPrefix := "rust:"
  const RelativePrefix := "./"

  /** `bypass_pushvar` must be of the form `name=value` with exactly one '='. */
  function GetBypass(h: RawHookConfig): (r: Result<Option<HookBypass>, ConfigError>)
    // a malformed pushvar is reported first, even when a commit string is also given
    ensures h.bypassPushvar.Some? && Count(h.bypassPushvar.value, '=') != 1 ==>
      r == Failure(InvalidPushvar(h.bypassPushvar.value))
    ensures h.bypassPushvar.Some? && Count(h.bypassPushvar.value, '=') == 1 && h.bypassCommitString.Some? ==>
      r == Failure(TooManyBypassOptions(h.name))
    ensures r.Failure? ==> h.bypassPushvar.Some?
    ensures r.Success? ==> (r.value.Some? <==> h.bypassCommitString.Some? || h.bypassPushvar.Some?)
    ensures r.Success? && h.bypassCommitString.Some? ==>
      r.value == Some(CommitMessage(h.bypassCommitString.value))
    // the pushvar is split at its '=' and neither half holds another '='
    ensures r.Success? && h.bypassPushvar.Some? ==>
      (r.value.Some? && r.value.value.Pushvar? &&
       r.value.value.name + "=" + r.value.value.value == h.bypassPushvar.value &&
       '=' !in r.value.value.name && '=' !in r.value.value.value)
  {
    var bypassCommitMessage := if h.bypassCommitString.Some? then Some(CommitMessage(h.bypassCommitString.value)) else None;
    var pushvar :- match h.bypassPushvar {
      case None => Success(None)
      case Some(s) =>
        var parts := Split(s, '=');
        if |parts| != 2 then Failure(InvalidPushvar(s))
        else
          assert Join(parts, '=') == parts[0] + "=" + parts[1];
          Success(Some(Pushvar(parts[0], parts[1])))
    };
    if bypassCommitMessage.Some? && pushvar.Some? then Failure(TooManyBypassOptions(h.name))
    else if bypassCommitMessage.Some? then Success(bypassCommitMessage)
    else Success(pushvar)
  }

  /** Rust's `Path::join`: an absolute right-hand side replaces the base, and a
      separator is inserted only when the base does not already end with one. */
  function JoinPath(base: string, p: string): (r: string)
    ensures |p| > 0 && p[0] == '/' ==> r == p
    ensures !(|p| > 0 && p[0] == '/') ==> |base| <= |r| && r[..|base|] == base
    ensures |p| <= |r| && r[|r| - |p|..] == p
    ensures !(|p| > 0 && p[0] == '/') && |base| > 0 ==> |p| < |r| && r[|r| - |p| - 1] == '/'
    // nothing but the one separator, when one is needed, comes between them
    ensures !(|p| > 0 && p[0] == '/') ==>
      |r| == |base| + |p| + (if |base| == 0 || base[|base| - 1] == '/' then 0 else 1)
  {
    if |p| > 0 && p[0] == '/' then p
    else if |base| == 0 || base[|base| - 1] == '/' then base + p
    else base + "/" + p
  }

  /** Where a hook's code is read from; rust hooks have no code. A path
      starting with "./" is taken relative to the repository's config
      directory, any other path relative to the config root. */
  function HookCodePath(h: RawHookConfig, repoDir: string, configRoot: string): (r: Result<Option<string>, ConfigError>)
    ensures StartsWith(h.name, RustHookPrefix) ==> r == Success(None)
    ensures !StartsWith(h.name, RustHookPrefix) && h.path.None? ==> r == Failure(MissingPath)
    ensures !StartsWith(h.name, RustHookPrefix) && h.path.Some? ==> r.Success? && r.value.Some?
    ensures !StartsWith(h.name, RustHookPrefix) && h.path.Some? && StartsWith(h.path.value, RelativePrefix) ==>
      r.value.value == JoinPath(repoDir, h.path.value[|RelativePrefix|..])
    ensures !StartsWith(h.name, RustHookPrefix) && h.path.Some? && !StartsWith(h.path.value, RelativePrefix) ==>
      r.value.value == JoinPath(configRoot, h.path.value)
  {
    if StartsWith(h.name, RustHookPrefix) then Success(None)
    else match h.path {
      case None => Failure(MissingPath)
      case Some(path) =>
        if StartsWith(path, RelativePrefix) then Success(Some(JoinPath(repoDir, path[|RelativePrefix|..])))
        else Success(Some(JoinPath(configRoot, path)))
    }
  }

  /** One hook: bypass first, then its code, read from `files` (a path missing
      from `files` is a failed read) and decoded as UTF-8. */
  function LoadHook(h: RawHookConfig, repoDir: string, configRoot: string, files: map<string, HookFile>): (r: Result<HookParams, ConfigError>)
    ensures GetBypass(h).Failure? ==> r == Failure(GetBypass(h).error)
    ensures GetBypass(h).Success? && HookCodePath(h, repoDir, configRoot).Failure? ==>
      r == Failure(HookCodePath(h, repoDir, configRoot).error)
    ensures r.Success? ==>
      (r.value.name == h.name && r.value.hookType == h.hookType &&
       Success(r.value.config.bypass) == GetBypass(h) &&
       r.value.config.strings == h.configStrings.GetOr(map[]) &&
       r.value.config.ints == h.configInts.GetOr(map[]))
    ensures r.Success? ==> (r.value.code.None? <==> StartsWith(h.name, RustHookPrefix))
    // the code is the decoded content of the resolved file; a missing file
    // and one that is not UTF-8 fail, each with its own error
    ensures var cp := HookCodePath(h, repoDir, configRoot);
      cp.Success? && cp.value.Some? && GetBypass(h).Success? ==>
        (if cp.value.value !in files then r == Failure(HookReadFailed(cp.value.value))
         else if files[cp.value.value].NotUtf8? then r == Failure(HookNotUtf8(cp.value.value))
         else r.Success? && r.value.code == Some(files[cp.value.value].text))
  {
    var bypass :- GetBypass(h);
    var config := HookConfig(bypass, h.configStrings.GetOr(map[]), h.configInts.GetOr(map[]));
    var path :- HookCodePath(h, repoDir, configRoot);
    match path {
      case None => Success(HookParams(h.name, None, h.hookType, config))
      case Some(p) =>
        if p !in files then Failure(HookReadFailed(p))
        else match files[p] {
          case NotUtf8 => Failure(HookNotUtf8(p))
          case Utf8Text(code) => Success(HookParams(h.name, Some(code), h.hookType, config))
        }
    }
  }

  /** All hooks, in order; the first failing hook aborts the load. */
  function LoadHooks(hooks: Option<seq<RawHookConfig>>, repoDir: string, configRoot: string, files: map<string, HookFile>): (r: Result<seq<HookParams>, ConfigError>)
    ensures var hs := hooks.GetOr([]);
      r.Success? <==> forall i :: 0 <= i < |hs| ==> LoadHook(hs[i], repoDir, configRoot, files).Success?
    ensures var hs := hooks.GetOr([]);
      r.Success? ==> (|r.value| == |hs| &&
        forall i :: 0 <= i < |hs| ==> LoadHook(hs[i], repoDir, configRoot, files) == Success(r.value[i]))
    ensures var hs := hooks.GetOr([]);
      r.Failure? ==> exists k :: (
        && 0 <= k < |hs|
        && LoadHook(hs[k], repoDir, configRoot, files) == Failure(r.error)
        && forall j :: 0 <= j < k ==> LoadHook(hs[j], repoDir, configRoot, files).Success?)
  {
    var hs := hooks.GetOr([]);
    var load := (h: RawHookConfig) => LoadHook(h, repoDir, configRoot, files);
    var r := Collect.CollectAll(hs, load);
    assert forall i :: 0 <= i < |hs| ==> load(hs[i]) == LoadHook(hs[i], repoDir, configRoot, files);
    if r.Failure? then
      var k := Collect.FirstFailure(hs, load);
      assert LoadHook(hs[k], repoDir, configRoot, files) == Failure(r.error);
      r
    else r
  }
}

=== FILE: repoconfig_types.dfy ===
/** The records of the repository configuration: the "raw" shapes as they come
    out of deserialisation, where nearly every field is optional, and the typed
    configuration the conversion produces. Regexes, bookmark names and paths
    are opaque strings here. */
module RepoConfigTypes {
  import opened Wrappers

  /** Errors the conversion reports; the messages are the source's own. */
  datatype ConfigError =
    | InvalidFileStructure(message: string)
    | MissingPath
    | InvalidPushvar(pushvar: string)
    | TooManyBypassOptions(hookName: string)
    | InvalidConfig(message: string)
    /** Reading the hook file at this path failed. */
    | HookReadFailed(path: string)
    /** The hook file at this path is not valid UTF-8. */
    | HookNotUtf8(path: string)

  /** The bytes of a hook file, as far as loading cares: either they decode
      as UTF-8 to this text, or they do not decode. */
  datatype HookFile = Utf8Text(text: string) | NotUtf8

  const MsgIdentityIncomplete := "identity type and data must be specified"
  const MsgTierAndIdentity := "tier and identity cannot be both specified"
  const MsgNoTierNoIdentity := "tier or identity must be specified"
  const MsgOneTier := "only one tier is allowed"
  const MsgNoRemoteBlobstores := "remote blobstores must be specified"
  const MsgNoDbAddress := "xdb tier was not specified"
  const MsgNoManifoldBucket := "manifold bucket must be specified"
  const MsgNoGlusterTier := "gluster tier must be specified"
  const MsgNoGlusterExport := "gluster bucket must be specified"
  const MsgNoGlusterBasepath := "gluster basepath must be specified"
  const MsgNoMysqlShardmap := "mysql shardmap must be specified"
  const MsgBadMysqlShardNum := "mysql shard num must be specified and an interger larger than 0"
  const MsgIdsNotUnique := "blobstore identifiers are not unique"
  const MsgFilenodesShardNum := "filenodes shard_num must be > 0"
  const MsgRegexXorName := "bookmark's params need to specify regex xor name"
  const ReadOnlyReason := "Set by config option"

  /** Documented defaults. */
  const DefaultGenerationCacheSize: nat := 10 * 1024 * 1024
  const DefaultCacheWarmupCommitLimit: nat := 200000
  const DefaultHashValidationPercentage: nat := 0

  // ---- common config -------------------------------------------------------

  datatype RawWhitelistEntry = RawWhitelistEntry(
    tier: Option<string>,
    identityData: Option<string>,
    identityType: Option<string>)

  datatype WhitelistEntry =
    | Tier(tier: string)
    | HardcodedIdentity(ty: string, data: string)

  datatype CommonConfig = CommonConfig(securityConfig: seq<WhitelistEntry>)

  // ---- hooks ---------------------------------------------------------------

  datatype HookType = PerChangeset | PerAddedOrModifiedFile

  datatype RawHookConfig = RawHookConfig(
    name: string,
    path: Option<string>,
    hookType: HookType,
    bypassCommitString: Option<string>,
    bypassPushvar: Option<string>,
    configStrings: Option<map<string, string>>,
    configInts: Option<map<string, int>>)

  datatype HookBypass =
    | CommitMessage(message: string)
    | Pushvar(name: string, value: string)

  datatype HookConfig = HookConfig(
    bypass: Option<HookBypass>,
    strings: map<string, string>,
    ints: map<string, int>)

  /** `code` is the hook's source text; rust hooks carry none. */
  datatype HookParams = HookParams(
    name: string,
    code: Option<string>,
    hookType: HookType,
    config: HookConfig)

  // ---- repository config ---------------------------------------------------

  datatype Regex = Regex(pattern: string)

  type BlobstoreId = int

  datatype RawRepoType = Files | BlobRocks | BlobSqlite | BlobRemote

  datatype RawBlobstoreType = Manifold | Gluster | Mysql

  datatype RawRemoteBlobstoreConfig = RawRemoteBlobstoreConfig(
    blobstoreType: RawBlobstoreType,
    blobstoreId: BlobstoreId,
    manifoldBucket: Option<string>,
    manifoldPrefix: Option<string>,
    glusterTier: Option<string>,
    glusterExport: Option<string>,
    glusterBasepath: Option<string>,
    mysqlShardmap: Option<string>,
    mysqlShardNum: Option<int>)

  datatype RawShardedFilenodesParams = RawShardedFilenodesParams(shardMap: string, shardNum: nat)

  datatype RawCacheWarmupConfig = RawCacheWarmupConfig(bookmark: string, commitLimit: Option<nat>)

  datatype RawBookmarkConfig = RawBookmarkConfig(
    regex: Option<Regex>,
    name: Option<string>,
    hooks: Option<seq<string>>,
    onlyFastForward: Option<bool>,
    allowedUsers: Option<Regex>)

  datatype RawLfsParams = RawLfsParams(threshold: Option<nat>)

  datatype RawBundle2ReplayParams = RawBundle2ReplayParams(preserveRawBundle2: Option<bool>)

  datatype HookManagerParams = HookManagerParams(entrylimit: nat, weightlimit: nat, disableAclChecker: bool)

  datatype RawRepoConfig = RawRepoConfig(
    path: Option<string>,
    repotype: RawRepoType,
    enabled: Option<bool>,
    generationCacheSize: Option<nat>,
    repoid: int,
    dbAddress: Option<string>,
    writeLockDbAddress: Option<string>,
    scubaTable: Option<string>,
    blobstoreScubaTable: Option<string>,
    cacheWarmup: Option<RawCacheWarmupConfig>,
    bookmarks: Option<seq<RawBookmarkConfig>>,
    bookmarksCacheTtl: Option<nat>,
    hooks: Option<seq<RawHookConfig>>,
    lfs: Option<RawLfsParams>,
    wireprotoScribeCategory: Option<string>,
    hashValidationPercentage: Option<nat>,
    readonly: Option<bool>,
    hookManagerParams: Option<HookManagerParams>,
    skiplistIndexBlobstoreKey: Option<string>,
    remoteBlobstore: Option<seq<RawRemoteBlobstoreConfig>>,
    bundle2ReplayParams: Option<RawBundle2ReplayParams>,
    shardedFilenodes: Option<RawShardedFilenodesParams>)

  datatype RemoteBlobstoreArgs =
    | ManifoldArgs(bucket: string, prefix: string)
    | GlusterArgs(tier: string, exportName: string, basepath: string)
    | MysqlArgs(shardmap: string, shardNum: nat)
    | Multiplexed(scubaTable: Option<string>, blobstores: map<BlobstoreId, RemoteBlobstoreArgs>)

  datatype ShardedFilenodesParams = ShardedFilenodesParams(shardMap: string, shardNum: nat)

  datatype RepoType =
    | BlobFiles(path: string)
    | BlobRocksRepo(path: string)
    | BlobSqliteRepo(path: string)
    | BlobRemoteRepo(
        blobstoresArgs: RemoteBlobstoreArgs,
        dbAddress: string,
        shardedFilenodes: Option<ShardedFilenodesParams>,
        writeLockDbAddress: Option<string>)

  datatype BookmarkOrRegex = Bookmark(name: string) | BookmarkRegex(regex: Regex)

  datatype BookmarkParams = BookmarkParams(
    bookmark: BookmarkOrRegex,
    hooks: seq<string>,
    onlyFastForward: bool,
    allowedUsers: Option<Regex>)

  datatype CacheWarmupParams = CacheWarmupParams(bookmark: string, commitLimit: nat)

  datatype RepoReadOnly = ReadOnly(reason: string) | ReadWrite

  datatype RepoConfig = RepoConfig(
    enabled: bool,
    repotype: RepoType,
    generationCacheSize: nat,
    repoid: int,
    scubaTable: Option<string>,
    cacheWarmup: Option<CacheWarmupParams>,
    hookManagerParams: Option<HookManagerParams>,
    bookmarks: seq<BookmarkParams>,
    bookmarksCacheTtlMillis: Option<nat>,
    hooks: seq<HookParams>,
    lfsThreshold: Option<nat>,
    wireprotoScribeCategory: Option<string>,
    hashValidationPercentage: nat,
    readonly: RepoReadOnly,
    skiplistIndexBlobstoreKey: Option<string>,
    preserveRawBundle2: bool)
}

=== FILE: repopaths.dfy ===
/** The repository name commit cloud registers under, and the remote path it
    talks to. Both read the repository's configuration, passed in here as
    values: `remotefilelog.reponame`, `paths.default` and the `[paths]`
    section. */
module RepoPaths {
  import opened Wrappers
  import opened Text

  datatype PathsError =
    | ConfigurationError(message: string)
    | Abort(message: string, hint: string)
    /** A Python exception the code does not mean to raise. */
    | Crash(reason: string)

  const MsgUnknownRepo: string := "unknown repo"
  const MsgNoDefaultPath: string := "default repository not configured!"
  const HintNoDefaultPath: string := "see 'hg help config.paths'"

  /** The name as the code computes it: the fallback, the basename of
      `paths.default`, is evaluated before the configured name is looked up,
      so an unset `paths.default` fails even when a name is configured. */
  function GetRepoNameAsWritten(reponame: Option<string>, defaultPath: Option<string>): (r: Result<string, PathsError>)
    ensures defaultPath.None? ==> r.Failure? && r.error.Crash?
    ensures defaultPath.Some? ==> r == GetRepoName(reponame, defaultPath)
  {
    if defaultPath.None? then Failure(Crash("basename of an unset paths.default"))
    else
      var name := if reponame.Some? then reponame.value else Basename(defaultPath.value);
      if name == "" then Failure(ConfigurationError(MsgUnknownRepo)) else Success(name)
  }

  /** The configured repository name, falling back to the last component of
      `paths.default` only when none is configured; an empty or missing name
      is an "unknown repo" configuration error. */
  function GetRepoName(reponame: Option<string>, defaultPath: Option<string>): (r: Result<string, PathsError>)
    ensures r.Success? <==>
      || (reponame.Some? && reponame.value != "")
      || (reponame.None? && defaultPath.Some? && Basename(defaultPath.value) != "")
    ensures r.Failure? ==> r.error == ConfigurationError(MsgUnknownRepo)
    ensures reponame.Some? && r.Success? ==> r.value == reponame.value
    ensures reponame.None? && r.Success? ==>
      && '/' !in r.value
      && |r.value| <= |defaultPath.value|
      && defaultPath.value[|defaultPath.value| - |r.value|..] == r.value
  {
    var name :=
      if reponame.Some? then reponame.value
      else if defaultPath.Some? then Basename(defaultPath.value)
      else "";
    if name == "" then Failure(ConfigurationError(MsgUnknownRepo)) else Success(name)
  }

  /** With a name configured and no `paths.default`, the code as written
      fails where the name alone should do. */
  lemma RepoNameEagerFallback()
    ensures GetRepoNameAsWritten(Some("fbsource"), None).Failure?
    ensures GetRepoName(Some("fbsource"), None) == Success("fbsource")
  {
  }

  /** A `[paths]` entry: its location and optional push location. */
  datatype Path = Path(loc: string, pushloc: Option<string>)

  /** The location to push to: the push location unless it is unset or empty. */
  function PushTarget(p: Path): (t: string)
    ensures t == p.loc || (p.pushloc.Some? && t == p.pushloc.value && t != "")
    ensures p.pushloc.Some? && p.pushloc.value != "" ==> t == p.pushloc.value
  {
    if p.pushloc.Some? && p.pushloc.value != "" then p.pushloc.value else p.loc
  }

  /** The remote to use for `dest`: with no destination (or an empty one) the
      `infinitepush` path, else the `default` path; a named path that is not
      configured stands for its own location. Aborts when no default is
      configured. */
  function GetRemotePath(dest: Option<string>, paths: map<string, Path>): (r: Result<string, PathsError>)
    ensures r.Failure? <==> (dest.None? || dest.value == "") && "infinitepush" !in paths && "default" !in paths
    ensures r.Failure? ==> r.error == Abort(MsgNoDefaultPath, HintNoDefaultPath)
    ensures (dest.None? || dest.value == "") && "infinitepush" in paths ==>
      r == Success(PushTarget(paths["infinitepush"]))
    ensures (dest.None? || dest.value == "") && "infinitepush" !in paths && "default" in paths ==>
      r == Success(PushTarget(paths["default"]))
    ensures dest.Some? && dest.value != "" && dest.value in paths ==> r == Success(PushTarget(paths[dest.value]))
    ensures dest.Some? && dest.value != "" && dest.value !in paths ==> r == Success(dest.value)
  {
    var path :=
      if dest.Some? && dest.value != "" then
        if dest.value in paths then Some(paths[dest.value]) else Some(Path(dest.value, None))
      else if "infinitepush" in paths then Some(paths["infinitepush"])
      else if "default" in paths then Some(paths["default"])
      else None;
    if path.None? then Failure(Abort(MsgNoDefaultPath, HintNoDefaultPath))
    else Success(PushTarget(path.value))
  }

  /** An empty destination is no destination (`dest or None`). */
  lemma EmptyDestIsDefault(paths: map<string, Path>)
    ensures GetRemotePath(Some(""), paths) == GetRemotePath(None, paths)
  {
  }

  /** With no destination the `infinitepush` path is chosen over `default`:
      when it is configured, naming it gives the same remote, and when it is
      not, naming `default` does. */
  lemma DefaultPreference(paths: map<string, Path>)
    ensures "infinitepush" in paths ==> GetRemotePath(None, paths) == GetRemotePath(Some("infinitepush"), paths)
    ensures "infinitepush" !in paths && "default" in paths ==>
      GetRemotePath(None, paths) == GetRemotePath(Some("default"), paths)
  {
  }
}

=== FILE: subscription.dfy ===
/** The commit cloud subscription marker. A connected repository keeps one
    small config file in a shared "joined" directory so that the scm daemon
    subscribes to its workspace; the daemon is told to reload its
    subscriptions whenever that file appears or disappears. The loopback
    socket to the daemon is reduced to one input, whether the daemon accepts
    connections, and its observable outcomes are effects. */
module Subscription {
  import opened Wrappers
  import opened Text
  import opened RepoPaths

  /** What the manager does to the outside world besides the marker file. */
  datatype Effect =
    /** A "commitcloud::restart_subscriptions" request reached the daemon. */
    | RestartRequested
    /** The status message that the scm daemon is not running. */
    | NotRunningWarning

  /** The manager's view of one repository: whether subscriptions are
      enabled, the marker file's name (a hash of the three values below),
      and the workspace, repository name and root it advertises. */
  datatype Manager = Manager(
    enabled: bool,
    fileName: string,
    workspace: string,
    repoName: string,
    repoRoot: string)

  /** The environment variable naming the home directory. */
  function HomeVar(windows: bool): string {
    if windows then "APPDATA" else "HOME"
  }

  /** The directory the joined directory lives under: the path configured
      under `commitcloud.<option>` when it is non-empty, otherwise the home
      directory from the environment. Whichever is chosen must be an existing
      directory (`isDir`); an unset or empty variable is its own error. */
  function HomeDir(option: string, configured: Option<string>, windows: bool,
                   environ: map<string, string>, isDir: string -> bool): (r: Result<string, PathsError>)
    ensures r.Success? ==> isDir(r.value)
    // a non-empty configured path decides alone, the environment is not read
    ensures configured.Some? && configured.value != "" ==>
      && (r.Success? <==> isDir(configured.value))
      && (r.Success? ==> r.value == configured.value)
      && (r.Failure? ==> r.error == ConfigurationError("invalid commitcloud." + option + " '" + configured.value + "'"))
    ensures !(configured.Some? && configured.value != "") ==>
      var v := HomeVar(windows);
      && (r.Success? <==> v in environ && environ[v] != "" && isDir(environ[v]))
      && (r.Success? ==> r.value == environ[v])
      && ((v !in environ || environ[v] == "") ==>
            r == Failure(ConfigurationError("$" + v + " environment variable not found")))
      && (v in environ && environ[v] != "" && !isDir(environ[v]) ==>
            r == Failure(ConfigurationError("invalid homedir '" + environ[v] + "'")))
  {
    if configured.Some? && configured.value != "" then
      if !isDir(configured.value) then
        Failure(ConfigurationError("invalid commitcloud." + option + " '" + configured.value + "'"))
      else Success(configured.value)
    else
      var v := HomeVar(windows);
      if v !in environ || environ[v] == "" then
        Failure(ConfigurationError("$" + v + " environment variable not found"))
      else if !isDir(environ[v]) then
        Failure(ConfigurationError("invalid homedir '" + environ[v] + "'"))
      else Success(environ[v])
  }

  /** Constructing a manager: the repository name is looked up first, then
      the home directory (`home`, as HomeDir finds it); the first error
      aborts whichever command asked for the manager. `asWritten` selects the
      name lookup as the code evaluates it rather than as intended. */
  function OpenManager(asWritten: bool, reponame: Option<string>, defaultPath: Option<string>,
                       home: Result<string, PathsError>, enabled: bool, fileName: string,
                       workspace: string, repoRoot: string): (r: Result<Manager, PathsError>)
    ensures var name := if asWritten then GetRepoNameAsWritten(reponame, defaultPath)
                        else GetRepoName(reponame, defaultPath);
      && (name.Failure? ==> r == Failure(name.error))
      && (name.Success? && home.Failure? ==> r == Failure(home.error))
      && (r.Success? <==> name.Success? && home.Success?)
      && (r.Success? ==> r.value == Manager(enabled, fileName, workspace, name.value, repoRoot))
  {
    var name :- if asWritten then GetRepoNameAsWritten(reponame, defaultPath)
                else GetRepoName(reponame, defaultPath);
    var _ :- home;
    Success(Manager(enabled, fileName, workspace, name, repoRoot))
  }

  /** The joined directory after an operation, and its effects in order. */
  datatype Outcome = Outcome(files: map<string, string>, effects: seq<Effect>)

  /** The lines of the marker file: a config section naming the workspace,
      repository name and repository root, each line ended by a newline. */
  function MarkerLines(m: Manager): seq<string> {
    ["[commitcloud]", "workspace=" + m.workspace, "repo_name=" + m.repoName,
     "repo_root=" + m.repoRoot, ""]
  }

  function MarkerContents(m: Manager): string {
    Join(MarkerLines(m), '\n')
  }

  /** Asking the daemon to reload: the request arrives when the daemon is up;
      otherwise the failure is reported only when asked to warn. */
  function RestartService(daemonUp: bool, warnNotRunning: bool): (es: seq<Effect>)
    ensures RestartRequested in es <==> daemonUp
    ensures NotRunningWarning in es <==> !daemonUp && warnNotRunning
    ensures |es| <= 1
  {
    if daemonUp then [RestartRequested]
    else if warnNotRunning then [NotRunningWarning]
    else []
  }

  /** Probing the daemon: a warning when it does not accept connections. */
  function ProbeService(daemonUp: bool): (es: seq<Effect>)
    ensures RestartRequested !in es
    ensures NotRunningWarning in es <==> !daemonUp
  {
    if daemonUp then [] else [NotRunningWarning]
  }

  /** Removes the marker if present, then asks the daemon to reload without
      warning when it is down; with no marker nothing happens. */
  function RemoveSubscription(m: Manager, files: map<string, string>, daemonUp: bool): (r: Outcome)
    ensures m.fileName !in r.files
    ensures r.files == files - {m.fileName}
    ensures NotRunningWarning !in r.effects
    ensures RestartRequested in r.effects <==> m.fileName in files && daemonUp
    ensures m.fileName !in files ==> r == Outcome(files, [])
  {
    if m.fileName in files then
      Outcome(files - {m.fileName}, RestartService(daemonUp, false))
    else
      Outcome(files, [])
  }

  /** With subscriptions disabled this is a removal. Otherwise a missing
      marker is written and the daemon is asked to reload (warning if it is
      down); an existing marker is left as it is and the daemon is only
      probed. */
  function CheckSubscription(m: Manager, files: map<string, string>, daemonUp: bool): (r: Outcome)
    ensures !m.enabled ==> r == RemoveSubscription(m, files, daemonUp)
    ensures m.enabled ==> m.fileName in r.files
    ensures m.enabled ==> r.files - {m.fileName} == files - {m.fileName}
    ensures m.enabled && m.fileName !in files ==>
      && r.files[m.fileName] == MarkerContents(m)
      && (RestartRequested in r.effects <==> daemonUp)
      && (NotRunningWarning in r.effects <==> !daemonUp)
    ensures m.enabled && m.fileName in files ==>
      && r.files == files
      && RestartRequested !in r.effects
      && (NotRunningWarning in r.effects <==> !daemonUp)
  {
    if !m.enabled then RemoveSubscription(m, files, daemonUp)
    else if m.fileName !in files then
      Outcome(files[m.fileName := MarkerContents(m)], RestartService(daemonUp, true))
    else
      Outcome(files, ProbeService(daemonUp))
  }

  /** Removing twice is removing once: the second call changes nothing and
      has no effect. */
  lemma RemoveIdempotent(m: Manager, files: map<string, string>, up1: bool, up2: bool)
    ensures var r1 := RemoveSubscription(m, files, up1);
      RemoveSubscription(m, r1.files, up2) == Outcome(r1.files, [])
  {
  }

  /** Once a check has written the marker, later checks only probe: no
      further restart requests and no change to the directory. */
  lemma CheckSettles(m: Manager, files: map<string, string>, up1: bool, up2: bool)
    requires m.enabled
    ensures var r1 := CheckSubscription(m, files, up1);
      var r2 := CheckSubscription(m, r1.files, up2);
      r2.files == r1.files && RestartRequested !in r2.effects
  {
  }

  lemma NotInConcat(a: string, b: string, c: char)
    requires c !in a && c !in b
    ensures c !in a + b
  {
  }

  /** The marker file reads back line by line as its section header and the
      three settings, as long as none of the values spans a line. */
  lemma MarkerContentsLines(m: Manager)
    requires '\n' !in m.workspace && '\n' !in m.repoName && '\n' !in m.repoRoot
    ensures Split(MarkerContents(m), '\n') ==
      ["[commitcloud]", "workspace=" + m.workspace, "repo_name=" + m.repoName,
       "repo_root=" + m.repoRoot, ""]
  {
    NotInConcat("workspace=", m.workspace, '\n');
    NotInConcat("repo_name=", m.repoName, '\n');
    NotInConcat("repo_root=", m.repoRoot, '\n');
    SplitJoin(MarkerLines(m), '\n');
  }

  /** Four lines, each ended by the separator. */
  lemma JoinLines(a: string, b: string, c: string, d: string, sep: char)
    ensures Join([a, b, c, d, ""], sep) == a + [sep] + b + [sep] + c + [sep] + d + [sep]
  {
    assert [a, b, c, d, ""][1..] == [b, c, d, ""];
    assert [b, c, d, ""][1..] == [c, d, ""];
    assert [c, d, ""][1..] == [d, ""];
    assert [d, ""][1..] == [""];
    assert Join([d, ""], sep) == d + [sep];
    assert Join([c, d, ""], sep) == c + [sep] + (d + [sep]);
    assert Join([b, c, d, ""], sep) == b + [sep] + (c + [sep] + (d + [sep]));
  }

  /** The file text itself, as the daemon reads it. */
  lemma MarkerContentsText(m: Manager)
    ensures MarkerContents(m) == "[commitcloud]\nworkspace=" + m.workspace + "\nrepo_name="
      + m.repoName + "\nrepo_root=" + m.repoRoot + "\n"
  {
    var l1, l2, l3 := "workspace=" + m.workspace, "repo_name=" + m.repoName, "repo_root=" + m.repoRoot;
    JoinLines("[commitcloud]", l1, l2, l3, '\n');
    var t1 := "[commitcloud]" + "\n" + l1;
    assert t1 == "[commitcloud]\nworkspace=" + m.workspace;
    var t2 := t1 + "\n" + l2;
    assert t2 == "[commitcloud]\nworkspace=" + m.workspace + "\nrepo_name=" + m.repoName;
    var t3 := t2 + "\n" + l3;
    assert t3 == "[commitcloud]\nworkspace=" + m.workspace + "\nrepo_name=" + m.repoName
      + "\nrepo_root=" + m.repoRoot;
  }
}

=== FILE: text.dfy ===
/** Character-level helpers shared by the models: Python's `str.strip()` and
    `str.split(sep)`, Rust's `starts_with`, POSIX `basename`, and decimal
    integers as Python's `int()` reads and writes them. */
module Text {
  import opened Wrappers

  /** The characters Python's `str.strip()` and `int()` treat as whitespace. */
  predicate IsSpace(c: char) {
    c == ' ' || c == '\t' || c == '\n' || c == '\r' || c as int == 0x0b || c as int == 0x0c
  }

  predicate AllSpace(s: string) {
    forall i :: 0 <= i < |s| ==> IsSpace(s[i])
  }

  predicate StartsWith(s: string, prefix: string) {
    |prefix| <= |s| && s[..|prefix|] == prefix
  }

  /** Number of leading whitespace characters. */
  function LeadingSpace(s: string): (n: nat)
    ensures n <= |s|
    ensures AllSpace(s[..n])
    ensures n < |s| ==> !IsSpace(s[n])
  {
    if |s| == 0 || !IsSpace(s[0]) then 0
    else
      var n := 1 + LeadingSpace(s[1..]);
      assert s[..n] == [s[0]] + s[1..][..n - 1];
      n
  }

  /** Number of trailing whitespace characters. */
  function TrailingSpace(s: string): (n: nat)
    ensures n <= |s|
    ensures AllSpace(s[|s| - n..])
    ensures n < |s| ==> !IsSpace(s[|s| - n - 1])
  {
    if |s| == 0 || !IsSpace(s[|s| - 1]) then 0
    else
      var n := 1 + TrailingSpace(s[..|s| - 1]);
      assert s[|s| - n..] == s[..|s| - 1][|s| - 1 - (n - 1)..] + [s[|s| - 1]];
      n
  }

  /** Python's `s.strip()`: the text between the leading and trailing whitespace. */
  function Strip(s: string): (r: string)
    ensures LeadingSpace(s) + |r| <= |s|
    ensures s[LeadingSpace(s)..LeadingSpace(s) + |r|] == r
    ensures AllSpace(s[LeadingSpace(s) + |r|..])
    ensures r == [] || (!IsSpace(r[0]) && !IsSpace(r[|r| - 1]))
  {
    var lead := LeadingSpace(s);
    if lead == |s| then []
    else
      var trail := TrailingSpace(s);
      s[lead..|s| - trail]
  }

  /** Stripping twice is stripping once. */
  lemma StripIdempotent(s: string)
    ensures Strip(Strip(s)) == Strip(s)
  {
    var r := Strip(s);
    if r != [] {
      assert LeadingSpace(r) == 0;
      assert TrailingSpace(r) == 0;
    }
  }

  function Count(s: string, c: char): (n: nat)
    ensures n <= |s|
    ensures n == 0 <==> c !in s
  {
    if |s| == 0 then 0
    else (if s[0] == c then 1 else 0) + Count(s[1..], c)
  }

  lemma CountAppend(a: string, b: string, c: char)
    ensures Count(a + b, c) == Count(a, c) + Count(b, c)
  {
    if |a| > 0 {
      assert (a + b)[1..] == a[1..] + b;
      CountAppend(a[1..], b, c);
    } else {
      assert a + b == b;
    }
  }

  /** Index of the first occurrence of `c`. */
  function IndexOf(s: string, c: char): (i: nat)
    requires c in s
    ensures i < |s| && s[i] == c && c !in s[..i]
  {
    if s[0] == c then 0
    else
      var i := 1 + IndexOf(s[1..], c);
      assert s[..i] == [s[0]] + s[1..][..i - 1];
      i
  }

  /** `parts` joined with the separator between consecutive parts. */
  function Join(parts: seq<string>, sep: char): string
    requires |parts| > 0
  {
    if |parts| == 1 then parts[0]
    else parts[0] + [sep] + Join(parts[1..], sep)
  }

  /** Python's `s.split(sep)` for a one-character separator: one more part than
      there are separators, no part holds the separator, and joining the parts
      gives `s` back. */
  function Split(s: string, sep: char): (parts: seq<string>)
    ensures |parts| == Count(s, sep) + 1
    ensures forall i :: 0 <= i < |parts| ==> sep !in parts[i]
    ensures Join(parts, sep) == s
    decreases |s|
  {
    if sep !in s then [s]
    else
      var i := IndexOf(s, sep);
      var rest := Split(s[i + 1..], sep);
      assert s == s[..i] + [sep] + s[i + 1..];
      CountAppend(s[..i] + [sep], s[i + 1..], sep);
      CountAppend(s[..i], [sep], sep);
      assert Count(s[..i], sep) == 0;
      assert ([s[..i]] + rest)[1..] == rest;
      [s[..i]] + rest
  }

  /** Splitting a string whose first separator follows `head` yields `head`
      followed by the parts of the rest. */
  lemma SplitAtFirst(head: string, sep: char, tail: string)
    requires sep !in head
    ensures Split(head + [sep] + tail, sep) == [head] + Split(tail, sep)
  {
    var j := head + [sep] + tail;
    assert j[|head|] == sep;
    var i := IndexOf(j, sep);
    assert i == |head|;
    assert j[..i] == head;
    assert j[i + 1..] == tail;
  }

  /** Splitting undoes joining when no part holds the separator. */
  lemma {:induction false} SplitJoin(parts: seq<string>, sep: char)
    requires |parts| > 0
    requires forall i :: 0 <= i < |parts| ==> sep !in parts[i]
    ensures Split(Join(parts, sep), sep) == parts
  {
    if |parts| > 1 {
      SplitJoin(parts[1..], sep);
      SplitAtFirst(parts[0], sep, Join(parts[1..], sep));
      assert parts == [parts[0]] + parts[1..];
    }
  }

  /** POSIX `basename`: the part of `path` after its last '/'. */
  function Basename(path: string): (b: string)
    ensures '/' !in b
    ensures |b| <= |path| && path[|path| - |b|..] == b
    ensures |b| < |path| ==> path[|path| - |b| - 1] == '/'
  {
    if |path| == 0 || path[|path| - 1] == '/' then []
    else
      var b := Basename(path[..|path| - 1]) + [path[|path| - 1]];
      assert path[..|path| - 1][|path| - |b|..] + [path[|path| - 1]] == path[|path| - |b|..];
      b
  }

  /** Rust's `Path::file_name`: the last component of `path`, where
      repeated and trailing separators and "." components do not count;
      none when the path is empty, the root, or ends in "..". */
  function FileName(path: string): (r: Option<string>)
    ensures r.Some? ==> r.value != "" && r.value != "." && r.value != ".." && '/' !in r.value
    decreases |path|
  {
    if |path| == 0 then None
    else if path[|path| - 1] == '/' then FileName(path[..|path| - 1])
    else
      var b := Basename(path);
      if b == "." then FileName(path[..|path| - 1])
      else if b == ".." then None
      else Some(b)
  }

  /** A path whose last component is an ordinary name is named by it, as
      POSIX `basename` names it. */
  lemma FileNameOfBasename(path: string)
    requires Basename(path) != "" && Basename(path) != "." && Basename(path) != ".."
    ensures FileName(path) == Some(Basename(path))
  {
  }

  /** A trailing separator or "." component does not change the name, and a
      trailing ".." leaves none. */
  lemma {:induction false} FileNameTrailing(path: string)
    ensures FileName(path + "/") == FileName(path)
    ensures FileName(path + "/.") == FileName(path)
    ensures FileName(path + "/..") == None
  {
    assert (path + "/")[..|path|] == path;
    var dot := path + "/.";
    assert dot[..|dot| - 1] == path + "/";
    assert Basename(dot) == Basename(path + "/") + ".";
    var up := path + "/..";
    assert up[..|up| - 1] == path + "/.";
    assert Basename(up) == Basename(path + "/.") + ".";
  }

  predicate IsDigit(c: char) {
    '0' <= c <= '9'
  }

  predicate AllDigits(s: string) {
    forall i :: 0 <= i < |s| ==> IsDigit(s[i])
  }

  /** Value of a non-empty run of decimal digits, most significant first. */
  function DigitsValue(ds: string): nat
    requires AllDigits(ds)
  {
    if |ds| == 0 then 0
    else 10 * DigitsValue(ds[..|ds| - 1]) + (ds[|ds| - 1] as int - '0' as int)
  }

  /** `s` without its leading whitespace. */
  function SkipSpace(s: string): (t: string)
    ensures |t| <= |s| && s[|s| - |t|..] == t
    ensures |t| > 0 ==> !IsSpace(t[0])
  {
    s[LeadingSpace(s)..]
  }

  /** A decimal integer literal with an optional sign, as Python 2's `int()`
      reads it once the surrounding whitespace is removed: the digit reader
      it hands the text after the sign to skips whitespace again, so
      whitespace may also sit between the sign and the digits. */
  predicate IsIntLiteral(t: string) {
    if |t| > 0 && (t[0] == '+' || t[0] == '-') then
      var d := SkipSpace(t[1..]);
      |d| > 0 && AllDigits(d)
    else |t| > 0 && AllDigits(t)
  }

  /** Python 2's `int(s)` on a string: `None` stands for the `ValueError`. */
  function ParseInt(s: string): (r: Option<int>)
    ensures r.Some? <==> IsIntLiteral(Strip(s))
    ensures r.Some? && Strip(s)[0] == '-' ==> r.value <= 0
    ensures r.Some? && Strip(s)[0] != '-' ==> r.value >= 0
  {
    var t := Strip(s);
    if |t| > 0 && (t[0] == '+' || t[0] == '-') then
      var d := SkipSpace(t[1..]);
      if |d| > 0 && AllDigits(d) then
        var v: int := DigitsValue(d);
        Some(if t[0] == '-' then -v else v)
      else None
    else if |t| > 0 && AllDigits(t) then Some(DigitsValue(t))
    else None
  }

  /** A signed literal with no surrounding whitespace reads as its digits,
      negated after '-'. */
  lemma {:induction false} ParseSigned(t: string)
    requires |t| > 1 && (t[0] == '+' || t[0] == '-') && !IsSpace(t[|t| - 1])
    requires |SkipSpace(t[1..])| > 0 && AllDigits(SkipSpace(t[1..]))
    ensures var v: int := DigitsValue(SkipSpace(t[1..]));
      ParseInt(t) == Some(if t[0] == '-' then -v else v)
  {
    StripUnchanged(t);
  }

  /** Whitespace between the sign and the digits is accepted. */
  lemma SpaceAfterSign()
    ensures ParseInt("- 5") == Some(-5)
  {
    var a := "- 5";
    assert a[1..] == " 5";
    assert SkipSpace(" 5") == "5" by { assert " 5"[1..] == "5"; assert LeadingSpace("5") == 0; }
    assert DigitsValue("5") == 5 by { assert "5"[..0] == ""; }
    ParseSigned(a);
  }

  /** A sign followed only by whitespace is not a number. */
  lemma SignWithoutDigits()
    ensures ParseInt("- ") == None
  {
    var a := "- ";
    assert a[..1] == "-";
    assert TrailingSpace("-") == 0;
    assert TrailingSpace(a) == 1;
    assert LeadingSpace(a) == 0;
    assert Strip(a) == "-";
  }

  function DigitChar(d: nat): (c: char)
    requires d < 10
    ensures IsDigit(c) && c as int - '0' as int == d
  {
    (d + '0' as int) as char
  }

  /** Decimal rendering of a natural number, without leading zeros. */
  function NatToString(n: nat): (s: string)
    ensures |s| > 0 && AllDigits(s)
    ensures !IsSpace(s[0]) && !IsSpace(s[|s| - 1])
  {
    if n < 10 then [DigitChar(n)]
    else NatToString(n / 10) + [DigitChar(n % 10)]
  }

  /** Python's `str(n)` for an integer. */
  function IntToString(n: int): (s: string)
    ensures |s| > 0 && !IsSpace(s[0]) && !IsSpace(s[|s| - 1])
  {
    if n < 0 then "-" + NatToString(-n) else NatToString(n)
  }

  lemma {:induction false} DigitsOfNat(n: nat)
    ensures DigitsValue(NatToString(n)) == n
  {
    if n >= 10 {
      var s := NatToString(n);
      assert s[..|s| - 1] == NatToString(n / 10);
      DigitsOfNat(n / 10);
    }
  }

  lemma StripUnchanged(s: string)
    requires |s| > 0 && !IsSpace(s[0]) && !IsSpace(s[|s| - 1])
    ensures Strip(s) == s
  {
    assert LeadingSpace(s) == 0;
    assert TrailingSpace(s) == 0;
  }

  /** A minus sign directly followed by digits reads as their negated value. */
  lemma {:induction false} ParseNegatedDigits(ds: string)
    requires |ds| > 0 && AllDigits(ds)
    ensures var v: int := DigitsValue(ds); ParseInt("-" + ds) == Some(-v)
  {
    var t := "-" + ds;
    assert t[1..] == ds;
    assert IsDigit(ds[0]) && IsDigit(t[|t| - 1]);
    assert LeadingSpace(ds) == 0;
    ParseSigned(t);
  }

  lemma {:induction false} ParseIntOfNegative(n: int)
    requires n < 0
    ensures ParseInt(IntToString(n)) == Some(n)
  {
    var ds := NatToString(-n);
    assert IntToString(n) == "-" + ds;
    ParseNegatedDigits(ds);
    DigitsOfNat(-n);
  }

  lemma {:induction false} ParseIntOfNonNegative(n: int)
    requires n >= 0
    ensures ParseInt(IntToString(n)) == Some(n)
  {
    var s := IntToString(n);
    StripUnchanged(s);
    assert s == NatToString(n) && IsDigit(s[0]);
    DigitsOfNat(n);
    assert ParseInt(s) == Some(DigitsValue(s));
  }

  /** Reading back what `str(n)` wrote gives `n`. */
  lemma {:induction false} ParseIntOfIntToString(n: int)
    ensures ParseInt(IntToString(n)) == Some(n)
  {
    if n < 0 {
      ParseIntOfNegative(n);
    } else {
      ParseIntOfNonNegative(n);
    }
  }
}

=== FILE: tokens.dfy ===
/** Where the commit cloud access token lives and how it is normalised. The
    token is kept either in a token file (the `.commitcloudrc` config in the
    home directory or in `commitcloud.user_token_path`) or, on macOS, in the
    login keychain. The file and keychain are reduced to the token value each
    holds. */
module Tokens {
  import opened Wrappers
  import opened Text

  /** The sentinel returned when TLS authentication needs no token. */
  const NotRequired: string := "not-required"

  /** The settings that choose the backend. */
  datatype TokenConfig = TokenConfig(
    /** commitcloud.tls.notoken */
    noToken: bool,
    /** commitcloud.user_token_path, if set */
    userTokenPath: Option<string>,
    isDarwin: bool)

  /** The stored token in each backend; `None` is "not stored". */
  datatype TokenStores = TokenStores(file: Option<string>, keychain: Option<string>)

  datatype Backend = TokenFile | Keychain

  /** An explicit token path always means the token file; otherwise macOS
      uses the keychain and every other platform the token file. An empty
      path counts as unset. */
  function BackendOf(cfg: TokenConfig): (b: Backend)
    ensures b == Keychain <==> cfg.isDarwin && (cfg.userTokenPath.None? || cfg.userTokenPath.value == "")
  {
    if cfg.userTokenPath.Some? && cfg.userTokenPath.value != "" then TokenFile
    else if cfg.isDarwin then Keychain
    else TokenFile
  }

  /** The keychain lookup prints the password; its output is stripped and an
      empty answer means no token. */
  function KeychainRead(stored: Option<string>): (t: Option<string>)
    ensures t.Some? ==> t.value != "" && Strip(t.value) == t.value
    ensures stored.None? ==> t.None?
  {
    if stored.None? then None
    else
      var text := Strip(stored.value);
      StripIdempotent(stored.value);
      if text != "" then Some(text) else None
  }

  /** The stored token, whitespace-stripped, or the sentinel when none is
      needed. */
  function GetToken(cfg: TokenConfig, stores: TokenStores): (t: Option<string>)
    ensures cfg.noToken ==> t == Some(NotRequired)
    ensures !cfg.noToken && t.Some? ==> Strip(t.value) == t.value
    ensures !cfg.noToken && BackendOf(cfg) == TokenFile ==>
      (t.Some? <==> stores.file.Some?)
    ensures !cfg.noToken && BackendOf(cfg) == TokenFile && stores.file.Some? ==>
      t.value == Strip(stores.file.value)
    // the keychain answers with what its lookup finds: nothing when no
    // password is stored or the stored one is blank
    ensures !cfg.noToken && BackendOf(cfg) == Keychain ==> t == KeychainRead(stores.keychain)
  {
    if cfg.noToken then Some(NotRequired)
    else
      var raw := if BackendOf(cfg) == TokenFile then stores.file else KeychainRead(stores.keychain);
      if raw.Some? then
        StripIdempotent(raw.value);
        Some(Strip(raw.value))
      else None
  }

  /** Stores the stripped token in the chosen backend; the other backend is
      untouched. */
  function SetToken(cfg: TokenConfig, stores: TokenStores, token: string): (r: TokenStores)
    ensures r.file == stores.file || r.keychain == stores.keychain
    ensures BackendOf(cfg) == TokenFile ==> r == stores.(file := Some(Strip(token)))
    ensures BackendOf(cfg) == Keychain ==> r == stores.(keychain := Some(Strip(token)))
  {
    match BackendOf(cfg) {
      case TokenFile => stores.(file := Some(Strip(token)))
      case Keychain => stores.(keychain := Some(Strip(token)))
    }
  }

  /** Reading after storing gives the stored token back, stripped, unless TLS
      needs no token; a keychain holding only whitespace reads as no token. */
  lemma SetThenGet(cfg: TokenConfig, stores: TokenStores, token: string)
    requires !cfg.noToken
    ensures GetToken(cfg, SetToken(cfg, stores, token)) ==
      if Strip(token) == "" && BackendOf(cfg) == Keychain then None else Some(Strip(token))
  {
    StripIdempotent(token);
  }

  /** Storing is insensitive to surrounding whitespace. */
  lemma SetTokenIgnoresPadding(cfg: TokenConfig, stores: TokenStores, token: string)
    ensures SetToken(cfg, stores, Strip(token)) == SetToken(cfg, stores, token)
  {
    StripIdempotent(token);
  }
}

=== FILE: wrappers.dfy ===
/** Option and Result, the two failure-carrying shapes every other module uses. */
module Wrappers {

  datatype Option<+T> = None | Some(value: T) {

    function GetOr(default: T): T {
      match this
      case Some(v) => v
      case None => default
    }
  }

  datatype Result<+R, +E> = Success(value: R) | Failure(error: E) {

    predicate IsFailure() {
      Failure?
    }

    function PropagateFailure<U>(): Result<U, E>
      requires Failure?
    {
      Failure(error)
    }

    function Extract(): R
      requires Success?
    {
      value
    }
  }
}
